=== FILE: README.md ===
# Jamf autopkg processors: a Dafny model

This project models three autopkg processors. Together they move a package
through a Jamf Pro pipeline:

- **JPCImporter** uploads a new package. It sets the package's category and
  notes, retrying while the server settles. It then points the `TEST-<title>`
  deployment policy at the package and leaves that policy disabled.
- **PatchManager** reads the package that `TEST-<package>` installs and
  derives its version from the file name. It attaches the package to the
  matching version of the patch title. It then moves the title's first "Test"
  patch policy to that version.
- **Production** reads the package that `Test-<title>` installs. It
  re-points the `Install <package>` policy at that package and attaches it to
  the exactly matching version of the patch title. Every "Stable" patch policy
  of the title moves to the version, and every "Test" patch policy is disabled.

The remote Jamf server is an abstract `World`:

- `db` holds the deployment policies, the package records, the patch titles
  (each with its version records) and the patch policies.
- `codes` is a status-code oracle. It answers each call in turn. A missing
  record always answers 404. Once the oracle runs out, every call gets its
  normal success status: 200 for GET, 201 for PUT. `Happy(w)` means every call
  succeeds.
- `log` holds every call made, including the pauses of the retry loop.
- `written` lists every write the server committed, in order.

Each processor is a pure function from a `World` to a step: the new world and
an `Outcome` (`Ok` or `Fail` with an error). A hard error stops the run.
Writes already committed stay in place.

Modules follow the program:

- `Outcomes`: results and errors.
- `Seqs`: first index, substring search.
- `Names`: file-name derivations.
- `Records`: the record edits on their own.
- `Backend`: the server and its calls.
- `PatchManager`, `Production`, `JPCImporter`: one module per processor.
- `PatchManagerWrites`, `ProductionWrites`: the order of each run's writes,
  and that the first call answered with anything but success ends the run.
- `JPCImporterCalls`: which failed calls JPCImporter goes on after (the
  lookup of the package by name and the attempts of the retry loop) and that
  any other failed call ends the run.
- `PatchManagerRecovery`, `JPCImporterRecovery`: what a rerun does after a run
  that failed half-way, as written and as corrected.

The code has no promotion gate (no weekday, time-of-day or dwell-time test),
and none is modelled. `Description(title, day)` is an opaque string built from
the day parameter, and nothing parses it.

## Model

| member | source | states |
|---|---|---|
| Names.Title | JPCImporter.py:94-95 | The title is the longest prefix of the file name without a `-`. It is the whole name exactly when the name has no `-`, and otherwise it is followed by the first `-`. |
| Names.Version | PatchManager.py:144-147 | The version is absent exactly when the name has no `-`. Otherwise it is the text after the first `-`, minus the last four characters, and empty when that text is shorter. |
| Names.TitleOfFileName | JPCImporter.py:95 | Round trip: the title derived from `title-version.ext` is `title`, for any title without a `-`. |
| Names.VersionOfFileName | Production.py:115 | Round trip: the version derived from `title-version.ext` with a four-character extension is `version`. |
| Names.VersionExample | PatchManager.py:144-147 | `MyApp-3.2.1.pkg` gives version `3.2.1` and title `MyApp`. |
| Names.Basename | JPCImporter.py:94 | The base name is the longest suffix of the path without a `/`. It is preceded by a `/` whenever it is shorter than the path. |
| Names.PatchTitleName | PatchManager.py:298-301 | The patch title name is the `patch` setting when that setting is present and non-empty, and the package name otherwise. |
| Seqs.ContainsIsOccurs | PatchManager.py:241 | The executable substring test agrees with the definition "sub occurs at some position of s", in both directions. |
| Records.Repoint | Production.py:129-131 | Re-pointing succeeds exactly when the policy has a package element. It then points at the given package and keeps the id, name and enabled flag. Without a package element it fails with a missing-definition error. |
| Records.ArmTestPolicy | JPCImporter.py:162-168 | The TEST-policy edit succeeds exactly when the policy has a package element. It then points at the new package, is disabled, and keeps its id and name. |
| Records.AttachContaining | PatchManager.py:186-210 | No match exactly when no label contains the version. Otherwise the first label that contains it is selected. It reports "already attached" exactly when that record has a package name. When it attaches, only that record changes, to carry the package. |
| Records.AttachExact | Production.py:177-193 | Fails exactly when no label equals the version. Otherwise the first equal label gets the package, whatever it held before, and every other record is unchanged. |
| Records.AttachContainingConverges | PatchManager.py:188-194 | After attaching a named package, a second attach of any package on the result selects the same record and finds it already attached. |
| Records.AttachExactIdempotent | Production.py:179-187 | Attaching the same package twice by exact match gives the same version list as attaching it once. |
| Records.ExactMatchIsContainingMatch | PatchManager.py:189 | A label equal to the version also contains it, so the containing match is found no later than the exact one. |
| Records.ContainingMatchesLongerLabel | PatchManager.py:189 | Counterexample to exact matching: with labels `3.2.1` then `3.2`, version `3.2` selects `3.2.1` under substring matching but `3.2` under exact matching. |
| Records.SendToTest | PatchManager.py:267-275 | The sent patch policy targets the matched label, has an empty release date, is enabled, carries the update description, and keeps its id, name and title. |
| Records.Promote | Production.py:233-240 | The Stable edit targets the version, empties the release date and sets the description. It leaves the enabled flag, id, name and title alone. |
| Records.Retire | Production.py:263 | The Test edit disables the patch policy and changes nothing else. |
| Backend.Get | Production.py:103-109 | A GET changes no record and logs one call. It succeeds exactly when the oracle answers 200, and then returns the stored record. Otherwise it fails with the status, and a missing record always fails. |
| Backend.Put | Production.py:134-140 | A PUT logs one call. It commits the new records and records the write exactly when the oracle answers 201. Otherwise it fails with the status and leaves the records unchanged. |
| Backend.ReadRelease | PatchManager.py:116-147 | Reading the release changes nothing. It returns the package the named policy points at and the version in that package's file name. A missing policy fails with 404. When every call succeeds, a missing package element or a name without `-` is the error, and otherwise it succeeds. When the policy exists and the first answer is not 200, the read fails with that GET and that status. |
| Backend.StopsAtFailureMeans | PatchManager.py:122-129 | What "stops at the first failure" means for any step: a call answered with anything but success is the last call made, and the step fails with that call's verb, resource and status. The writes committed are then those of the successful PUTs before it. |
| Backend.ReadReleaseStops | PatchManager.py:116-139 | Reading the release stops at a non-200 answer with that status, and writes nothing. |
| Backend.SelectedTitle | PatchManager.py:164-173 | A title is selected exactly when some listed title has the name. The selected index is in range. |
| Backend.SelectedTitleIsFirstNamed | PatchManager.py:164-173 | Under unique title ids, the selected title is the first one with the name: it has the name and no earlier title does. |
| PatchManager.SelectedTestPolicy | PatchManager.py:234-245 | A Test patch policy is selected exactly when some patch policy of the title has "Test" in its name. |
| PatchManager.SameIdentitySameTestPolicy | PatchManager.py:234-245 | Rewriting patch policies without changing their ids, names or titles keeps the same Test patch policy selected. |
| PatchManager.SelectedTestPolicyIsFirst | PatchManager.py:234-245 | Under unique patch-policy ids, the selected patch policy is the least index whose title id matches and whose name contains "Test". No earlier patch policy satisfies both. |
| PatchManager.AttachToDefinition | PatchManager.py:149-219 | Only patch titles can change. A failure or "already attached" changes nothing. Errors are a status, a missing title or a missing version. The patch definition is written exactly when the version was attached. |
| PatchManager.SendTestPolicy | PatchManager.py:221-288 | Only patch policies can change. A failure or "already targets the version" changes nothing. Errors are a status or a missing Test patch policy. The patch policy is written exactly when it was sent to test. |
| PatchManager.AttachToDefinitionSelects | PatchManager.py:164-210 | The title selected by name has its first containing version attached. Nothing is written when that version already has a package. When every call succeeds, the run fails only for a missing title or a version that no label contains. |
| PatchManager.SendTestPolicySelects | PatchManager.py:234-288 | Only the first Test patch policy of the title is considered. It is left alone when it already targets the version, and sent to test otherwise. When every call succeeds, the run fails exactly when the title has no Test patch policy. |
| PatchManager.Patch | PatchManager.py:149-288 | `patch()` never touches deployment policies or packages. A missing title or version changes nothing. Returning 0 leaves the patch policies unchanged. |
| PatchManager.MainKeepsRecords | PatchManager.py:290-319 | `main()` never touches deployment policies or packages. A failed lookup, a missing title or a missing version changes nothing. No patch policy changes unless one is sent to test. |
| PatchManager.MainReportsRelease | PatchManager.py:302-313 | A summary names the package and the version derived from the package that its TEST policy points at. |
| PatchManager.AttachToDefinitionConverges | PatchManager.py:188-194 | After a successful patch-definition step, the same step on the written titles finds the version already attached. |
| PatchManager.RerunWritesNothing | PatchManager.py:290-319 | Idempotence: after a successful run, a second run in which every call succeeds reports no summary, changes no record and writes nothing. |
| PatchManager.MainSendsToTest | PatchManager.py:149-288 | When every call succeeds and every record is in place, the matched version gets the package. The selected Test patch policy is sent to test with that label, and the summary names it. |
| PatchManagerRecovery.PatchRecovering | PatchManager.py:149-288 | Corrected `patch()`: deployment policies and packages are never touched. A missing title or version changes nothing. The patch-policy step runs after "already attached" too, and compares the target with the matched label it writes. |
| PatchManagerRecovery.MainRecovering | PatchManager.py:290-319 | Corrected `main()`: deployment policies and packages are never touched. |
| PatchManagerRecovery.PartialRunAttached | PatchManager.py:188-219 | A run that committed a write and then failed had written the patch definition. The records it leaves are those the attach step left. |
| PatchManagerRecovery.PartialRecoveringRunAttached | PatchManager.py:188-219 | The same for the corrected run. |
| PatchManagerRecovery.RerunFindsAttached | PatchManager.py:188-194 | After the attach step succeeded, a clean rerun reads the same release. It finds the version already attached, in the same title and under the same label, and changes nothing. |
| PatchManagerRecovery.PartialRunStaysUnsent | PatchManager.py:192-194 | As written: after a run that wrote the patch definition and then failed, the patch policies are unchanged. A clean rerun returns 0 and changes nothing, so the Test patch policy is never sent. |
| PatchManagerRecovery.RecoveringRerunSends | PatchManager.py:221-288 | Corrected: after such a partial run, with the selected Test patch policy not yet at the matched label, a clean rerun reports a summary naming that patch policy and the version. The patch policy at the selected index becomes the sent-to-test edit with the matched label, no other record changes, and that patch policy is the only write. |
| PatchManagerRecovery.RecoveringRunOnAttached | PatchManager.py:234-288 | Corrected: a clean run that finds the version attached writes nothing and reports nothing when the selected Test patch policy already targets the matched label. Otherwise it sends exactly that patch policy to test, writes it alone, and reports it. |
| PatchManagerRecovery.SendTestPolicySettles | PatchManager.py:261-287 | After a successful patch-policy step the same Test patch policy is selected. It targets the compared version when nothing was written, and the written label otherwise. |
| PatchManagerRecovery.RecoveringRunSettles | PatchManager.py:149-288 | Corrected: a successful run leaves the selected Test patch policy at the matched label, the titles as the attach step left them, and the deployment policies unchanged. |
| PatchManagerRecovery.RecoveringRerunWritesNothing | PatchManager.py:290-319 | Idempotence of the corrected run: after a successful run, a clean rerun reports no summary, changes no record and writes nothing, whatever the version labels. This holds even for a label that only contains the version. |
| PatchManagerWrites.AttachToDefinitionWrites | PatchManager.py:211-219 | The patch-definition step commits exactly the title write, and only when it attached. |
| PatchManagerWrites.SendTestPolicyWrites | PatchManager.py:276-287 | The patch-policy step commits exactly the write of that patch policy, and only when it sent it to test. |
| PatchManagerWrites.PatchWritesInOrder | PatchManager.py:211-287 | `patch()` writes nothing, or the patch definition, or the patch definition then the returned patch policy. It returns an id exactly when it wrote both. A missing title or version writes nothing, and the run never fails for want of a package. |
| PatchManagerWrites.AttachToDefinitionStops | PatchManager.py:149-219 | The patch-definition step stops at the first non-success answer, with that status. Every earlier call succeeded, and the writes are those of its successful PUTs. |
| PatchManagerWrites.AttachFetchedStops | PatchManager.py:176-219 | The same, once the title list and the title were read. |
| PatchManagerWrites.SendTestPolicyStops | PatchManager.py:221-288 | The patch-policy step stops at the first non-200 GET or non-201 PUT, with that status. |
| PatchManagerWrites.PatchStops | PatchManager.py:149-288 | `patch()` stops at the first non-success answer, with that status. |
| PatchManagerWrites.MainStops | PatchManager.py:290-319 | `main()` stops at the first non-success answer, with that status. |
| PatchManagerWrites.MainStopsAtFailure | PatchManager.py:290-319 | A non-success answer is the last call the run makes, and the run fails with that call and status. Nothing after it is written: the writes are those of the successful PUTs before it. |
| PatchManagerWrites.MainWritesInOrder | PatchManager.py:290-319 | `main()` writes at most the patch definition, then the patch policy. A summary comes exactly with both writes. A failed lookup (no package element, or a name without `-`), a missing title or a missing version writes nothing. |
| Production.UpdateInstall | Production.py:117-140 | Only the Install policy changes, to point at the release's package, and it is written only on success. When every call succeeds, the step succeeds exactly when the Install policy exists with a package element. |
| Production.AttachRelease | Production.py:142-202 | Only patch titles change, and only on success. Errors are a status, a missing title or a missing version. The patch definition is written exactly on success. |
| Production.AttachReleaseSelects | Production.py:156-193 | The title selected by name gets the release on its exactly matching version. When every call succeeds, the step fails only for a missing title or an undeclared version. |
| Production.EditById | Production.py:220-248 | Only the patch policy of that id changes, by the given edit, and it is written exactly on success. When every call succeeds, the step succeeds exactly when the id exists. |
| Production.EditListed | Production.py:218-271 | Handling one listed patch policy changes only patch policies, keeps their number, and fails only with a status. |
| Production.EditAll | Production.py:217-271 | The loop changes only patch policies, keeps their number, and fails only with a status. |
| Production.Patch | Production.py:142-271 | `patch()` never touches deployment policies or packages. A missing title or version changes nothing. |
| Production.MainReports | Production.py:273-297 | Packages are never touched. A summary names the package and the version derived from the Test policy's package. A missing title or version leaves titles and patch policies alone. |
| Production.ClearSummaryAsWritten | Production.py:278-280 | As written, clearing fails exactly when the summary key is present and the deleted key is not. On success, a present summary key stays. |
| Production.ClearSummary | Production.py:277-280 | As intended, clearing drops the summary key and keeps every other key. |
| Production.ExecuteAsWritten | Production.py:273-297 | As written, a leftover summary without the other key stops the invocation before any call. |
| Production.LeftoverSummaryStopsRun | Production.py:278-280 | As written, an environment holding only the summary key makes the invocation fail before it logs any call. |
| Production.Execute | Production.py:273-297 | As intended, the invocation runs `main()`. Afterwards the summary key is present exactly when `main()` succeeded, and no other key changes. |
| Production.EditListedApplies | Production.py:218-271 | Under unique ids, one listed patch policy gets exactly its Production edit: Stable, then Test, by name. Every other patch policy is unchanged, and with every call succeeding the step succeeds. |
| Production.EditAllApplies | Production.py:217-271 | The loop applies the Production edit to every listed patch policy and leaves every unlisted one unchanged. It does not fail when every call succeeds. |
| Production.PatchEditsTitlePolicies | Production.py:142-271 | When every call succeeds and the title and version exist, the version gets the package. Exactly the patch policies of that title receive their Production edit. |
| Production.MainPromotes | Production.py:273-297 | When every call succeeds and every record is in place, the Install policy installs the Test policy's package and no other policy changes. Exactly the title's patch policies are edited, and the summary names the version. |
| Production.ReleaseInstalled | Production.py:97-140 | When every call succeeds, the release is the Test policy's package with its derived version. Only the Install policy changes, to point at it. |
| ProductionWrites.UpdateInstallWrites | Production.py:134-140 | Re-pointing commits exactly the Install policy write, and only on success. |
| ProductionWrites.AttachReleaseWrites | Production.py:195-202 | Attaching commits exactly the write of the selected title, and only on success. |
| ProductionWrites.EditByIdWrites | Production.py:241-248 | Editing a patch policy commits exactly that patch policy's write, and only on success. |
| ProductionWrites.EditListedWrites | Production.py:218-271 | Handling one listed patch policy writes patch policies only. |
| ProductionWrites.EditAllWrites | Production.py:217-271 | The loop writes patch policies only. |
| ProductionWrites.PatchWrites | Production.py:142-271 | `patch()` writes the patch definition before any patch policy, and writes at least that on success. A missing title or version writes nothing. |
| ProductionWrites.UpdateInstallStops | Production.py:117-140 | Re-pointing the Install policy stops at a non-200 GET or a non-201 PUT, with that status. |
| ProductionWrites.AttachReleaseStops | Production.py:142-202 | Attaching the release stops at the first non-success answer, with that status. |
| ProductionWrites.EditByIdStops | Production.py:220-248 | Editing one patch policy stops at a non-200 GET or a non-201 PUT, with that status. |
| ProductionWrites.EditListedStops | Production.py:218-271 | Handling one listed patch policy stops at the first non-success answer. |
| ProductionWrites.EditAllStops | Production.py:217-271 | The loop over the listed patch policies stops at the first non-success answer, leaving the later ones unread. |
| ProductionWrites.PatchStops | Production.py:142-271 | `patch()` stops at the first non-success answer, with that status. |
| ProductionWrites.MainStopsAtFailure | Production.py:273-297 | A non-success answer is the last call the run makes, and the run fails with that call and status. Nothing after it is written: the writes are those of the successful PUTs before it. |
| ProductionWrites.MainWritesInOrder | Production.py:273-297 | `main()` writes the Install policy, then the patch definition, then patch policies. A successful run writes at least the first two. A missing title or version leaves the Install policy as the only write. A failed lookup writes nothing. |
| JPCImporter.UpdatePackage | JPCImporter.py:140-151 | On success, exactly the package record of that id is replaced. A failure changes nothing and carries the status of a PUT on that record. A missing record always fails. The record is written exactly on success. |
| JPCImporter.RetryUpdatePackage | JPCImporter.py:140-151 | The `while True` loop with its counter computes the same step as the recursive definition of the loop. |
| JPCImporter.AttemptsMade | JPCImporter.py:141-151 | The attempts made run up to and including the first 201, or cover all statuses. Every attempt before the last one failed. |
| JPCImporter.UpdatePackageAttempts | JPCImporter.py:140-151 | The loop makes `AttemptsMade` attempts on the statuses the oracle gives, with a pause between two. It succeeds exactly when the last attempt got 201, and otherwise fails with that status. |
| JPCImporter.UpdatePackageLog | JPCImporter.py:140-151 | The loop's log is the attempt log read off the oracle one status at a time. It succeeds exactly when the last status was 201, and otherwise fails with that status. |
| JPCImporter.AttemptLogIsTries | JPCImporter.py:140-151 | Reading the oracle one status at a time gives the same attempts and the same last status as listing the statuses up front. |
| JPCImporter.TriesCounts | JPCImporter.py:141-150 | `k` attempts log `k` package updates and `k - 1` pauses. |
| JPCImporter.RetryGivesUp | JPCImporter.py:147-150 | Six failing statuses give six PUT attempts and five pauses, then a failure with the sixth status. |
| JPCImporter.RetrySucceeds | JPCImporter.py:144-146 | With at most five failures followed by a 201, the loop stores the record. It makes one attempt more than there were failures and pauses once after each failure. |
| JPCImporter.Uploaded | JPCImporter.py:105-124 | The upload is logged. When the server answered an id, a bare package record of that id and name exists, and nothing is written. |
| JPCImporter.UploadPackage | JPCImporter.py:86-179 | `upload()` never touches patch titles or patch policies. It never fails with "package not found", and a failure leaves the deployment policies unchanged. It keeps every call succeeding. |
| JPCImporter.PointTestPolicy | JPCImporter.py:153-179 | Only the TEST policy changes, to point at the new package, disabled, and it is written back under its own id, which is returned. A failure changes nothing. When every call succeeds, the step succeeds exactly when the policy exists with a package element. |
| JPCImporter.Main | JPCImporter.py:181-197 | A missing package file is the error exactly when the file is absent, and then no call is made. Patch titles and patch policies are never touched. |
| JPCImporter.MainUploads | JPCImporter.py:181-197 | For a new package with a fresh id, when every call succeeds, the package record is added with its category and notes. Exactly the TEST policy is re-pointed and disabled, and the summary names it. |
| JPCImporter.UploadStoresPackage | JPCImporter.py:86-179 | For a new package with a fresh id, when every call succeeds, `upload()` stores the record and re-points exactly the TEST policy. It returns that policy's id. |
| JPCImporter.PointTestPolicyHappy | JPCImporter.py:153-179 | When every call succeeds and ids are unique, exactly the TEST policy is re-pointed and disabled, and its id is the answer. |
| JPCImporter.UploadSkipsKnown | JPCImporter.py:97-103 | `upload()` returns 0 only when the server already knew the name, and then nothing changed. When every call succeeds, a known name is always skipped. |
| JPCImporter.UploadWithoutId | JPCImporter.py:121-123 | An empty upload id is a hard error that changes nothing, unless the package was already known. Only an empty id causes that error. |
| JPCImporter.UploadReportsPolicy | JPCImporter.py:153-179 | A returned policy id is that of the title's TEST policy as it was before the run, and that policy had a package element. |
| JPCImporter.MainOutcomes | JPCImporter.py:187-197 | No summary means the package existed and nothing changed. A summary names the package path and the TEST policy. |
| JPCImporter.UploadKnowsPackage | JPCImporter.py:86-179 | After a successful `upload()` the server knows a package of that name. |
| JPCImporter.RerunSkipsUpload | JPCImporter.py:97-103 | Idempotence: after a successful run, a second run in which every call succeeds skips the upload, changes nothing and writes nothing. |
| JPCImporterRecovery.SyncTestPolicy | JPCImporter.py:153-175 | Corrected TEST-policy step for a known package: only policies change, and a failure changes nothing. Answering no id changes and writes nothing. Success needs the TEST policy with a package element. |
| JPCImporterRecovery.UploadRecovering | JPCImporter.py:86-179 | Corrected `upload()`: patch titles and patch policies are never touched. A failure leaves the policies alone and is never "package not found". |
| JPCImporterRecovery.MainRecovering | JPCImporter.py:181-197 | Corrected `main()`: a missing file is the error exactly when the file is absent. A failure leaves the policies alone. |
| JPCImporterRecovery.MainRecoveringPhases | JPCImporter.py:181-197 | With the package file present, the corrected `main()` ends where the corrected `upload()` ends. It fails with the same error, and succeeds when that succeeds. |
| JPCImporterRecovery.UploadRecoveringKnown | JPCImporter.py:97-103 | Corrected: a package the lookup finds goes to the TEST-policy check instead of returning 0. |
| JPCImporterRecovery.SyncTestPolicyHappy | JPCImporter.py:153-175 | When every call succeeds, no policy id is answered exactly when the TEST policy already points at the package, and then nothing changes, whether or not it is enabled. Otherwise exactly the TEST policy is pointed at the package and disabled, and its id is answered. |
| JPCImporterRecovery.PartialUploadStaysUnpointed | JPCImporter.py:101-103 | As written: a run that failed after the file upload has not touched the policies. A clean rerun finds the package by name and returns 0, changing nothing, so the TEST policy is never pointed at it. |
| JPCImporterRecovery.RecoveringRunPoints | JPCImporter.py:153-175 | Corrected: for a known package, when every call succeeds and the TEST policy already points at the first package of that name, nothing changes and no summary is reported. Otherwise the TEST policy is pointed there and disabled, nothing else changes, and the summary names it. |
| JPCImporterRecovery.RecoveringRerunPoints | JPCImporter.py:153-175 | Corrected: after a partial run that left the package on the server, a clean rerun succeeds. The TEST policy is then as it was if it already pointed at the package, and otherwise points at it, disabled. |
| JPCImporterRecovery.ArmedPolicyFoundFirst | JPCImporter.py:164-168 | Re-pointing the first policy of a name keeps it the first policy of that name. |
| JPCImporterCalls.UpdatePackageTolerated | JPCImporter.py:140-151 | Every call of the retry loop that does not succeed is a lookup of the package name or a PUT on that package record, so the run may go on after it. The writes are those of its successful PUTs. |
| JPCImporterCalls.PointTestPolicyStops | JPCImporter.py:153-179 | The TEST-policy step stops at a non-200 GET or a non-201 PUT, with that status. |
| JPCImporterCalls.UploadAfterLookupStops | JPCImporter.py:105-179 | After the lookup, `upload()` goes on only past a failed lookup of the package name or a failed PUT on the package record. Any other non-success answer is the last call, and the step fails with that status. |
| JPCImporterCalls.UploadPackageStops | JPCImporter.py:86-179 | `upload()` goes on only after a failed lookup by name or a failed retry attempt. Any other non-success answer is the last call, and the step fails with it. |
| JPCImporterCalls.MainStopsAtFailure | JPCImporter.py:181-197 | Every non-success answer other than the lookup's and a retried attempt's is the last call the run makes, and the run fails with that call and status. A run that fails with a status fails on its last call, and the writes are those of the successful PUTs before it. |
| JPCImporter.UpdatePackageWrites | JPCImporter.py:140-151 | The retry loop commits the package record once, and only on success. |
| JPCImporter.PointTestPolicyWrites | JPCImporter.py:169-175 | The TEST-policy step commits exactly that policy's write, and only on success. |
| JPCImporter.UploadWrites | JPCImporter.py:86-179 | `upload()` writes nothing for a known package. On success it writes the package record, then the policy. On failure it writes at most the package record. |
| JPCImporter.MainWrites | JPCImporter.py:181-197 | `main()` writes nothing for a missing file or a known package. It writes the package record then the TEST policy when it reports, and at most the package record on failure. |

## Left out

- Preference loading, cookie selection, logging set-up and the `curl` upload
  are I/O. The id that the upload answers is a parameter, where `""` stands
  for an empty `id` element in the response.
- A response with no `id` element at all is not modelled. `findtext` then
  gives `None`, which passes the `== ""` test (JPCImporter.py:122). The retry
  loop would then make six PUTs to `packages/id/None` and fail.
- XML parsing and serialisation are out. Records are datatypes, and a PUT
  stores the edited record as is.
- The clock is a parameter: the `day` string stands for `strftime` of
  `datetime.now`. The 15-second `sleep` is only logged as a `Sleep` call.
- Concurrent runs and lost updates are out. The model assumes a single
  writer.
- The processors' shared mutable `Package` object is an immutable value
  passed from step to step.
- Python exceptions, including those from a missing XML element (`None.text`,
  `None.split`), are `Fail` outcomes with a named error. The message text is
  not modelled.
- The environment summaries of PatchManager and JPCImporter are the `Summary`
  value in the outcome. Their clearing at the start of `main()` only removes a
  previous key and is not modelled. For Production, the environment is
  modelled as the set of keys it holds.
- The `print`/logging of results is left out.
- A patch title is read through the list of titles by name, then by id, and
  a Test patch policy through the list of a title's patch policies. Both
  lists (the titles, and the patch policies of a title) are derived from the
  records themselves, so a listing that disagrees with the records cannot be
  expressed.
- JPCImporter (JPCImporter.py:169-179) and PatchManager
  (PatchManager.py:285) take the returned policy id from the PUT response.
  The model returns the id of the policy written: PointTestPolicy,
  SendTestPolicy, SendTestPolicySelects and MainSendsToTest state that id.
  This assumes the server echoes the id of the record it stored.
- Backend.SelectedTitle and PatchManager.SelectedTestPolicy: they find the
  record by name, then fetch it again by id. They select the first record with
  the name only under unique ids (Backend.SelectedTitleIsFirstNamed,
  PatchManager.SelectedTestPolicyIsFirst).
- Records.AttachExact: Production appends new `id` and `name` elements under
  the version's package element on every run (Production.py:181-185). The
  model overwrites the version's package id and name. Its idempotence
  therefore assumes that the server resolves the duplicate elements to the
  last pair written.
- Records.AttachExact: a matching version with no package element makes the
  source raise (Production.py:181-182, `SubElement` of `None`). The model
  attaches the package anyway.
- Records.AttachExactIdempotent: holds for the overwrite model only. The
  source's document grows by one `id`/`name` pair per run.
- PatchManager's "already attached" test looks for a package name under the
  version record. A version record without a package element (where the
  source's `find` yields `None` and it would raise) is modelled as not
  attached. Attaching appends new `id` and `name` elements under the version's
  package element. The model sets the version's package id and name instead,
  so the duplicate elements that an empty `name` would leave are not
  represented.
- JPCImporter.MainUploads: stated only for an upload id that no stored package
  uses. A reused id would make the retry loop overwrite the older record with
  that id.
- JPCImporter.UploadPackage: its contract covers only the frame and the
  error kinds. What it stores and returns is stated by
  JPCImporter.UploadStoresPackage, JPCImporter.UploadSkipsKnown,
  JPCImporter.UploadWithoutId and JPCImporter.UploadReportsPolicy.
- Production.EditListed and Production.EditAll: their contracts give the
  frame only. The edits they apply are stated, under unique patch-policy ids,
  by Production.EditListedApplies and Production.EditAllApplies.
- The code has no promotion gate (weekday, time window or dwell time), and
  none is modelled.
- Names are matched exactly. Production reads `Test-<title>`
  (Production.py:100), while JPCImporter writes `TEST-<title>` and
  PatchManager reads `TEST-<package>`. The model treats these as different
  policies. A server that matches names without regard to case, under which
  Production would find JPCImporter's policy, is not modelled.

## Findings

| source | as written | input that shows it | evidently intended | confidence | as-written member | corrected member |
|---|---|---|---|---|---|---|
| PatchManager.py:192-194 | the attach step returns 0 once the version has a package, before the patch-policy step | TEST policy points at `MyApp-3.2.1.pkg`; title `MyApp` declares `3.2.1` with no package; its patch policy `MyApp Test` targets `3.1`; every call succeeds except the PUT of the patch policy, which answers 500; every later run returns 0 and `MyApp Test` stays at `3.1` | go on to the patch-policy step when the version is already attached, counting the Test patch policy as done when it targets the matched label that the step writes | not executed | PatchManagerRecovery.PartialRunStaysUnsent | PatchManagerRecovery.RecoveringRerunSends |
| JPCImporter.py:101-103 | `upload()` returns 0 once a package of that name exists, and the file upload creates it before the record update and the TEST-policy step | a new `MyApp-3.2.1.pkg`; the upload answers id `77`; every call succeeds except the GET of `TEST-MyApp`, which answers 500; every later run returns 0 and `TEST-MyApp` never points at package 77 | check the TEST policy of a known package, and point it at the package, disabled, when it does not already point there | not executed | JPCImporterRecovery.PartialUploadStaysUnpointed | JPCImporterRecovery.RecoveringRerunPoints |
| Production.py:278-280 | `main()` tests for the key `production_summary_result` but deletes `prod_summary_result` | an environment that holds `production_summary_result` alone, for example from an earlier run in the same session | delete the key it tested, so that a leftover summary is cleared | not executed | Production.LeftoverSummaryStopsRun | Production.Execute |

=== FILE: backend.dfy ===
/** The remote backend as the processors see it: a database of records, a
    status oracle that decides how each HTTP call is answered, and the log of
    calls made so far. Every HTTP call of a processor is one step here: it
    reads the database, or commits one write, or fails with the status the
    oracle supplies. Nothing is rolled back after a failure. */
module Backend {
  import opened Outcomes
  import opened Seqs
  import opened Names
  import opened Records

  /** The status a successful GET answers. */
  const GetOk := 200
  /** The status a successful PUT answers. */
  const PutOk := 201
  /** The status of a call on a record that does not exist. */
  const NotFound := 404

  /** Everything the backend stores that the processors touch. */
  datatype Db = Db(
    packages: seq<PackageRecord>,
    policies: seq<Policy>,
    titles: seq<PatchTitle>,
    patchPolicies: seq<PatchPolicy>)

  /** One entry of the call log. */
  datatype Call =
    | Request(verb: Verb, res: Resource, status: int)
    | Upload(name: string, id: string)
    | Sleep(seconds: nat)

  /** The backend between two calls. `codes` is the oracle: every request
      takes the next code, `codes[0]`, which is its answer when the record
      exists; a request on a missing record still takes a code but is answered
      404. Once the oracle is empty every request on an existing record gets
      the normal success status. `written` lists the
      resources whose writes were committed, in commit order. */
  datatype World = World(db: Db, codes: seq<int>, log: seq<Call>, written: seq<Resource>)

  /** The outcome of a step together with the world it leaves behind. */
  datatype Step<+T> = Step(w: World, out: Outcome<T>)

  /** A failed step, re-typed for the caller that stops there. */
  function Stop<T, U>(s: Step<T>): (r: Step<U>)
    requires s.out.Fail?
    ensures r.w == s.w && r.out == Fail(s.out.err)
  {
    Step(s.w, Fail(s.out.err))
  }

  /** A world whose every call succeeds. */
  predicate Happy(w: World)
  {
    w.codes == []
  }

  // ---------------------------------------------------------------------
  // Lookups
  // ---------------------------------------------------------------------

  function FirstPolicyNamed(ps: seq<Policy>, name: string): Option<nat>
  {
    FirstIndex(ps, (p: Policy) => p.name == name)
  }

  function FirstPolicyWithId(ps: seq<Policy>, id: string): Option<nat>
  {
    FirstIndex(ps, (p: Policy) => p.id == id)
  }

  function FirstPackageNamed(ks: seq<PackageRecord>, name: string): Option<nat>
  {
    FirstIndex(ks, (k: PackageRecord) => k.name == name)
  }

  function FirstPackageWithId(ks: seq<PackageRecord>, id: string): Option<nat>
  {
    FirstIndex(ks, (k: PackageRecord) => k.id == id)
  }

  function FirstTitleNamed(es: seq<Entry>, name: string): Option<nat>
  {
    FirstIndex(es, (e: Entry) => e.name == name)
  }

  function FirstTitleWithId(ts: seq<PatchTitle>, id: string): Option<nat>
  {
    FirstIndex(ts, (t: PatchTitle) => t.id == id)
  }

  function FirstPatchPolicyWithId(pps: seq<PatchPolicy>, id: string): Option<nat>
  {
    FirstIndex(pps, (pp: PatchPolicy) => pp.id == id)
  }

  /** The element an index names, if any. */
  function At<T>(s: seq<T>, i: Option<nat>): (r: Option<T>)
    ensures r.Some? <==> i.Some? && i.value < |s|
    ensures r.Some? ==> r.value == s[i.value]
  {
    if i.Some? && i.value < |s| then Some(s[i.value]) else None
  }

  /** The listing of all patch titles, in stored order. */
  function TitleEntries(ts: seq<PatchTitle>): (es: seq<Entry>)
    ensures |es| == |ts|
    ensures forall i :: 0 <= i < |ts| ==> es[i] == Entry(ts[i].id, ts[i].name)
  {
    seq(|ts|, i requires 0 <= i < |ts| => Entry(ts[i].id, ts[i].name))
  }

  /** The listing of the patch policies of the title `titleId`, in stored order. */
  function PatchPolicyEntries(pps: seq<PatchPolicy>, titleId: string): (es: seq<Entry>)
    ensures |es| <= |pps|
    ensures forall e :: e in es <==> exists pp :: pp in pps && pp.titleId == titleId && e == Entry(pp.id, pp.name)
  {
    if |pps| == 0 then []
    else
      var rest := PatchPolicyEntries(pps[1..], titleId);
      assert forall pp :: pp in pps <==> pp == pps[0] || pp in pps[1..];
      if pps[0].titleId == titleId then [Entry(pps[0].id, pps[0].name)] + rest else rest
  }

  // ---------------------------------------------------------------------
  // Calls
  // ---------------------------------------------------------------------

  /** What the oracle `codes` answers the next call on an existing record whose
      normal answer is `normal`. */
  function OracleNext(codes: seq<int>, normal: int): int
  {
    if |codes| == 0 then normal else codes[0]
  }

  /** The oracle once it has answered one call. */
  function OracleRest(codes: seq<int>): seq<int>
  {
    if |codes| == 0 then [] else codes[1..]
  }

  /** The status the backend answers to the next call: not found when the
      record is missing, otherwise what the oracle says. */
  function NextStatus(w: World, found: bool, normal: int): int
  {
    if !found then NotFound else OracleNext(w.codes, normal)
  }

  /** `w` after one call has been answered: the oracle moves on and the call is logged. */
  function Answered(w: World, c: Call): World
  {
    World(w.db, OracleRest(w.codes), w.log + [c], w.written)
  }

  // ---------------------------------------------------------------------
  // How a stretch of calls ends
  // ---------------------------------------------------------------------

  /** A call that got the answer its verb gets on success; uploads and pauses
      carry no status. */
  predicate Succeeded(c: Call)
  {
    c.Request? ==> c.status == (if c.verb == GET then GetOk else PutOk)
  }

  /** The resources the calls `cs` wrote: those of the PUTs that succeeded, in order. */
  function Committed(cs: seq<Call>): seq<Resource>
    decreases |cs|
  {
    if cs == [] then []
    else
      var c := cs[|cs| - 1];
      Committed(cs[..|cs| - 1]) + if c.Request? && c.verb == PUT && Succeeded(c) then [c.res] else []
  }

  /** The writes of two stretches of calls, one after the other. */
  lemma {:induction false} CommittedAppend(a: seq<Call>, b: seq<Call>)
    ensures Committed(a + b) == Committed(a) + Committed(b)
    decreases |b|
  {
    if b == [] {
      assert a + b == a;
    } else {
      var b' := b[..|b| - 1];
      assert (a + b)[..|a + b| - 1] == a + b';
      CommittedAppend(a, b');
    }
  }

  /** `r` was reached from `w` by further calls; the writes it committed are
      those of the successful PUTs among them; and a step that failed with a
      status failed with the answer to its last call, which was not a success. */
  predicate Traced<T>(w: World, r: Step<T>)
  {
    && |w.log| <= |r.w.log| && r.w.log[..|w.log|] == w.log
    && var cs := r.w.log[|w.log|..];
       && r.w.written == w.written + Committed(cs)
       && (r.out.Fail? && r.out.err.Http? ==>
             && |cs| > 0
             && cs[|cs| - 1] == Request(r.out.err.verb, r.out.err.res, r.out.err.status)
             && !Succeeded(cs[|cs| - 1]))
  }

  /** Every call of `cs` succeeded. */
  predicate AllSucceeded(cs: seq<Call>)
    decreases |cs|
  {
    cs == [] || (AllSucceeded(cs[..|cs| - 1]) && Succeeded(cs[|cs| - 1]))
  }

  /** Two stretches of calls all succeeded exactly when each did. */
  lemma {:induction false} AllSucceededAppend(a: seq<Call>, b: seq<Call>)
    ensures AllSucceeded(a + b) <==> AllSucceeded(a) && AllSucceeded(b)
    decreases |b|
  {
    if b == [] {
      assert a + b == a;
    } else {
      var b' := b[..|b| - 1];
      assert (a + b)[..|a + b| - 1] == a + b';
      AllSucceededAppend(a, b');
    }
  }

  /** A call of a stretch that all succeeded succeeded. */
  lemma {:induction false} AllSucceededAt(cs: seq<Call>, i: nat)
    requires AllSucceeded(cs) && i < |cs|
    ensures Succeeded(cs[i])
    decreases |cs|
  {
    if i < |cs| - 1 {
      AllSucceededAt(cs[..|cs| - 1], i);
    }
  }

  /** `Traced`, and every call the step made succeeded except a last one that
      made it fail: an answer other than success stops the step with that status. */
  predicate StopsAtFailure<T>(w: World, r: Step<T>)
  {
    && Traced(w, r)
    && var cs := r.w.log[|w.log|..];
       AllSucceeded(if r.out.Fail? && r.out.err.Http? then cs[..|cs| - 1] else cs)
  }

  /** A step that makes no call and fails with no status. */
  lemma Idle<T>(w: World, out: Outcome<T>)
    requires !(out.Fail? && out.err.Http?)
    ensures StopsAtFailure(w, Step(w, out))
  {
    assert w.log[|w.log|..] == [];
    assert w.log[..|w.log|] == w.log;
  }

  /** The calls of two stretches, one after the other. */
  lemma LogsCompose(l1: seq<Call>, l2: seq<Call>, l3: seq<Call>)
    requires |l1| <= |l2| && l2[..|l1|] == l1
    requires |l2| <= |l3| && l3[..|l2|] == l2
    ensures |l1| <= |l3| && l3[..|l1|] == l1
    ensures l3[|l1|..] == l2[|l1|..] + l3[|l2|..]
  {
    assert l2 == l1 + l2[|l1|..];
    assert l3 == l2 + l3[|l2|..];
  }

  /** Two traced stretches of calls, one after the other. */
  lemma TracedThen<T, U>(w: World, s: Step<T>, r: Step<U>)
    requires Traced(w, s) && Traced(s.w, r)
    ensures Traced(w, r)
  {
    LogsCompose(w.log, s.w.log, r.w.log);
    CommittedAppend(s.w.log[|w.log|..], r.w.log[|s.w.log|..]);
  }

  /** A step that ends where `s` ended, with the same failure status if any. */
  lemma SameEnd<T, U>(w: World, s: Step<T>, r: Step<U>)
    requires StopsAtFailure(w, s) && r.w == s.w
    requires (r.out.Fail? && r.out.err.Http?) == (s.out.Fail? && s.out.err.Http?)
    requires r.out.Fail? && r.out.err.Http? ==> r.out.err == s.out.err
    ensures StopsAtFailure(w, r)
  {
  }

  /** Two stretches of calls, the first of which succeeded. */
  lemma StopsThen<T, U>(w: World, s: Step<T>, r: Step<U>)
    requires StopsAtFailure(w, s) && s.out.Ok? && StopsAtFailure(s.w, r)
    ensures StopsAtFailure(w, r)
  {
    TracedThen(w, s, r);
    LogsCompose(w.log, s.w.log, r.w.log);
    var a := s.w.log[|w.log|..];
    var b := r.w.log[|s.w.log|..];
    if r.out.Fail? && r.out.err.Http? {
      assert (a + b)[..|a + b| - 1] == a + b[..|b| - 1];
      AllSucceededAppend(a, b[..|b| - 1]);
    } else {
      AllSucceededAppend(a, b);
    }
  }

  /** A call that did not succeed is the last one the step made, and the step
      failed with its answer. */
  lemma NonSuccessIsLast<T>(w: World, r: Step<T>, i: nat)
    requires StopsAtFailure(w, r)
    requires |w.log| + i < |r.w.log| && !Succeeded(r.w.log[|w.log| + i])
    ensures var c := r.w.log[|w.log| + i];
            |w.log| + i == |r.w.log| - 1 && r.out == Fail(Http(c.verb, c.res, c.status))
  {
    var cs := r.w.log[|w.log|..];
    assert cs[i] == r.w.log[|w.log| + i];
    if r.out.Fail? && r.out.err.Http? {
      if i < |cs| - 1 {
        AllSucceededAt(cs[..|cs| - 1], i);
      }
    } else {
      AllSucceededAt(cs, i);
    }
  }

  /** What `StopsAtFailure` says of each call. */
  lemma StopsAtFailureMeans<T>(w: World, r: Step<T>)
    requires StopsAtFailure(w, r)
    ensures FailureIsFinal(w, r)
  {
    forall i | |w.log| <= i < |r.w.log| && !Succeeded(r.w.log[i])
      ensures i == |r.w.log| - 1 && r.out == Fail(Http(r.w.log[i].verb, r.w.log[i].res, r.w.log[i].status))
    {
      NonSuccessIsLast(w, r, i - |w.log|);
    }
    if r.out.Fail? && r.out.err.Http? {
      FailureCommitsNothing(w, r);
      assert r.w.log[|w.log|..][..|r.w.log| - |w.log| - 1] == r.w.log[|w.log|..|r.w.log| - 1];
    }
  }

  /** A run from `w` to `r` gave up at its first failed call: a call answered
      with anything but success is the last one made and the run failed with
      its status, and then the writes are those of the successful PUTs before it. */
  predicate FailureIsFinal<T>(w: World, r: Step<T>)
  {
    && |w.log| <= |r.w.log|
    && (forall i :: |w.log| <= i < |r.w.log| && !Succeeded(r.w.log[i]) ==>
          i == |r.w.log| - 1 && r.out == Fail(Http(r.w.log[i].verb, r.w.log[i].res, r.w.log[i].status)))
    && (r.out.Fail? && r.out.err.Http? ==>
          |w.log| < |r.w.log| && r.w.written == w.written + Committed(r.w.log[|w.log|..|r.w.log| - 1]))
  }

  /** A step that failed with a status committed nothing after the call that
      got it: its writes are those of the successful PUTs before that call. */
  lemma FailureCommitsNothing<T>(w: World, r: Step<T>)
    requires Traced(w, r) && r.out.Fail? && r.out.err.Http?
    ensures var cs := r.w.log[|w.log|..];
            r.w.written == w.written + Committed(cs[..|cs| - 1])
  {
    var cs := r.w.log[|w.log|..];
    assert cs == cs[..|cs| - 1] + [cs[|cs| - 1]];
  }

  /** The calls of a world that made one more call `c`. */
  lemma OneCall(w: World, w': World, c: Call)
    requires w'.log == w.log + [c]
    ensures w'.log[..|w.log|] == w.log && w'.log[|w.log|..] == [c]
    ensures Committed([c]) == if c.Request? && c.verb == PUT && Succeeded(c) then [c.res] else []
    ensures AllSucceeded([c]) == Succeeded(c)
  {
    assert [c][..0] == [];
  }

  /** A GET of `res`, which holds `found` in the database. */
  function Get<T>(w: World, res: Resource, found: Option<T>): (r: Step<T>)
    ensures r.w.db == w.db && r.w.written == w.written
    ensures r.w.log == w.log + [Request(GET, res, NextStatus(w, found.Some?, GetOk))]
    ensures r.out.Ok? <==> NextStatus(w, found.Some?, GetOk) == GetOk
    ensures r.out.Ok? ==> found == Some(r.out.value)
    ensures r.out.Fail? ==> r.out.err == Http(GET, res, NextStatus(w, found.Some?, GetOk))
    ensures found.None? ==> r.out.Fail?
    ensures Happy(w) ==> Happy(r.w)
    ensures |w.codes| > 0 ==> r.w.codes == w.codes[1..]
  {
    var st := NextStatus(w, found.Some?, GetOk);
    var w' := Answered(w, Request(GET, res, st));
    if st == GetOk then Step(w', Ok(found.value)) else Step(w', Fail(Http(GET, res, st)))
  }

  /** A PUT of `res`; `db'` is the database once the write is committed. */
  function Put(w: World, res: Resource, found: bool, db': Db): (r: Step<()>)
    ensures r.w.log == w.log + [Request(PUT, res, NextStatus(w, found, PutOk))]
    ensures r.out.Ok? <==> NextStatus(w, found, PutOk) == PutOk
    ensures r.w.db == if r.out.Ok? then db' else w.db
    ensures r.w.written == if r.out.Ok? then w.written + [res] else w.written
    ensures r.out.Fail? ==> r.out.err == Http(PUT, res, NextStatus(w, found, PutOk))
    ensures !found ==> r.out.Fail?
    ensures Happy(w) ==> Happy(r.w)
    ensures |w.codes| > 0 ==> r.w.codes == w.codes[1..]
  {
    var st := NextStatus(w, found, PutOk);
    var w' := Answered(w, Request(PUT, res, st));
    if st == PutOk then Step(w'.(db := db', written := w.written + [res]), Ok(())) else Step(w', Fail(Http(PUT, res, st)))
  }

  /** A GET makes one call, and fails exactly when that call did not succeed. */
  lemma GetStops<T>(w: World, res: Resource, found: Option<T>)
    ensures StopsAtFailure(w, Get(w, res, found))
  {
    var r := Get(w, res, found);
    OneCall(w, r.w, Request(GET, res, NextStatus(w, found.Some?, GetOk)));
  }

  /** A PUT makes one call, commits its write exactly when that call succeeded,
      and fails otherwise. */
  lemma PutStops(w: World, res: Resource, found: bool, db': Db)
    ensures StopsAtFailure(w, Put(w, res, found, db'))
  {
    var r := Put(w, res, found, db');
    OneCall(w, r.w, Request(PUT, res, NextStatus(w, found, PutOk)));
  }

  function GetPolicyByName(w: World, name: string): Step<Policy>
  {
    Get(w, PolicyByName(name), At(w.db.policies, FirstPolicyNamed(w.db.policies, name)))
  }

  function PutPolicyByName(w: World, name: string, p: Policy): Step<()>
  {
    var i := FirstPolicyNamed(w.db.policies, name);
    Put(w, PolicyByName(name), i.Some?,
        if i.Some? then w.db.(policies := w.db.policies[i.value := p]) else w.db)
  }

  function PutPolicyById(w: World, id: string, p: Policy): Step<()>
  {
    var i := FirstPolicyWithId(w.db.policies, id);
    Put(w, PolicyById(id), i.Some?,
        if i.Some? then w.db.(policies := w.db.policies[i.value := p]) else w.db)
  }

  function GetPackageByName(w: World, name: string): Step<PackageRecord>
  {
    Get(w, PackageByName(name), At(w.db.packages, FirstPackageNamed(w.db.packages, name)))
  }

  function PutPackageById(w: World, id: string, k: PackageRecord): Step<()>
  {
    var i := FirstPackageWithId(w.db.packages, id);
    Put(w, PackageById(id), i.Some?,
        if i.Some? then w.db.(packages := w.db.packages[i.value := k]) else w.db)
  }

  function GetTitleList(w: World): Step<seq<Entry>>
  {
    Get(w, PatchTitleList, Some(TitleEntries(w.db.titles)))
  }

  function GetTitleById(w: World, id: string): Step<PatchTitle>
  {
    Get(w, PatchTitleById(id), At(w.db.titles, FirstTitleWithId(w.db.titles, id)))
  }

  function PutTitleById(w: World, id: string, t: PatchTitle): Step<()>
  {
    var i := FirstTitleWithId(w.db.titles, id);
    Put(w, PatchTitleById(id), i.Some?,
        if i.Some? then w.db.(titles := w.db.titles[i.value := t]) else w.db)
  }

  function GetPatchPolicyList(w: World, titleId: string): Step<seq<Entry>>
  {
    Get(w, PatchPolicyList(titleId), Some(PatchPolicyEntries(w.db.patchPolicies, titleId)))
  }

  function GetPatchPolicyById(w: World, id: string): Step<PatchPolicy>
  {
    Get(w, PatchPolicyById(id), At(w.db.patchPolicies, FirstPatchPolicyWithId(w.db.patchPolicies, id)))
  }

  function PutPatchPolicyById(w: World, id: string, pp: PatchPolicy): Step<()>
  {
    var i := FirstPatchPolicyWithId(w.db.patchPolicies, id);
    Put(w, PatchPolicyById(id), i.Some?,
        if i.Some? then w.db.(patchPolicies := w.db.patchPolicies[i.value := pp]) else w.db)
  }

  /** Every single call on policies and packages from `w` stops at its own failure. */
  lemma CallsStop(w: World)
    ensures forall name :: StopsAtFailure(w, GetPolicyByName(w, name))
    ensures forall name, p :: StopsAtFailure(w, PutPolicyByName(w, name, p))
    ensures forall id, p :: StopsAtFailure(w, PutPolicyById(w, id, p))
    ensures forall name :: StopsAtFailure(w, GetPackageByName(w, name))
    ensures forall id, k :: StopsAtFailure(w, PutPackageById(w, id, k))
  {
    var ps := w.db.policies;
    forall name: string ensures StopsAtFailure(w, GetPolicyByName(w, name)) {
      GetStops(w, PolicyByName(name), At(ps, FirstPolicyNamed(ps, name)));
    }
    forall name: string, p: Policy ensures StopsAtFailure(w, PutPolicyByName(w, name, p)) {
      var i := FirstPolicyNamed(ps, name);
      PutStops(w, PolicyByName(name), i.Some?, if i.Some? then w.db.(policies := ps[i.value := p]) else w.db);
    }
    forall id: string, p: Policy ensures StopsAtFailure(w, PutPolicyById(w, id, p)) {
      var i := FirstPolicyWithId(ps, id);
      PutStops(w, PolicyById(id), i.Some?, if i.Some? then w.db.(policies := ps[i.value := p]) else w.db);
    }
    var ks := w.db.packages;
    forall name: string ensures StopsAtFailure(w, GetPackageByName(w, name)) {
      GetStops(w, PackageByName(name), At(ks, FirstPackageNamed(ks, name)));
    }
    forall id: string, k: PackageRecord ensures StopsAtFailure(w, PutPackageById(w, id, k)) {
      var i := FirstPackageWithId(ks, id);
      PutStops(w, PackageById(id), i.Some?, if i.Some? then w.db.(packages := ks[i.value := k]) else w.db);
    }
  }

  /** Every single call on patch titles and patch policies from `w` stops at its own failure. */
  lemma PatchCallsStop(w: World)
    ensures StopsAtFailure(w, GetTitleList(w))
    ensures forall id :: StopsAtFailure(w, GetTitleById(w, id))
    ensures forall id, t :: StopsAtFailure(w, PutTitleById(w, id, t))
    ensures forall id :: StopsAtFailure(w, GetPatchPolicyList(w, id))
    ensures forall id :: StopsAtFailure(w, GetPatchPolicyById(w, id))
    ensures forall id, pp :: StopsAtFailure(w, PutPatchPolicyById(w, id, pp))
  {
    var ts := w.db.titles;
    GetStops(w, PatchTitleList, Some(TitleEntries(ts)));
    forall id: string ensures StopsAtFailure(w, GetTitleById(w, id)) {
      GetStops(w, PatchTitleById(id), At(ts, FirstTitleWithId(ts, id)));
    }
    forall id: string, t: PatchTitle ensures StopsAtFailure(w, PutTitleById(w, id, t)) {
      var i := FirstTitleWithId(ts, id);
      PutStops(w, PatchTitleById(id), i.Some?, if i.Some? then w.db.(titles := ts[i.value := t]) else w.db);
    }
    var pps := w.db.patchPolicies;
    forall id: string ensures StopsAtFailure(w, GetPatchPolicyList(w, id)) {
      GetStops(w, PatchPolicyList(id), Some(PatchPolicyEntries(pps, id)));
    }
    forall id: string ensures StopsAtFailure(w, GetPatchPolicyById(w, id)) {
      GetStops(w, PatchPolicyById(id), At(pps, FirstPatchPolicyWithId(pps, id)));
    }
    forall id: string, pp: PatchPolicy ensures StopsAtFailure(w, PutPatchPolicyById(w, id, pp)) {
      var i := FirstPatchPolicyWithId(pps, id);
      PutStops(w, PatchPolicyById(id), i.Some?, if i.Some? then w.db.(patchPolicies := pps[i.value := pp]) else w.db);
    }
  }

  // ---------------------------------------------------------------------
  // Reads shared by the processors
  // ---------------------------------------------------------------------

  /** The policy named `name`, if the backend holds one. */
  function PolicyNamed(db: Db, name: string): Option<Policy>
  {
    At(db.policies, FirstPolicyNamed(db.policies, name))
  }

  /** Read a deployment policy by name and derive the release it installs: the
      package it points at and the version in that package's file name. A
      missing policy, a policy without a package and a name without '-' are hard errors. */
  function ReadRelease(w: World, name: string): (r: Step<Release>)
    ensures r.w.db == w.db && r.w.written == w.written
    ensures r.w.log == w.log + [Request(GET, PolicyByName(name), NextStatus(w, PolicyNamed(w.db, name).Some?, GetOk))]
    ensures Happy(w) ==> Happy(r.w)
    ensures r.out.Ok? ==>
              && PolicyNamed(w.db, name).Some?
              && PolicyNamed(w.db, name).value.package == Some(r.out.value.ref)
              && Version(r.out.value.ref.name) == Some(r.out.value.version)
    ensures PolicyNamed(w.db, name).None? ==> r.out == Fail(Http(GET, PolicyByName(name), NotFound))
    ensures Happy(w) && PolicyNamed(w.db, name).Some? ==>
              var p := PolicyNamed(w.db, name).value;
              && (p.package.None? ==> r.out == Fail(MissingPackageDefinition))
              && (p.package.Some? && '-' !in p.package.value.name ==> r.out == Fail(BadPackageName(p.package.value.name)))
              && (p.package.Some? && '-' in p.package.value.name ==> r.out.Ok?)
    ensures PolicyNamed(w.db, name).Some? && OracleNext(w.codes, GetOk) != GetOk ==>
              r.out == Fail(Http(GET, PolicyByName(name), OracleNext(w.codes, GetOk)))
  {
    var s := GetPolicyByName(w, name);
    if s.out.Fail? then Stop(s)
    else
      match s.out.value.package
      case None => Step(s.w, Fail(MissingPackageDefinition))
      case Some(ref) =>
        match Version(ref.name)
        case None => Step(s.w, Fail(BadPackageName(ref.name)))
        case Some(v) => Step(s.w, Ok(Release(ref, v)))
  }

  /** Reading the release makes one call; an answer other than success stops it
      with that status, and it writes nothing. */
  lemma ReadReleaseStops(w: World, name: string)
    ensures StopsAtFailure(w, ReadRelease(w, name))
    ensures ReadRelease(w, name).w.written == w.written
  {
    CallsStop(w);
  }

  /** Index of the patch title a processor reads: the first listed title named
      `patch`, fetched by its id. */
  function SelectedTitle(titles: seq<PatchTitle>, patch: string): (r: Option<nat>)
    ensures r.Some? ==> r.value < |titles|
    ensures r.None? <==> forall k :: 0 <= k < |titles| ==> titles[k].name != patch
  {
    var es := TitleEntries(titles);
    match FirstTitleNamed(es, patch)
    case None => None
    case Some(k) =>
      assert titles[k].id == es[k].id;
      FirstTitleWithId(titles, es[k].id)
  }

  /** Titles with the same ids and names in the same order select the same title. */
  lemma SameNamesSameSelection(ts: seq<PatchTitle>, ts': seq<PatchTitle>, patch: string)
    requires |ts| == |ts'|
    requires forall k :: 0 <= k < |ts| ==> ts'[k].id == ts[k].id && ts'[k].name == ts[k].name
    ensures SelectedTitle(ts', patch) == SelectedTitle(ts, patch)
  {
    assert TitleEntries(ts') == TitleEntries(ts);
    forall id: string ensures FirstTitleWithId(ts', id) == FirstTitleWithId(ts, id) {
      FirstIndexAgrees(ts', (t: PatchTitle) => t.id == id, ts, (t: PatchTitle) => t.id == id);
    }
  }

  /** No two patch titles share an id. */
  ghost predicate UniqueTitleIds(ts: seq<PatchTitle>)
  {
    forall i, j :: 0 <= i < j < |ts| ==> ts[i].id != ts[j].id
  }

  /** No two patch policies share an id. */
  ghost predicate UniquePatchPolicyIds(pps: seq<PatchPolicy>)
  {
    forall i, j :: 0 <= i < j < |pps| ==> pps[i].id != pps[j].id
  }

  /** With unique ids, fetching by id finds the one record carrying it. */
  lemma FetchByUniqueId(pps: seq<PatchPolicy>, k: nat)
    requires UniquePatchPolicyIds(pps) && k < |pps|
    ensures FirstPatchPolicyWithId(pps, pps[k].id) == Some(k)
  {
  }

  /** With unique title ids, the title read is the first one listed under the
      name: fetching the listed id finds that very title. */
  lemma SelectedTitleIsFirstNamed(ts: seq<PatchTitle>, patch: string)
    requires UniqueTitleIds(ts)
    ensures SelectedTitle(ts, patch) == FirstIndex(ts, (t: PatchTitle) => t.name == patch)
    ensures var r := SelectedTitle(ts, patch);
            r.Some? ==> ts[r.value].name == patch && forall j :: 0 <= j < r.value ==> ts[j].name != patch
  {
    var es := TitleEntries(ts);
    FirstIndexAgrees(es, (e: Entry) => e.name == patch, ts, (t: PatchTitle) => t.name == patch);
    match FirstTitleNamed(es, patch)
    case None =>
    case Some(k) =>
      assert es[k].id == ts[k].id;
      assert FirstTitleWithId(ts, ts[k].id) == Some(k);
  }

  // ---------------------------------------------------------------------
  // The log of committed writes
  // ---------------------------------------------------------------------

  /** `w'` is `w` after zero or more further calls. */
  predicate Extends(w: World, w': World)
  {
    |w.written| <= |w'.written| && w'.written[..|w.written|] == w.written
  }

  /** The resources written successfully between `w` and `w'`, in commit order. */
  function Writes(w: World, w': World): seq<Resource>
    requires Extends(w, w')
  {
    w'.written[|w.written|..]
  }

  /** Calls that committed `added`. */
  lemma WritesAppended(w: World, w': World, added: seq<Resource>)
    requires w'.written == w.written + added
    ensures Extends(w, w')
    ensures Writes(w, w') == added
  {
    assert w'.written[..|w.written|] == w.written;
  }

  /** The writes of two stretches of calls, one after the other. */
  lemma WritesCompose(w1: World, w2: World, w3: World)
    requires Extends(w1, w2) && Extends(w2, w3)
    ensures Extends(w1, w3)
    ensures Writes(w1, w3) == Writes(w1, w2) + Writes(w2, w3)
  {
    assert w3.written[..|w1.written|] == w2.written[..|w1.written|];
    assert w3.written[|w1.written|..] == w2.written[|w1.written|..] + w3.written[|w2.written|..];
  }
}

=== FILE: jpc_importer.dfy ===
/** JPCImporter: uploads a package unless one of that name already exists,
    sets its category and notes (retrying while the backend settles), then
    points the TEST policy of its title at it and leaves that policy disabled. */
module JPCImporter {
  import opened Outcomes
  import opened Seqs
  import opened Names
  import opened Records
  import opened Backend

  /** After this many failed package updates the next failure is final. */
  const MaxRetries: nat := 5

  /** Seconds slept between two package-update attempts. */
  const Pause: nat := 15

  /** The category every uploaded package is filed under. */
  const Category: string := "Applications"

  /** The notes stamped on an uploaded package; `day` is the upload date. */
  function Notes(day: string): string
  {
    "Built by Autopkg. Uploaded " + day
  }

  /** The deployment policy JPCImporter points at the new package. */
  function TestPolicyName(title: string): string
  {
    "TEST-" + title
  }

  /** The report of a run that uploaded a package. */
  datatype Summary = Summary(policyId: string, pkgPath: string)

  /** `w` after the pause between two attempts; the pause is only logged. */
  function Slept(w: World): (r: World)
    ensures r.db == w.db && r.codes == w.codes && r.log == w.log + [Sleep(Pause)] && r.written == w.written
  {
    w.(log := w.log + [Sleep(Pause)])
  }

  // ---------------------------------------------------------------------
  // The package-update retry loop
  // ---------------------------------------------------------------------

  /** The loop of `upload()` from attempt `count` on: PUT the package record;
      stop at the first 201; after a failed attempt numbered above `MaxRetries`
      give up with that attempt's status; otherwise pause and try again. */
  function UpdatePackage(w: World, id: string, rec: PackageRecord, count: nat): (r: Step<()>)
    requires 1 <= count <= MaxRetries + 1
    ensures r.out.Ok? ==>
              && FirstPackageWithId(w.db.packages, id).Some?
              && r.w.db == w.db.(packages := w.db.packages[FirstPackageWithId(w.db.packages, id).value := rec])
    ensures r.out.Fail? ==> r.w.db == w.db && r.out.err.Http? && r.out.err.verb == PUT && r.out.err.res == PackageById(id)
    ensures FirstPackageWithId(w.db.packages, id).None? ==> r.out.Fail?
    ensures r.w.written == w.written + if r.out.Ok? then [PackageById(id)] else []
    ensures Happy(w) ==> Happy(r.w)
    decreases MaxRetries + 1 - count
  {
    var s := PutPackageById(w, id, rec);
    if s.out.Ok? then s
    else if count > MaxRetries then s
    else UpdatePackage(Slept(s.w), id, rec, count + 1)
  }

  /** The `while True` loop of `upload()`, as written, with its attempt counter. */
  method RetryUpdatePackage(w: World, id: string, rec: PackageRecord) returns (r: Step<()>)
    ensures r == UpdatePackage(w, id, rec, 1)
  {
    var count := 1;
    var cur := w;
    while true
      invariant 1 <= count <= MaxRetries + 1
      invariant UpdatePackage(cur, id, rec, count) == UpdatePackage(w, id, rec, 1)
      decreases MaxRetries + 1 - count
    {
      var s := PutPackageById(cur, id, rec);
      if s.out.Ok? {
        return s;
      }
      if count > MaxRetries {
        return s;
      }
      cur := Slept(s.w);
      count := count + 1;
    }
  }

  /** A status that commits a write. */
  predicate IsCommitted(status: int)
  {
    status == PutOk
  }

  /** The statuses the next `n` calls on an existing record receive. */
  function Statuses(codes: seq<int>, n: nat): (st: seq<int>)
    ensures |st| == n
    ensures forall j :: 0 <= j < n ==> st[j] == if j < |codes| then codes[j] else PutOk
  {
    seq(n, j requires 0 <= j < n => if j < |codes| then codes[j] else PutOk)
  }

  /** The calls logged by attempts answered with `sts`: each attempt is a PUT,
      and a pause separates two attempts. */
  function Tries(id: string, sts: seq<int>): (log: seq<Call>)
    requires |sts| > 0
    ensures |log| == 2 * |sts| - 1
    decreases |sts|
  {
    [Request(PUT, PackageById(id), sts[0])] + (if |sts| == 1 then [] else [Sleep(Pause)] + Tries(id, sts[1..]))
  }

  /** How many of the attempts answered with `st` are made: up to and
      including the first 201, or all of them. */
  function AttemptsMade(st: seq<int>): (k: nat)
    requires |st| > 0
    ensures 1 <= k <= |st|
    ensures forall j :: 0 <= j < k - 1 ==> !IsCommitted(st[j])
    ensures k < |st| ==> IsCommitted(st[k - 1])
    decreases |st|
  {
    if |st| == 1 || IsCommitted(st[0]) then 1 else 1 + AttemptsMade(st[1..])
  }

  /** The calls `n` remaining attempts log, read off the oracle one status at a time. */
  function AttemptLog(id: string, codes: seq<int>, n: nat): seq<Call>
    requires n >= 1
    decreases n
  {
    [Request(PUT, PackageById(id), OracleNext(codes, PutOk))]
      + (if n == 1 || IsCommitted(OracleNext(codes, PutOk)) then []
         else [Sleep(Pause)] + AttemptLog(id, OracleRest(codes), n - 1))
  }

  /** The status of the last attempt made among `n` remaining ones. */
  function LastStatus(codes: seq<int>, n: nat): int
    requires n >= 1
    decreases n
  {
    if n == 1 || IsCommitted(OracleNext(codes, PutOk)) then OracleNext(codes, PutOk)
    else LastStatus(OracleRest(codes), n - 1)
  }

  /** One attempt on an existing record: the call is logged with the next
      status of the oracle, which moves on, and only a 201 commits. */
  lemma PutPackageAnswered(w: World, id: string, rec: PackageRecord)
    requires FirstPackageWithId(w.db.packages, id).Some?
    ensures var s := PutPackageById(w, id, rec);
            && s.w.log == w.log + [Request(PUT, PackageById(id), OracleNext(w.codes, PutOk))]
            && s.w.codes == OracleRest(w.codes)
            && (s.out.Ok? <==> IsCommitted(OracleNext(w.codes, PutOk)))
            && (s.out.Fail? ==> s.out.err == Http(PUT, PackageById(id), OracleNext(w.codes, PutOk)) && s.w.db == w.db)
  {
  }

  /** The loop makes one attempt, then stops or pauses and goes on. */
  lemma UpdatePackageUnfold(w: World, id: string, rec: PackageRecord, count: nat)
    requires 1 <= count <= MaxRetries + 1
    ensures var s := PutPackageById(w, id, rec);
            UpdatePackage(w, id, rec, count)
              == if s.out.Ok? || count > MaxRetries then s else UpdatePackage(Slept(s.w), id, rec, count + 1)
  {
  }

  /** After a failed attempt that is not the last, the log goes on with a pause and the later attempts. */
  lemma AttemptLogUnfold(id: string, codes: seq<int>, n: nat)
    requires n > 1 && !IsCommitted(OracleNext(codes, PutOk))
    ensures AttemptLog(id, codes, n)
              == [Request(PUT, PackageById(id), OracleNext(codes, PutOk))] + ([Sleep(Pause)] + AttemptLog(id, OracleRest(codes), n - 1))
    ensures LastStatus(codes, n) == LastStatus(OracleRest(codes), n - 1)
  {
  }

  /** `r`, run from `w`, made the attempts that `n` remaining ones make on the
      oracle of `w`, and ended as the last of them was answered. */
  predicate LogsAttempts(w: World, r: Step<()>, id: string, n: nat)
    requires n >= 1
  {
    && r.w.log == w.log + AttemptLog(id, w.codes, n)
    && (r.out.Ok? <==> IsCommitted(LastStatus(w.codes, n)))
    && (r.out.Fail? ==> r.out.err == Http(PUT, PackageById(id), LastStatus(w.codes, n)))
  }

  /** An attempt after which the loop stops has logged all there is to log. */
  lemma LastAttemptLogged(w: World, s: Step<()>, id: string, n: nat)
    requires n >= 1 && (n == 1 || IsCommitted(OracleNext(w.codes, PutOk)))
    requires s.w.log == w.log + [Request(PUT, PackageById(id), OracleNext(w.codes, PutOk))]
    requires s.out.Ok? <==> IsCommitted(OracleNext(w.codes, PutOk))
    requires s.out.Fail? ==> s.out.err == Http(PUT, PackageById(id), OracleNext(w.codes, PutOk))
    ensures LogsAttempts(w, s, id, n)
  {
  }

  /** A failed attempt, a pause, then the later attempts. */
  lemma FailedAttemptLogged(w: World, w': World, r: Step<()>, id: string, n: nat)
    requires n > 1 && !IsCommitted(OracleNext(w.codes, PutOk))
    requires w'.log == w.log + [Request(PUT, PackageById(id), OracleNext(w.codes, PutOk))] + [Sleep(Pause)]
    requires w'.codes == OracleRest(w.codes)
    requires LogsAttempts(w', r, id, n - 1)
    ensures LogsAttempts(w, r, id, n)
  {
    AttemptLogUnfold(id, w.codes, n);
    var a := [Request(PUT, PackageById(id), OracleNext(w.codes, PutOk))];
    var rest := AttemptLog(id, w'.codes, n - 1);
    assert w.log + a + [Sleep(Pause)] + rest == w.log + (a + ([Sleep(Pause)] + rest));
  }

  /** The loop from attempt `count` on, stated one status at a time. */
  lemma {:induction false} UpdatePackageLog(w: World, id: string, rec: PackageRecord, count: nat)
    requires 1 <= count <= MaxRetries + 1
    requires FirstPackageWithId(w.db.packages, id).Some?
    ensures LogsAttempts(w, UpdatePackage(w, id, rec, count), id, MaxRetries + 2 - count)
    decreases MaxRetries + 1 - count
  {
    var s := PutPackageById(w, id, rec);
    PutPackageAnswered(w, id, rec);
    UpdatePackageUnfold(w, id, rec, count);
    if s.out.Fail? && count <= MaxRetries {
      var w' := Slept(s.w);
      UpdatePackageLog(w', id, rec, count + 1);
      FailedAttemptLogged(w, w', UpdatePackage(w', id, rec, count + 1), id, MaxRetries + 2 - count);
    } else {
      LastAttemptLogged(w, s, id, MaxRetries + 2 - count);
    }
  }

  /** Reading the oracle one status at a time agrees with listing the statuses up front. */
  lemma {:induction false} AttemptLogIsTries(id: string, codes: seq<int>, n: nat)
    requires n >= 1
    ensures var st := Statuses(codes, n);
            var k := AttemptsMade(st);
            && AttemptLog(id, codes, n) == Tries(id, st[..k])
            && LastStatus(codes, n) == st[k - 1]
    decreases n
  {
    var st := Statuses(codes, n);
    if n > 1 && !IsCommitted(OracleNext(codes, PutOk)) {
      AttemptLogIsTries(id, OracleRest(codes), n - 1);
      assert Statuses(OracleRest(codes), n - 1) == st[1..];
      TriesAfterFailure(id, st);
    } else {
      assert st[..1] == [st[0]];
    }
  }

  /** Exactly what the retry loop does on an existing record: with `st` the
      statuses the remaining attempts would receive, it makes `AttemptsMade(st)`
      attempts, logging each with a pause between two, and succeeds exactly when
      the last attempt made was answered 201; otherwise it fails with that status. */
  lemma UpdatePackageAttempts(w: World, id: string, rec: PackageRecord, count: nat)
    requires 1 <= count <= MaxRetries + 1
    requires FirstPackageWithId(w.db.packages, id).Some?
    ensures var r := UpdatePackage(w, id, rec, count);
            var st := Statuses(w.codes, MaxRetries + 2 - count);
            var k := AttemptsMade(st);
            && r.w.log == w.log + Tries(id, st[..k])
            && (r.out.Ok? <==> IsCommitted(st[k - 1]))
            && (r.out.Fail? ==> r.out.err == Http(PUT, PackageById(id), st[k - 1]))
  {
    UpdatePackageLog(w, id, rec, count);
    AttemptLogIsTries(id, w.codes, MaxRetries + 2 - count);
  }

  /** After a failed first attempt, the attempts made are that one, a pause,
      and the attempts made on the remaining statuses. */
  lemma TriesAfterFailure(id: string, st: seq<int>)
    requires |st| >= 2 && !IsCommitted(st[0])
    ensures var k := AttemptsMade(st);
            var k' := AttemptsMade(st[1..]);
            && k == k' + 1
            && st[k - 1] == st[1..][k' - 1]
            && Tries(id, st[..k]) == [Request(PUT, PackageById(id), st[0]), Sleep(Pause)] + Tries(id, st[1..][..k'])
  {
    var k := AttemptsMade(st);
    assert k == 1 + AttemptsMade(st[1..]);
    TriesSplit(id, st[..k]);
    assert st[..k][1..] == st[1..][..k - 1];
  }

  /** The first attempt and its pause, in front of the others. */
  lemma TriesSplit(id: string, sts: seq<int>)
    requires |sts| >= 2
    ensures Tries(id, sts) == [Request(PUT, PackageById(id), sts[0]), Sleep(Pause)] + Tries(id, sts[1..])
  {
  }

  /** Number of pauses in a log. */
  function Pauses(log: seq<Call>): nat
  {
    if |log| == 0 then 0 else (if log[0].Sleep? then 1 else 0) + Pauses(log[1..])
  }

  /** Number of package-record updates in a log. */
  function PackageUpdates(log: seq<Call>): nat
  {
    if |log| == 0 then 0
    else (if log[0].Request? && log[0].verb == PUT && log[0].res.PackageById? then 1 else 0) + PackageUpdates(log[1..])
  }

  /** `k` attempts log `k` updates and `k - 1` pauses. */
  lemma {:induction false} TriesCounts(id: string, sts: seq<int>)
    requires |sts| > 0
    ensures PackageUpdates(Tries(id, sts)) == |sts|
    ensures Pauses(Tries(id, sts)) == |sts| - 1
    decreases |sts|
  {
    var t := Tries(id, sts);
    assert t[1..] == if |sts| == 1 then [] else [Sleep(Pause)] + Tries(id, sts[1..]);
    if |sts| > 1 {
      TriesCounts(id, sts[1..]);
      assert t[1..][1..] == Tries(id, sts[1..]);
    }
  }

  /** Six failing statuses in a row: the loop makes six attempts with five
      pauses between them and fails with the sixth status. */
  lemma RetryGivesUp(w: World, id: string, rec: PackageRecord)
    requires FirstPackageWithId(w.db.packages, id).Some?
    requires |w.codes| >= MaxRetries + 1
    requires forall j :: 0 <= j <= MaxRetries ==> w.codes[j] != PutOk
    ensures var r := UpdatePackage(w, id, rec, 1);
            var added := r.w.log[|w.log|..];
            && |w.log| <= |r.w.log|
            && r.out == Fail(Http(PUT, PackageById(id), w.codes[MaxRetries]))
            && PackageUpdates(added) == MaxRetries + 1
            && Pauses(added) == MaxRetries
  {
    var st := Statuses(w.codes, MaxRetries + 1);
    UpdatePackageAttempts(w, id, rec, 1);
    AttemptsAllFailed(st);
    var r := UpdatePackage(w, id, rec, 1);
    assert st[..|st|] == st;
    assert r.w.log[|w.log|..] == Tries(id, st);
    TriesCounts(id, st);
  }

  /** At most `MaxRetries` failures followed by a 201: the loop succeeds after
      one more attempt than there were failures, pausing after each failure. */
  lemma RetrySucceeds(w: World, id: string, rec: PackageRecord, failures: nat)
    requires FirstPackageWithId(w.db.packages, id).Some?
    requires failures <= MaxRetries
    requires forall j :: 0 <= j < failures ==> j < |w.codes| && w.codes[j] != PutOk
    requires failures < |w.codes| ==> w.codes[failures] == PutOk
    ensures var r := UpdatePackage(w, id, rec, 1);
            var added := r.w.log[|w.log|..];
            && |w.log| <= |r.w.log|
            && r.out.Ok?
            && r.w.db.packages == w.db.packages[FirstPackageWithId(w.db.packages, id).value := rec]
            && PackageUpdates(added) == failures + 1
            && Pauses(added) == failures
  {
    var st := Statuses(w.codes, MaxRetries + 1);
    UpdatePackageAttempts(w, id, rec, 1);
    AttemptsUntilCommitted(st, failures);
    var r := UpdatePackage(w, id, rec, 1);
    assert r.w.log[|w.log|..] == Tries(id, st[..failures + 1]);
    TriesCounts(id, st[..failures + 1]);
  }

  /** When no status commits, every attempt is made. */
  lemma AttemptsAllFailed(st: seq<int>)
    requires |st| > 0
    requires forall j :: 0 <= j < |st| ==> !IsCommitted(st[j])
    ensures AttemptsMade(st) == |st|
  {
  }

  /** The attempts stop right after the first status that commits. */
  lemma AttemptsUntilCommitted(st: seq<int>, i: nat)
    requires i < |st| && IsCommitted(st[i])
    requires forall j :: 0 <= j < i ==> !IsCommitted(st[j])
    ensures AttemptsMade(st) == i + 1
  {
  }

  // ---------------------------------------------------------------------
  // upload() and main()
  // ---------------------------------------------------------------------

  /** `w` after the file upload: the call is logged and, when the backend
      answered an id, a bare package record of that id and name exists. */
  function Uploaded(w: World, name: string, id: string): (r: World)
    ensures r.codes == w.codes && r.log == w.log + [Upload(name, id)] && r.written == w.written
    ensures id == "" ==> r.db == w.db
    ensures id != "" ==> r.db == w.db.(packages := w.db.packages + [PackageRecord(id, name, "", "")])
  {
    var w' := w.(log := w.log + [Upload(name, id)]);
    if id == "" then w' else w'.(db := w'.db.(packages := w'.db.packages + [PackageRecord(id, name, "", "")]))
  }

  /** `upload()`: skip a package whose name the backend already knows (any
      other answer to that lookup proceeds); otherwise upload it, set its
      category and notes with retries, and point the TEST policy of its title at
      it, disabled. Answers the policy id, or `None` when the package existed. */
  function UploadPackage(w: World, pkgPath: string, uploadId: string, day: string): (r: Step<Option<string>>)
    ensures r.w.db.titles == w.db.titles && r.w.db.patchPolicies == w.db.patchPolicies
    ensures r.out.Fail? ==> !r.out.err.PackageNotFound? && r.w.db.policies == w.db.policies
    ensures Happy(w) ==> Happy(r.w)
  {
    var pkg := Basename(pkgPath);
    var title := Title(pkg);
    var s1 := GetPackageByName(w, pkg);
    if s1.out.Ok? then Step(s1.w, Ok(None))
    else
      var w2 := Uploaded(s1.w, pkg, uploadId);
      if uploadId == "" then Step(w2, Fail(UploadFailed))
      else
        var s3 := UpdatePackage(w2, uploadId, PackageRecord(uploadId, pkg, Category, Notes(day)), 1);
        if s3.out.Fail? then Stop(s3)
        else PointTestPolicy(s3.w, title, PackageRef(uploadId, pkg))
  }

  /** The test-policy part of `upload()`: read the TEST policy of the title,
      point it at the package and disable it, and write it back by its id,
      which is the answer. */
  function PointTestPolicy(w: World, title: string, ref: PackageRef): (r: Step<Option<string>>)
    ensures r.w.db.(policies := w.db.policies) == w.db
    ensures r.out.Fail? ==> r.w.db == w.db
    ensures r.out.Ok? ==> r.out.value.Some?
    ensures r.out.Fail? ==> r.out.err.Http? || r.out.err == MissingPackageDefinition
    ensures r.w.written == w.written + if r.out.Ok? then [PolicyById(r.out.value.value)] else []
    ensures r.out.Ok? ==>
              && PolicyNamed(w.db, TestPolicyName(title)).Some?
              && var p := PolicyNamed(w.db, TestPolicyName(title)).value;
                 var k := FirstPolicyWithId(w.db.policies, p.id);
                 && p.package.Some?
                 && r.out.value == Some(p.id)
                 && k.Some?
                 && r.w.db.policies == w.db.policies[k.value := ArmTestPolicy(p, ref).value]
    ensures Happy(w) ==>
              (r.out.Ok? <==> PolicyNamed(w.db, TestPolicyName(title)).Some?
                              && PolicyNamed(w.db, TestPolicyName(title)).value.package.Some?)
    ensures Happy(w) ==> Happy(r.w)
  {
    var s4 := GetPolicyByName(w, TestPolicyName(title));
    if s4.out.Fail? then Stop(s4)
    else
      match ArmTestPolicy(s4.out.value, ref)
      case Fail(e) => Step(s4.w, Fail(e))
      case Ok(p) =>
        var s5 := PutPolicyById(s4.w, p.id, p);
        if s5.out.Fail? then Stop(s5)
        else Step(s5.w, Ok(Some(p.id)))
  }

  /** `main()`: a missing package file stops the run before any call; otherwise
      upload, and report a summary only when a policy id came back. */
  function Main(w: World, pkgPath: string, fileExists: bool, uploadId: string, day: string): (r: Step<Option<Summary>>)
    ensures !fileExists <==> r.out == Fail(PackageNotFound(pkgPath))
    ensures !fileExists ==> r.w == w
    ensures r.w.db.titles == w.db.titles && r.w.db.patchPolicies == w.db.patchPolicies
  {
    if !fileExists then Step(w, Fail(PackageNotFound(pkgPath)))
    else
      var u := UploadPackage(w, pkgPath, uploadId, day);
      if u.out.Fail? then Stop(u)
      else
        match u.out.value
        case None => Step(u.w, Ok(None))
        case Some(id) => Step(u.w, Ok(Some(Summary(id, pkgPath))))
  }

  /** No two policies share an id. */
  ghost predicate UniquePolicyIds(ps: seq<Policy>)
  {
    forall i, j :: 0 <= i < j < |ps| ==> ps[i].id != ps[j].id
  }

  /** A new package whose id the backend has not used: when every call
      succeeds and the TEST policy of its title has a package element, the run
      adds the package record with its category and notes, points exactly that
      policy at the new package, disables it, and reports its id. */
  lemma MainUploads(w: World, pkgPath: string, uploadId: string, day: string)
    requires Happy(w) && UniquePolicyIds(w.db.policies)
    requires FirstPackageNamed(w.db.packages, Basename(pkgPath)).None?
    requires uploadId != "" && FirstPackageWithId(w.db.packages, uploadId).None?
    requires PolicyNamed(w.db, TestPolicyName(Title(Basename(pkgPath)))).Some?
    requires PolicyNamed(w.db, TestPolicyName(Title(Basename(pkgPath)))).value.package.Some?
    ensures var r := Main(w, pkgPath, true, uploadId, day);
            var pkg := Basename(pkgPath);
            var i := FirstPolicyNamed(w.db.policies, TestPolicyName(Title(pkg))).value;
            var test := w.db.policies[i];
            && r.out == Ok(Some(Summary(test.id, pkgPath)))
            && r.w.db.packages == w.db.packages + [PackageRecord(uploadId, pkg, Category, Notes(day))]
            && r.w.db.policies == w.db.policies[i := test.(package := Some(PackageRef(uploadId, pkg)), enabled := false)]
  {
    MainPhases(w, pkgPath, uploadId, day);
    UploadStoresPackage(w, pkgPath, uploadId, day);
  }

  /** `upload()` on a new package when every call succeeds. */
  lemma UploadStoresPackage(w: World, pkgPath: string, uploadId: string, day: string)
    requires Happy(w) && UniquePolicyIds(w.db.policies)
    requires FirstPackageNamed(w.db.packages, Basename(pkgPath)).None?
    requires uploadId != "" && FirstPackageWithId(w.db.packages, uploadId).None?
    requires PolicyNamed(w.db, TestPolicyName(Title(Basename(pkgPath)))).Some?
    requires PolicyNamed(w.db, TestPolicyName(Title(Basename(pkgPath)))).value.package.Some?
    ensures var r := UploadPackage(w, pkgPath, uploadId, day);
            var pkg := Basename(pkgPath);
            var i := FirstPolicyNamed(w.db.policies, TestPolicyName(Title(pkg))).value;
            var test := w.db.policies[i];
            && r.out == Ok(Some(test.id))
            && r.w.db.packages == w.db.packages + [PackageRecord(uploadId, pkg, Category, Notes(day))]
            && r.w.db.policies == w.db.policies[i := test.(package := Some(PackageRef(uploadId, pkg)), enabled := false)]
  {
    var pkg := Basename(pkgPath);
    var s1 := GetPackageByName(w, pkg);
    assert s1.w.db == w.db && Happy(s1.w) && s1.out.Fail?;
    NewPackageStored(s1.w, pkg, uploadId, day);
    UploadPhases(w, pkgPath, uploadId, day);
  }

  /** After the lookup, when every call succeeds: the retry loop stores the
      record with its category and notes, and the test-policy part re-points
      and disables exactly the TEST policy and answers its id. */
  lemma NewPackageStored(w1: World, pkg: string, uploadId: string, day: string)
    requires Happy(w1) && UniquePolicyIds(w1.db.policies)
    requires uploadId != "" && FirstPackageWithId(w1.db.packages, uploadId).None?
    requires PolicyNamed(w1.db, TestPolicyName(Title(pkg))).Some?
    requires PolicyNamed(w1.db, TestPolicyName(Title(pkg))).value.package.Some?
    ensures var w2 := Uploaded(w1, pkg, uploadId);
            var s3 := UpdatePackage(w2, uploadId, PackageRecord(uploadId, pkg, Category, Notes(day)), 1);
            var p := PointTestPolicy(s3.w, Title(pkg), PackageRef(uploadId, pkg));
            var i := FirstPolicyNamed(w1.db.policies, TestPolicyName(Title(pkg))).value;
            var test := w1.db.policies[i];
            && s3.out.Ok?
            && p.out == Ok(Some(test.id))
            && p.w.db.packages == w1.db.packages + [PackageRecord(uploadId, pkg, Category, Notes(day))]
            && p.w.db.policies == w1.db.policies[i := test.(package := Some(PackageRef(uploadId, pkg)), enabled := false)]
  {
    var title := Title(pkg);
    var ks := w1.db.packages;
    var w2 := Uploaded(w1, pkg, uploadId);
    assert w2.db == w1.db.(packages := ks + [PackageRecord(uploadId, pkg, "", "")]) && Happy(w2);
    var rec := PackageRecord(uploadId, pkg, Category, Notes(day));
    NewIdIsFoundLast(ks, PackageRecord(uploadId, pkg, "", ""));
    RetrySucceeds(w2, uploadId, rec, 0);
    var s3 := UpdatePackage(w2, uploadId, rec, 1);
    assert s3.w.db == w1.db.(packages := ks + [rec]);
    assert Happy(s3.w);
    assert PolicyNamed(s3.w.db, TestPolicyName(title)) == PolicyNamed(w1.db, TestPolicyName(title));
    PointTestPolicyHappy(s3.w, title, PackageRef(uploadId, pkg));
  }

  /** A package record with an id the backend has not used is found last. */
  lemma NewIdIsFoundLast(ks: seq<PackageRecord>, k: PackageRecord)
    requires FirstPackageWithId(ks, k.id).None?
    ensures FirstPackageWithId(ks + [k], k.id) == Some(|ks|)
  {
    assert (ks + [k])[|ks|].id == k.id;
    assert forall j :: 0 <= j < |ks| ==> (ks + [k])[j] == ks[j];
  }

  /** The test-policy part when every call succeeds: exactly the TEST policy is
      re-pointed and disabled, and its id is the answer. */
  lemma PointTestPolicyHappy(w: World, title: string, ref: PackageRef)
    requires Happy(w) && UniquePolicyIds(w.db.policies)
    requires PolicyNamed(w.db, TestPolicyName(title)).Some?
    requires PolicyNamed(w.db, TestPolicyName(title)).value.package.Some?
    ensures var r := PointTestPolicy(w, title, ref);
            var i := FirstPolicyNamed(w.db.policies, TestPolicyName(title)).value;
            var test := w.db.policies[i];
            && r.out == Ok(Some(test.id))
            && r.w.db == w.db.(policies := w.db.policies[i := test.(package := Some(ref), enabled := false)])
  {
    var i := FirstPolicyNamed(w.db.policies, TestPolicyName(title)).value;
    assert FirstPolicyWithId(w.db.policies, w.db.policies[i].id) == Some(i);
  }

  /** `upload()` is the lookup, then the upload, then the retry loop, then the
      test-policy part, stopping at the first failure. */
  lemma UploadPhases(w: World, pkgPath: string, uploadId: string, day: string)
    ensures var pkg := Basename(pkgPath);
            var s1 := GetPackageByName(w, pkg);
            var w2 := Uploaded(s1.w, pkg, uploadId);
            var s3 := UpdatePackage(w2, uploadId, PackageRecord(uploadId, pkg, Category, Notes(day)), 1);
            var r := UploadPackage(w, pkgPath, uploadId, day);
            && (s1.out.Ok? ==> r == Step(s1.w, Ok(None)))
            && (s1.out.Fail? && uploadId == "" ==> r == Step(w2, Fail(UploadFailed)))
            && (s1.out.Fail? && uploadId != "" && s3.out.Fail? ==> r == Stop(s3))
            && (s1.out.Fail? && uploadId != "" && s3.out.Ok? ==> r == PointTestPolicy(s3.w, Title(pkg), PackageRef(uploadId, pkg)))
  {
  }

  /** Once the lookup has failed, `upload()` never answers "no policy id", and
      it fails with `UploadFailed` only there and only without an upload id. */
  lemma UploadAnswers(w: World, pkgPath: string, uploadId: string, day: string)
    ensures var s1 := GetPackageByName(w, Basename(pkgPath));
            var r := UploadPackage(w, pkgPath, uploadId, day);
            && (s1.out.Fail? ==> r.out != Ok(None))
            && (r.out == Fail(UploadFailed) ==> s1.out.Fail? && uploadId == "")
  {
    UploadPhases(w, pkgPath, uploadId, day);
    var pkg := Basename(pkgPath);
    var s1 := GetPackageByName(w, pkg);
    if s1.out.Fail? && uploadId != "" {
      RetryAndPointAnswers(Uploaded(s1.w, pkg, uploadId), pkg, uploadId, day);
    }
  }

  /** The retry loop and the test-policy part fail with a status or a missing
      package element, or answer a policy id. */
  lemma RetryAndPointAnswers(w2: World, pkg: string, uploadId: string, day: string)
    ensures var s3 := UpdatePackage(w2, uploadId, PackageRecord(uploadId, pkg, Category, Notes(day)), 1);
            var p := PointTestPolicy(s3.w, Title(pkg), PackageRef(uploadId, pkg));
            && (s3.out.Fail? ==> s3.out.err.Http?)
            && (s3.out.Ok? ==> (p.out.Ok? ==> p.out.value.Some?) && (p.out.Fail? ==> p.out.err != UploadFailed))
  {
  }

  /** `upload()` answers no policy id only when the backend already knew a
      package of that name, and then nothing changed; when every call
      succeeds, a known name is always skipped. */
  lemma UploadSkipsKnown(w: World, pkgPath: string, uploadId: string, day: string)
    ensures var r := UploadPackage(w, pkgPath, uploadId, day);
            var known := FirstPackageNamed(w.db.packages, Basename(pkgPath)).Some?;
            && (r.out == Ok(None) ==> r.w.db == w.db && r.w.written == w.written && known)
            && (!known ==> r.out != Ok(None))
            && (Happy(w) && known ==> r.out == Ok(None))
  {
    UploadPhases(w, pkgPath, uploadId, day);
    UploadAnswers(w, pkgPath, uploadId, day);
  }

  /** Without an upload id `upload()` either skips a known package or fails
      with nothing changed, and only then does it fail that way. */
  lemma UploadWithoutId(w: World, pkgPath: string, uploadId: string, day: string)
    ensures var r := UploadPackage(w, pkgPath, uploadId, day);
            && (r.out == Fail(UploadFailed) ==> uploadId == "" && r.w.db == w.db)
            && (uploadId == "" ==> r.out == Ok(None) || r.out == Fail(UploadFailed))
  {
    UploadPhases(w, pkgPath, uploadId, day);
    UploadAnswers(w, pkgPath, uploadId, day);
  }

  /** A policy id answered by `upload()` is that of the TEST policy of the
      title as it was before the run, and that policy had a package element. */
  lemma UploadReportsPolicy(w: World, pkgPath: string, uploadId: string, day: string)
    ensures var r := UploadPackage(w, pkgPath, uploadId, day);
            r.out.Ok? && r.out.value.Some? ==>
              && uploadId != ""
              && var p := PolicyNamed(w.db, TestPolicyName(Title(Basename(pkgPath))));
                 && p.Some? && p.value.package.Some? && r.out.value.value == p.value.id
  {
    UploadPhases(w, pkgPath, uploadId, day);
    var pkg := Basename(pkgPath);
    var s1 := GetPackageByName(w, pkg);
    if s1.out.Fail? && uploadId != "" {
      assert s1.w.db == w.db;
      PointedPolicyIsTest(s1.w, pkg, uploadId, day);
    }
  }

  /** The retry loop leaves the policies alone, so the policy the test-policy
      part answers is the TEST policy as it was before the upload. */
  lemma PointedPolicyIsTest(w1: World, pkg: string, uploadId: string, day: string)
    ensures var w2 := Uploaded(w1, pkg, uploadId);
            var s3 := UpdatePackage(w2, uploadId, PackageRecord(uploadId, pkg, Category, Notes(day)), 1);
            var p := PointTestPolicy(s3.w, Title(pkg), PackageRef(uploadId, pkg));
            s3.out.Ok? && p.out.Ok? ==>
              var q := PolicyNamed(w1.db, TestPolicyName(Title(pkg)));
              q.Some? && q.value.package.Some? && p.out.value == Some(q.value.id)
  {
    var w2 := Uploaded(w1, pkg, uploadId);
    var s3 := UpdatePackage(w2, uploadId, PackageRecord(uploadId, pkg, Category, Notes(day)), 1);
    if s3.out.Ok? {
      assert s3.w.db.policies == w1.db.policies;
      assert PolicyNamed(s3.w.db, TestPolicyName(Title(pkg))) == PolicyNamed(w1.db, TestPolicyName(Title(pkg)));
    }
  }

  /** `main()` with the package file present is `upload()`, with its policy id
      turned into a summary. */
  lemma MainPhases(w: World, pkgPath: string, uploadId: string, day: string)
    ensures var u := UploadPackage(w, pkgPath, uploadId, day);
            var r := Main(w, pkgPath, true, uploadId, day);
            && r.w == u.w
            && (u.out.Fail? ==> r.out == Fail(u.out.err))
            && (u.out == Ok(None) ==> r.out == Ok(None))
            && (u.out.Ok? && u.out.value.Some? ==> r.out == Ok(Some(Summary(u.out.value.value, pkgPath))))
  {
  }

  /** What `main()` reports: no summary when the package existed, and then
      nothing changed; a summary names the package file and the TEST policy. */
  lemma MainOutcomes(w: World, pkgPath: string, fileExists: bool, uploadId: string, day: string)
    ensures var r := Main(w, pkgPath, fileExists, uploadId, day);
            && (r.out == Ok(None) ==> r.w.db == w.db && FirstPackageNamed(w.db.packages, Basename(pkgPath)).Some?)
            && (r.out.Ok? && r.out.value.Some? ==>
                  && r.out.value.value.pkgPath == pkgPath
                  && var p := PolicyNamed(w.db, TestPolicyName(Title(Basename(pkgPath))));
                     && p.Some? && r.out.value.value.policyId == p.value.id)
  {
    if fileExists {
      MainPhases(w, pkgPath, uploadId, day);
      UploadSkipsKnown(w, pkgPath, uploadId, day);
      UploadReportsPolicy(w, pkgPath, uploadId, day);
    }
  }

  /** After a successful `upload()` the backend knows a package of that name:
      it either knew one already or holds the uploaded record. */
  lemma UploadKnowsPackage(w: World, pkgPath: string, uploadId: string, day: string)
    requires UploadPackage(w, pkgPath, uploadId, day).out.Ok?
    ensures FirstPackageNamed(UploadPackage(w, pkgPath, uploadId, day).w.db.packages, Basename(pkgPath)).Some?
  {
    var pkg := Basename(pkgPath);
    var r := UploadPackage(w, pkgPath, uploadId, day);
    UploadPhases(w, pkgPath, uploadId, day);
    UploadSkipsKnown(w, pkgPath, uploadId, day);
    UploadWithoutId(w, pkgPath, uploadId, day);
    if r.out.value.Some? {
      UploadedKnowsPackage(GetPackageByName(w, pkg).w, pkg, uploadId, day);
    }
  }

  /** After the upload and the retry loop, the backend holds a package of that
      name, whether or not the loop replaced the bare record. */
  lemma UploadedKnowsPackage(w1: World, pkg: string, uploadId: string, day: string)
    requires uploadId != ""
    ensures var w2 := Uploaded(w1, pkg, uploadId);
            var s3 := UpdatePackage(w2, uploadId, PackageRecord(uploadId, pkg, Category, Notes(day)), 1);
            s3.out.Ok? ==> FirstPackageNamed(PointTestPolicy(s3.w, Title(pkg), PackageRef(uploadId, pkg)).w.db.packages, pkg).Some?
  {
    var ks := w1.db.packages;
    var ks2 := ks + [PackageRecord(uploadId, pkg, "", "")];
    var rec := PackageRecord(uploadId, pkg, Category, Notes(day));
    var w2 := Uploaded(w1, pkg, uploadId);
    var s3 := UpdatePackage(w2, uploadId, rec, 1);
    if s3.out.Ok? {
      var j := FirstPackageWithId(ks2, uploadId).value;
      var p := PointTestPolicy(s3.w, Title(pkg), PackageRef(uploadId, pkg));
      assert p.w.db.packages == ks2[j := rec];
      assert ks2[j := rec][|ks|].name == pkg;
    }
  }

  /** Idempotence: after a run that uploaded the package, a second run with
      every call succeeding finds it by name, writes nothing and reports no summary. */
  lemma RerunSkipsUpload(w: World, pkgPath: string, uploadId: string, day: string, uploadId2: string, day2: string)
    requires Main(w, pkgPath, true, uploadId, day).out.Ok?
    ensures var r1 := Main(w, pkgPath, true, uploadId, day);
            var r2 := Main(World(r1.w.db, [], r1.w.log, r1.w.written), pkgPath, true, uploadId2, day2);
            && r2.out == Ok(None)
            && r2.w.db == r1.w.db
            && r2.w.written == r1.w.written
  {
    var r1 := Main(w, pkgPath, true, uploadId, day);
    MainPhases(w, pkgPath, uploadId, day);
    UploadKnowsPackage(w, pkgPath, uploadId, day);
    var w2 := World(r1.w.db, [], r1.w.log, r1.w.written);
    MainPhases(w2, pkgPath, uploadId2, day2);
    UploadSkipsKnown(w2, pkgPath, uploadId2, day2);
  }

  /** The retry loop on an existing record commits the record once, and only on success. */
  lemma UpdatePackageWrites(w: World, id: string, rec: PackageRecord)
    ensures var r := UpdatePackage(w, id, rec, 1);
            && Extends(w, r.w)
            && Writes(w, r.w) == if r.out.Ok? then [PackageById(id)] else []
  {
    var r := UpdatePackage(w, id, rec, 1);
    WritesAppended(w, r.w, if r.out.Ok? then [PackageById(id)] else []);
  }

  /** The test-policy part commits the policy write, and only on success. */
  lemma PointTestPolicyWrites(w: World, title: string, ref: PackageRef)
    ensures var r := PointTestPolicy(w, title, ref);
            && Extends(w, r.w)
            && Writes(w, r.w) == if r.out.Ok? then [PolicyById(r.out.value.value)] else []
  {
    var r := PointTestPolicy(w, title, ref);
    WritesAppended(w, r.w, if r.out.Ok? then [PolicyById(r.out.value.value)] else []);
  }

  /** The writes of an `upload()` step `r` that started from `w`: nothing when
      the package existed, the package record then the policy on success, and
      at most the package record on failure. */
  predicate UploadWriteOrder(w: World, r: Step<Option<string>>, uploadId: string)
  {
    && Extends(w, r.w)
    && var ws := Writes(w, r.w);
       && (r.out == Ok(None) ==> ws == [])
       && (r.out.Ok? && r.out.value.Some? ==> ws == [PackageById(uploadId), PolicyById(r.out.value.value)])
       && (r.out.Fail? ==> ws == [] || ws == [PackageById(uploadId)])
  }

  /** `upload()` writes the package record before the policy, each at most
      once; it writes nothing when the package already existed. */
  lemma UploadWrites(w: World, pkgPath: string, uploadId: string, day: string)
    ensures UploadWriteOrder(w, UploadPackage(w, pkgPath, uploadId, day), uploadId)
  {
    var pkg := Basename(pkgPath);
    UploadPhases(w, pkgPath, uploadId, day);
    var s1 := GetPackageByName(w, pkg);
    WritesAppended(w, s1.w, []);
    if s1.out.Fail? {
      var w2 := Uploaded(s1.w, pkg, uploadId);
      UploadedWrites(w, s1.w, pkg, uploadId);
      if uploadId != "" {
        NewPackageWrites(w, w2, pkg, uploadId, day);
      }
    }
  }

  /** The retry loop and the test-policy part after an upload that answered an id. */
  lemma NewPackageWrites(w: World, w2: World, pkg: string, uploadId: string, day: string)
    requires Extends(w, w2) && Writes(w, w2) == []
    ensures var s3 := UpdatePackage(w2, uploadId, PackageRecord(uploadId, pkg, Category, Notes(day)), 1);
            && (s3.out.Fail? ==> UploadWriteOrder(w, Stop(s3), uploadId))
            && (s3.out.Ok? ==> UploadWriteOrder(w, PointTestPolicy(s3.w, Title(pkg), PackageRef(uploadId, pkg)), uploadId))
  {
    var rec := PackageRecord(uploadId, pkg, Category, Notes(day));
    var s3 := UpdatePackage(w2, uploadId, rec, 1);
    RetryAfterUploadWrites(w, w2, pkg, uploadId, rec);
    if s3.out.Ok? {
      var t := PointTestPolicy(s3.w, Title(pkg), PackageRef(uploadId, pkg));
      PointTestPolicyWrites(s3.w, Title(pkg), PackageRef(uploadId, pkg));
      WritesCompose(w, s3.w, t.w);
    }
  }

  /** The lookup and the upload commit nothing. */
  lemma UploadedWrites(w: World, w1: World, pkg: string, uploadId: string)
    requires Extends(w, w1) && Writes(w, w1) == []
    ensures Extends(w, Uploaded(w1, pkg, uploadId)) && Writes(w, Uploaded(w1, pkg, uploadId)) == []
  {
    var w2 := Uploaded(w1, pkg, uploadId);
    WritesAppended(w1, w2, []);
    WritesCompose(w, w1, w2);
  }

  /** After an upload that answered an id, the retry loop commits the record once, and only on success. */
  lemma RetryAfterUploadWrites(w: World, w2: World, pkg: string, uploadId: string, rec: PackageRecord)
    requires Extends(w, w2) && Writes(w, w2) == []
    ensures var s3 := UpdatePackage(w2, uploadId, rec, 1);
            && Extends(w, s3.w)
            && Writes(w, s3.w) == if s3.out.Ok? then [PackageById(uploadId)] else []
  {
    var s3 := UpdatePackage(w2, uploadId, rec, 1);
    UpdatePackageWrites(w2, uploadId, rec);
    WritesCompose(w, w2, s3.w);
  }

  /** `main()` writes nothing when the file is missing or the package existed,
      and otherwise the package record, then the TEST policy. */
  lemma MainWrites(w: World, pkgPath: string, fileExists: bool, uploadId: string, day: string)
    ensures Extends(w, Main(w, pkgPath, fileExists, uploadId, day).w)
    ensures var r := Main(w, pkgPath, fileExists, uploadId, day);
            var ws := Writes(w, r.w);
            && (!fileExists || r.out == Ok(None) ==> ws == [])
            && (r.out.Ok? && r.out.value.Some? ==> ws == [PackageById(uploadId), PolicyById(r.out.value.value.policyId)])
            && (r.out.Fail? ==> ws == [] || ws == [PackageById(uploadId)])
  {
    if fileExists {
      MainPhases(w, pkgPath, uploadId, day);
      UploadWrites(w, pkgPath, uploadId, day);
    } else {
      WritesAppended(w, w, []);
    }
  }
}


=== FILE: jpc_importer_calls.dfy ===
/** Which failed calls a JPCImporter run goes on after. The lookup of the
    package by name and the attempts of the package-update loop are allowed to
    fail; any other call answered with anything but success ends the run with
    that status, and so does the last attempt of the loop. */
module JPCImporterCalls {
  import opened Outcomes
  import opened Seqs
  import opened Names
  import opened Records
  import opened Backend
  import opened JPCImporter

  /** A call the run goes on after whatever its answer: one that succeeded,
      the lookup of the package `pkg` by name, or an update of the package
      record `id`. */
  predicate Tolerated(c: Call, pkg: string, id: string)
  {
    || Succeeded(c)
    || (c.Request? && c.verb == GET && c.res == PackageByName(pkg))
    || (c.Request? && c.verb == PUT && c.res == PackageById(id))
  }

  /** Every call of `cs` is tolerated. */
  predicate AllTolerated(cs: seq<Call>, pkg: string, id: string)
    decreases |cs|
  {
    cs == [] || (AllTolerated(cs[..|cs| - 1], pkg, id) && Tolerated(cs[|cs| - 1], pkg, id))
  }

  /** Two stretches of calls are all tolerated exactly when each is. */
  lemma {:induction false} AllToleratedAppend(a: seq<Call>, b: seq<Call>, pkg: string, id: string)
    ensures AllTolerated(a + b, pkg, id) <==> AllTolerated(a, pkg, id) && AllTolerated(b, pkg, id)
    decreases |b|
  {
    if b == [] {
      assert a + b == a;
    } else {
      var b' := b[..|b| - 1];
      assert (a + b)[..|a + b| - 1] == a + b';
      AllToleratedAppend(a, b', pkg, id);
    }
  }

  /** A call of a stretch that is all tolerated is tolerated. */
  lemma {:induction false} AllToleratedAt(cs: seq<Call>, i: nat, pkg: string, id: string)
    requires AllTolerated(cs, pkg, id) && i < |cs|
    ensures Tolerated(cs[i], pkg, id)
    decreases |cs|
  {
    if i < |cs| - 1 {
      AllToleratedAt(cs[..|cs| - 1], i, pkg, id);
    }
  }

  /** Calls that all succeeded are all tolerated. */
  lemma {:induction false} SucceededTolerated(cs: seq<Call>, pkg: string, id: string)
    requires AllSucceeded(cs)
    ensures AllTolerated(cs, pkg, id)
    decreases |cs|
  {
    if cs != [] {
      SucceededTolerated(cs[..|cs| - 1], pkg, id);
    }
  }

  /** `StopsAtFailure` with tolerated calls allowed to fail: every call the
      step made is tolerated, except a last one that made it fail. */
  predicate StopsAtUntolerated<T>(w: World, r: Step<T>, pkg: string, id: string)
  {
    && Traced(w, r)
    && var cs := r.w.log[|w.log|..];
       AllTolerated(if r.out.Fail? && r.out.err.Http? then cs[..|cs| - 1] else cs, pkg, id)
  }

  /** A step that stops at every failure stops at every untolerated one. */
  lemma StopsTolerating<T>(w: World, r: Step<T>, pkg: string, id: string)
    requires StopsAtFailure(w, r)
    ensures StopsAtUntolerated(w, r, pkg, id)
  {
    var cs := r.w.log[|w.log|..];
    SucceededTolerated(if r.out.Fail? && r.out.err.Http? then cs[..|cs| - 1] else cs, pkg, id);
  }

  /** `r` was reached from `w` by tolerated calls only. */
  predicate Tolerating<T>(w: World, r: Step<T>, pkg: string, id: string)
  {
    Traced(w, r) && AllTolerated(r.w.log[|w.log|..], pkg, id)
  }

  /** Two stretches of tolerated calls, one after the other. */
  lemma TolerantThen<T, U>(w: World, s: Step<T>, r: Step<U>, pkg: string, id: string)
    requires Tolerating(w, s, pkg, id) && Tolerating(s.w, r, pkg, id)
    ensures Tolerating(w, r, pkg, id)
  {
    TracedThen(w, s, r);
    LogsCompose(w.log, s.w.log, r.w.log);
    AllToleratedAppend(s.w.log[|w.log|..], r.w.log[|s.w.log|..], pkg, id);
  }

  /** A stretch of tolerated calls, then a step that stops at an untolerated failure. */
  lemma ToleratedThen<T, U>(w: World, s: Step<T>, r: Step<U>, pkg: string, id: string)
    requires Tolerating(w, s, pkg, id) && StopsAtUntolerated(s.w, r, pkg, id)
    ensures StopsAtUntolerated(w, r, pkg, id)
  {
    TracedThen(w, s, r);
    LogsCompose(w.log, s.w.log, r.w.log);
    var a := s.w.log[|w.log|..];
    var b := r.w.log[|s.w.log|..];
    if r.out.Fail? && r.out.err.Http? {
      assert (a + b)[..|a + b| - 1] == a + b[..|b| - 1];
      AllToleratedAppend(a, b[..|b| - 1], pkg, id);
    } else {
      AllToleratedAppend(a, b, pkg, id);
    }
  }

  /** Tolerated calls only: in particular every call but a failing last one. */
  lemma ToleratingStops<T>(w: World, r: Step<T>, pkg: string, id: string)
    requires Tolerating(w, r, pkg, id)
    ensures StopsAtUntolerated(w, r, pkg, id)
  {
    var cs := r.w.log[|w.log|..];
    if r.out.Fail? && r.out.err.Http? {
      assert cs == cs[..|cs| - 1] + [cs[|cs| - 1]];
      AllToleratedAppend(cs[..|cs| - 1], [cs[|cs| - 1]], pkg, id);
    }
  }

  /** A step that ends where `s` ended, with the same failure status if any. */
  lemma SameEndTolerating<T, U>(w: World, s: Step<T>, r: Step<U>, pkg: string, id: string)
    requires StopsAtUntolerated(w, s, pkg, id) && r.w == s.w
    requires (r.out.Fail? && r.out.err.Http?) == (s.out.Fail? && s.out.err.Http?)
    requires r.out.Fail? && r.out.err.Http? ==> r.out.err == s.out.err
    ensures StopsAtUntolerated(w, r, pkg, id)
  {
  }

  /** One call that is tolerated, whatever its answer, and commits what a call commits. */
  lemma OneTolerated<T>(w: World, s: Step<T>, c: Call, pkg: string, id: string)
    requires s.w.log == w.log + [c] && Tolerated(c, pkg, id)
    requires Traced(w, s)
    ensures Tolerating(w, s, pkg, id)
  {
    OneCall(w, s.w, c);
    assert [c][..0] == [];
  }

  /** The lookup of the package by name is tolerated. */
  lemma LookupTolerated(w: World, pkg: string, id: string)
    ensures Tolerating(w, GetPackageByName(w, pkg), pkg, id)
  {
    CallsStop(w);
    var st := NextStatus(w, FirstPackageNamed(w.db.packages, pkg).Some?, GetOk);
    OneTolerated(w, GetPackageByName(w, pkg), Request(GET, PackageByName(pkg), st), pkg, id);
  }

  /** An attempt to update the package record is tolerated. */
  lemma AttemptTolerated(w: World, id: string, rec: PackageRecord, pkg: string)
    ensures Tolerating(w, PutPackageById(w, id, rec), pkg, id)
  {
    CallsStop(w);
    var st := NextStatus(w, FirstPackageWithId(w.db.packages, id).Some?, PutOk);
    OneTolerated(w, PutPackageById(w, id, rec), Request(PUT, PackageById(id), st), pkg, id);
  }

  /** The pause between two attempts succeeds and writes nothing. */
  lemma SleptTolerated(w: World, pkg: string, id: string)
    ensures Tolerating(w, Step(Slept(w), Ok(())), pkg, id)
  {
    OneCall(w, Slept(w), Sleep(Pause));
    OneTolerated(w, Step(Slept(w), Ok(())), Sleep(Pause), pkg, id);
  }

  /** The file upload succeeds as a call and writes nothing through a PUT. */
  lemma UploadTolerated(w: World, pkg: string, id: string)
    ensures Tolerating(w, Step(Uploaded(w, pkg, id), Ok(())), pkg, id)
  {
    OneCall(w, Uploaded(w, pkg, id), Upload(pkg, id));
    OneTolerated(w, Step(Uploaded(w, pkg, id), Ok(())), Upload(pkg, id), pkg, id);
  }

  /** The package-update loop: every attempt is tolerated, and its writes are
      those of the attempt that succeeded, if any. */
  lemma {:induction false} UpdatePackageTolerated(w: World, id: string, rec: PackageRecord, count: nat, pkg: string)
    requires 1 <= count <= MaxRetries + 1
    ensures Tolerating(w, UpdatePackage(w, id, rec, count), pkg, id)
    decreases MaxRetries + 1 - count
  {
    var s := PutPackageById(w, id, rec);
    AttemptTolerated(w, id, rec, pkg);
    UpdatePackageUnfold(w, id, rec, count);
    if s.out.Fail? && count <= MaxRetries {
      var p := Step(Slept(s.w), Ok(()));
      SleptTolerated(s.w, pkg, id);
      UpdatePackageTolerated(p.w, id, rec, count + 1, pkg);
      TolerantThen(w, s, p, pkg, id);
      TolerantThen(w, p, UpdatePackage(p.w, id, rec, count + 1), pkg, id);
    }
  }

  /** The test-policy part stops at the first answer other than success, with that status. */
  lemma PointTestPolicyStops(w: World, title: string, ref: PackageRef)
    ensures StopsAtFailure(w, PointTestPolicy(w, title, ref))
  {
    var r := PointTestPolicy(w, title, ref);
    var s4 := GetPolicyByName(w, TestPolicyName(title));
    CallsStop(w);
    if s4.out.Fail? {
      SameEnd(w, s4, r);
    } else {
      match ArmTestPolicy(s4.out.value, ref)
      case Fail(_) =>
        SameEnd(w, s4, r);
      case Ok(p) =>
        var s5 := PutPolicyById(s4.w, p.id, p);
        CallsStop(s4.w);
        StopsThen(w, s4, s5);
        SameEnd(w, s5, r);
    }
  }

  /** `upload()` goes on only after a failed lookup or a failed update attempt. */
  lemma UploadPackageStops(w: World, pkgPath: string, uploadId: string, day: string)
    ensures StopsAtUntolerated(w, UploadPackage(w, pkgPath, uploadId, day), Basename(pkgPath), uploadId)
  {
    var pkg := Basename(pkgPath);
    var r := UploadPackage(w, pkgPath, uploadId, day);
    var s1 := GetPackageByName(w, pkg);
    LookupTolerated(w, pkg, uploadId);
    ToleratingStops(w, s1, pkg, uploadId);
    if s1.out.Ok? {
      SameEndTolerating(w, s1, r, pkg, uploadId);
    } else {
      UploadAfterLookupStops(s1.w, pkgPath, uploadId, day);
      ToleratedThen(w, s1, r, pkg, uploadId);
    }
  }

  /** `upload()` once the lookup did not find the package: the upload, the
      update loop, then the test-policy part. */
  lemma UploadAfterLookupStops(w1: World, pkgPath: string, uploadId: string, day: string)
    ensures var pkg := Basename(pkgPath);
            var w2 := Uploaded(w1, pkg, uploadId);
            var r := if uploadId == "" then Step(w2, Fail(UploadFailed))
                     else
                       var s3 := UpdatePackage(w2, uploadId, PackageRecord(uploadId, pkg, Category, Notes(day)), 1);
                       if s3.out.Fail? then Stop(s3)
                       else PointTestPolicy(s3.w, Title(pkg), PackageRef(uploadId, pkg));
            StopsAtUntolerated(w1, r, pkg, uploadId)
  {
    var pkg := Basename(pkgPath);
    var w2 := Uploaded(w1, pkg, uploadId);
    var u := Step(w2, Ok(()));
    UploadTolerated(w1, pkg, uploadId);
    if uploadId == "" {
      ToleratingStops(w1, u, pkg, uploadId);
      SameEndTolerating<(), Option<string>>(w1, u, Step(w2, Fail(UploadFailed)), pkg, uploadId);
    } else {
      var rec := PackageRecord(uploadId, pkg, Category, Notes(day));
      var s3 := UpdatePackage(w2, uploadId, rec, 1);
      UpdatePackageTolerated(w2, uploadId, rec, 1, pkg);
      TolerantThen(w1, u, s3, pkg, uploadId);
      ToleratingStops(w1, s3, pkg, uploadId);
      if s3.out.Fail? {
        SameEndTolerating<(), Option<string>>(w1, s3, Stop(s3), pkg, uploadId);
      } else {
        var p := PointTestPolicy(s3.w, Title(pkg), PackageRef(uploadId, pkg));
        PointTestPolicyStops(s3.w, Title(pkg), PackageRef(uploadId, pkg));
        StopsTolerating(s3.w, p, pkg, uploadId);
        ToleratedThen(w1, s3, p, pkg, uploadId);
      }
    }
  }

  /** A run from `w` to `r` went on only after tolerated failures: a call
      answered with anything else is the last one made and the run failed with
      its status; a run that failed with a status failed with the answer to its
      last call, and the writes are those of the successful PUTs before it. */
  predicate UntoleratedIsFinal<T>(w: World, r: Step<T>, pkg: string, id: string)
  {
    && |w.log| <= |r.w.log|
    && (forall i :: |w.log| <= i < |r.w.log| && !Tolerated(r.w.log[i], pkg, id) ==>
          i == |r.w.log| - 1 && r.out == Fail(Http(r.w.log[i].verb, r.w.log[i].res, r.w.log[i].status)))
    && (r.out.Fail? && r.out.err.Http? ==>
          && |w.log| < |r.w.log|
          && r.w.log[|r.w.log| - 1] == Request(r.out.err.verb, r.out.err.res, r.out.err.status)
          && !Succeeded(r.w.log[|r.w.log| - 1])
          && r.w.written == w.written + Committed(r.w.log[|w.log|..|r.w.log| - 1]))
  }

  /** What `StopsAtUntolerated` says of each call. */
  lemma StopsAtUntoleratedMeans<T>(w: World, r: Step<T>, pkg: string, id: string)
    requires StopsAtUntolerated(w, r, pkg, id)
    ensures UntoleratedIsFinal(w, r, pkg, id)
  {
    var cs := r.w.log[|w.log|..];
    forall i | |w.log| <= i < |r.w.log| && !Tolerated(r.w.log[i], pkg, id)
      ensures i == |r.w.log| - 1 && r.out == Fail(Http(r.w.log[i].verb, r.w.log[i].res, r.w.log[i].status))
    {
      var j := i - |w.log|;
      assert cs[j] == r.w.log[i];
      if r.out.Fail? && r.out.err.Http? {
        if j < |cs| - 1 {
          AllToleratedAt(cs[..|cs| - 1], j, pkg, id);
        }
      } else {
        AllToleratedAt(cs, j, pkg, id);
      }
    }
    if r.out.Fail? && r.out.err.Http? {
      FailureCommitsNothing(w, r);
      assert cs[..|cs| - 1] == r.w.log[|w.log|..|r.w.log| - 1];
    }
  }

  /** A run goes on only after a failed lookup or a failed update attempt:
      any other answer than success is the last call made and the run fails
      with its status, as does the last update attempt when it fails; the
      writes committed are those of the successful PUTs before. */
  lemma MainStopsAtFailure(w: World, pkgPath: string, fileExists: bool, uploadId: string, day: string)
    ensures StopsAtUntolerated(w, Main(w, pkgPath, fileExists, uploadId, day), Basename(pkgPath), uploadId)
    ensures UntoleratedIsFinal(w, Main(w, pkgPath, fileExists, uploadId, day), Basename(pkgPath), uploadId)
  {
    var r := Main(w, pkgPath, fileExists, uploadId, day);
    var pkg := Basename(pkgPath);
    if !fileExists {
      Idle(w, r.out);
      StopsTolerating(w, r, pkg, uploadId);
    } else {
      MainPhases(w, pkgPath, uploadId, day);
      var u := UploadPackage(w, pkgPath, uploadId, day);
      UploadPackageStops(w, pkgPath, uploadId, day);
      assert r.w == u.w;
    }
    StopsAtUntoleratedMeans(w, r, pkg, uploadId);
  }
}

=== FILE: jpc_importer_recovery.dfy ===
/** Re-running JPCImporter after a run that failed half-way. `upload()` returns
    0 as soon as the backend knows a package of that name, and the file upload
    creates that package before the retry loop and the test-policy part run, so
    after a failure in either of those no later run points the TEST policy at
    the package. `UploadRecovering` checks the TEST policy of a known package
    and points it there when it does not already; a TEST policy that already
    points there is left as it is, enabled or not. */
module JPCImporterRecovery {
  import opened Outcomes
  import opened Seqs
  import opened Names
  import opened Records
  import opened Backend
  import opened JPCImporter

  /** The test-policy part for a package the backend may already know: read the
      TEST policy of the title; when it already points at the package, answer
      no policy id and write nothing; otherwise point it there, disable it and
      write it back by its id, which is the answer. */
  function SyncTestPolicy(w: World, title: string, ref: PackageRef): (r: Step<Option<string>>)
    ensures r.w.db.(policies := w.db.policies) == w.db
    ensures r.out.Fail? ==> r.w.db == w.db
    ensures r.out.Fail? ==> r.out.err.Http? || r.out.err == MissingPackageDefinition
    ensures r.out == Ok(None) ==> r.w.db == w.db && r.w.written == w.written
    ensures r.out.Ok? ==>
              && PolicyNamed(w.db, TestPolicyName(title)).Some?
              && PolicyNamed(w.db, TestPolicyName(title)).value.package.Some?
    ensures Happy(w) ==> Happy(r.w)
  {
    var s4 := GetPolicyByName(w, TestPolicyName(title));
    if s4.out.Fail? then Stop(s4)
    else if s4.out.value.package == Some(ref) then Step(s4.w, Ok(None))
    else
      match ArmTestPolicy(s4.out.value, ref)
      case Fail(e) => Step(s4.w, Fail(e))
      case Ok(p) =>
        var s5 := PutPolicyById(s4.w, p.id, p);
        if s5.out.Fail? then Stop(s5)
        else Step(s5.w, Ok(Some(p.id)))
  }

  /** `upload()` with `SyncTestPolicy` run on a package the backend already
      knows, pointing at that package's id. Otherwise it is `upload()` itself,
      whose lookup from the same backend gets the same answer. */
  function UploadRecovering(w: World, pkgPath: string, uploadId: string, day: string): (r: Step<Option<string>>)
    ensures r.w.db.titles == w.db.titles && r.w.db.patchPolicies == w.db.patchPolicies
    ensures r.out.Fail? ==> r.w.db.policies == w.db.policies && !r.out.err.PackageNotFound?
  {
    var pkg := Basename(pkgPath);
    var s1 := GetPackageByName(w, pkg);
    if s1.out.Ok? then
      assert s1.w.db == w.db;
      SyncTestPolicy(s1.w, Title(pkg), PackageRef(s1.out.value.id, pkg))
    else
      UploadPackage(w, pkgPath, uploadId, day)
  }

  /** `main()` with `UploadRecovering` in place of `upload()`. */
  function MainRecovering(w: World, pkgPath: string, fileExists: bool, uploadId: string, day: string): (r: Step<Option<Summary>>)
    ensures !fileExists <==> r.out == Fail(PackageNotFound(pkgPath))
    ensures r.out.Fail? ==> r.w.db.policies == w.db.policies
    ensures r.w.db.titles == w.db.titles && r.w.db.patchPolicies == w.db.patchPolicies
  {
    if !fileExists then Step(w, Fail(PackageNotFound(pkgPath)))
    else
      var u := UploadRecovering(w, pkgPath, uploadId, day);
      if u.out.Fail? then Stop(u)
      else
        match u.out.value
        case None => Step(u.w, Ok(None))
        case Some(id) => Step(u.w, Ok(Some(Summary(id, pkgPath))))
  }

  /** `MainRecovering` with the package file present is `UploadRecovering`,
      its failures and successes passed on. */
  lemma MainRecoveringPhases(w: World, pkgPath: string, uploadId: string, day: string)
    ensures var u := UploadRecovering(w, pkgPath, uploadId, day);
            var r := MainRecovering(w, pkgPath, true, uploadId, day);
            && r.w == u.w
            && (u.out.Fail? ==> r.out == Fail(u.out.err))
            && (u.out.Ok? ==> r.out.Ok?)
  {
    var u := UploadRecovering(w, pkgPath, uploadId, day);
    if u.out.Ok? {
      match u.out.value
      case None =>
      case Some(_) =>
    }
  }

  /** When the lookup finds the package, `UploadRecovering` is the
      test-policy check on it. */
  lemma UploadRecoveringKnown(w: World, pkgPath: string, uploadId: string, day: string)
    requires GetPackageByName(w, Basename(pkgPath)).out.Ok?
    ensures var pkg := Basename(pkgPath);
            var s1 := GetPackageByName(w, pkg);
            UploadRecovering(w, pkgPath, uploadId, day) == SyncTestPolicy(s1.w, Title(pkg), PackageRef(s1.out.value.id, pkg))
  {
  }

  /** The test-policy check when every call succeeds: a TEST policy already
      pointing at the package is left as it is and no id is answered; any other
      is pointed at the package, disabled, and its id answered. */
  lemma SyncTestPolicyHappy(w: World, title: string, ref: PackageRef)
    requires Happy(w) && UniquePolicyIds(w.db.policies)
    requires PolicyNamed(w.db, TestPolicyName(title)).Some?
    requires PolicyNamed(w.db, TestPolicyName(title)).value.package.Some?
    ensures var r := SyncTestPolicy(w, title, ref);
            var i := FirstPolicyNamed(w.db.policies, TestPolicyName(title)).value;
            var test := w.db.policies[i];
            && r.out.Ok?
            && (r.out == Ok(None) <==> test.package == Some(ref))
            && (test.package == Some(ref) ==> r.w.db == w.db)
            && (test.package != Some(ref) ==>
                  && r.out == Ok(Some(test.id))
                  && r.w.db == w.db.(policies := w.db.policies[i := test.(package := Some(ref), enabled := false)]))
  {
    var i := FirstPolicyNamed(w.db.policies, TestPolicyName(title)).value;
    var test := w.db.policies[i];
    assert FirstPolicyWithId(w.db.policies, test.id) == Some(i);
  }

  /** As written: after a run that uploaded the package and then failed, in the
      retry loop or in the test-policy part, the TEST policy was not touched,
      and a clean rerun finds the package by name and returns 0 without
      changing anything, so the TEST policy never points at the package. */
  lemma PartialUploadStaysUnpointed(w: World, pkgPath: string, uploadId: string, day: string, uploadId2: string, day2: string)
    requires Main(w, pkgPath, true, uploadId, day).out.Fail?
    requires FirstPackageNamed(Main(w, pkgPath, true, uploadId, day).w.db.packages, Basename(pkgPath)).Some?
    ensures var r1 := Main(w, pkgPath, true, uploadId, day);
            var r2 := Main(World(r1.w.db, [], r1.w.log, r1.w.written), pkgPath, true, uploadId2, day2);
            && r1.w.db.policies == w.db.policies
            && r2.out == Ok(None)
            && r2.w.db == r1.w.db
  {
    var r1 := Main(w, pkgPath, true, uploadId, day);
    MainPhases(w, pkgPath, uploadId, day);
    var w2 := World(r1.w.db, [], r1.w.log, r1.w.written);
    MainPhases(w2, pkgPath, uploadId2, day2);
    UploadSkipsKnown(w2, pkgPath, uploadId2, day2);
  }

  /** A known package, every call succeeding: the run points the TEST policy
      of its title at the first package of that name and disables it, unless it
      already points there, in which case nothing is written and no summary is
      reported; nothing else changes. */
  lemma RecoveringRunPoints(w: World, pkgPath: string, uploadId: string, day: string)
    requires Happy(w) && UniquePolicyIds(w.db.policies)
    requires FirstPackageNamed(w.db.packages, Basename(pkgPath)).Some?
    requires PolicyNamed(w.db, TestPolicyName(Title(Basename(pkgPath)))).Some?
    requires PolicyNamed(w.db, TestPolicyName(Title(Basename(pkgPath)))).value.package.Some?
    ensures var r := MainRecovering(w, pkgPath, true, uploadId, day);
            var pkg := Basename(pkgPath);
            var k := w.db.packages[FirstPackageNamed(w.db.packages, pkg).value];
            var ref := PackageRef(k.id, pkg);
            var i := FirstPolicyNamed(w.db.policies, TestPolicyName(Title(pkg))).value;
            var test := w.db.policies[i];
            && (test.package == Some(ref) ==> r.out == Ok(None) && r.w.db == w.db)
            && (test.package != Some(ref) ==>
                  && r.out == Ok(Some(Summary(test.id, pkgPath)))
                  && r.w.db == w.db.(policies := w.db.policies[i := test.(package := Some(ref), enabled := false)]))
  {
    var pkg := Basename(pkgPath);
    var s1 := GetPackageByName(w, pkg);
    assert s1.w.db == w.db && Happy(s1.w) && s1.out.Ok?;
    MainRecoveringPhases(w, pkgPath, uploadId, day);
    UploadRecoveringKnown(w, pkgPath, uploadId, day);
    SyncTestPolicyHappy(s1.w, Title(pkg), PackageRef(s1.out.value.id, pkg));
  }

  /** Recovery by rerun: after a run that uploaded the package and then
      failed, a clean rerun leaves the TEST policy pointing at the package: as
      it was when it already did, pointed there and disabled otherwise. */
  lemma RecoveringRerunPoints(w: World, pkgPath: string, uploadId: string, day: string, uploadId2: string, day2: string)
    requires MainRecovering(w, pkgPath, true, uploadId, day).out.Fail?
    requires FirstPackageNamed(MainRecovering(w, pkgPath, true, uploadId, day).w.db.packages, Basename(pkgPath)).Some?
    requires UniquePolicyIds(w.db.policies)
    requires PolicyNamed(w.db, TestPolicyName(Title(Basename(pkgPath)))).Some?
    requires PolicyNamed(w.db, TestPolicyName(Title(Basename(pkgPath)))).value.package.Some?
    ensures var r1 := MainRecovering(w, pkgPath, true, uploadId, day);
            var r2 := MainRecovering(World(r1.w.db, [], r1.w.log, r1.w.written), pkgPath, true, uploadId2, day2);
            var pkg := Basename(pkgPath);
            var k := r1.w.db.packages[FirstPackageNamed(r1.w.db.packages, pkg).value];
            var ref := PackageRef(k.id, pkg);
            var test := PolicyNamed(w.db, TestPolicyName(Title(pkg))).value;
            && r1.w.db.policies == w.db.policies
            && r2.out.Ok?
            && PolicyNamed(r2.w.db, TestPolicyName(Title(pkg)))
                 == Some(if test.package == Some(ref) then test else test.(package := Some(ref), enabled := false))
  {
    var pkg := Basename(pkgPath);
    var name := TestPolicyName(Title(pkg));
    var r1 := MainRecovering(w, pkgPath, true, uploadId, day);
    var w2 := World(r1.w.db, [], r1.w.log, r1.w.written);
    assert PolicyNamed(w2.db, name) == PolicyNamed(w.db, name);
    RecoveringRunPoints(w2, pkgPath, uploadId2, day2);
    var k := r1.w.db.packages[FirstPackageNamed(r1.w.db.packages, pkg).value];
    ArmedPolicyFoundFirst(w2.db.policies, name, PackageRef(k.id, pkg));
  }

  /** Re-pointing the first policy of a name keeps it the first of that name. */
  lemma ArmedPolicyFoundFirst(ps: seq<Policy>, name: string, ref: PackageRef)
    requires FirstPolicyNamed(ps, name).Some?
    ensures var i := FirstPolicyNamed(ps, name).value;
            var ps' := ps[i := ps[i].(package := Some(ref), enabled := false)];
            At(ps', FirstPolicyNamed(ps', name)) == Some(ps'[i])
  {
    var i := FirstPolicyNamed(ps, name).value;
    var ps' := ps[i := ps[i].(package := Some(ref), enabled := false)];
    assert forall j :: 0 <= j < i ==> ps'[j].name == ps[j].name != name;
    assert ps'[i].name == name;
    var k := FirstPolicyNamed(ps', name);
    assert k.Some? && k.value <= i;
  }
}

=== FILE: names.dfy ===
/** Names derived from a package file name `<title>-<version>.<ext>`, and the
    names of the remote records the processors look up. */
module Names {
  import opened Outcomes
  import opened Seqs

  /** Index of the first '-' of `s`, if any. */
  function FirstDash(s: string): Option<nat>
  {
    FirstIndex(s, (c: char) => c == '-')
  }

  /** The application title of a package file: `pkg.split("-")[0]`, the text
      before the first '-' (all of `pkg` when it has none). */
  function Title(pkg: string): (t: string)
    ensures '-' !in t
    ensures |t| <= |pkg| && pkg[..|t|] == t
    ensures |t| < |pkg| ==> pkg[|t|] == '-'
    ensures |t| == |pkg| <==> '-' !in pkg
  {
    match FirstDash(pkg)
    case None => pkg
    case Some(i) => pkg[..i]
  }

  /** `Max0(n)` is `n` clipped at zero. */
  function Max0(n: int): nat
  {
    if n < 0 then 0 else n
  }

  /** The version of a package file: `name.split("-", 1)[1][:-4]`, the text
      after the first '-' without its last four characters (the ".pkg").
      A name without a '-' makes the source raise, which is `None` here. */
  function Version(name: string): (r: Option<string>)
    ensures r.None? <==> '-' !in name
    ensures r.Some? ==> |r.value| == Max0(|name| - |Title(name)| - 5)
    ensures r.Some? && r.value != "" ==>
              name == Title(name) + "-" + r.value + name[|name| - 4..]
  {
    match FirstDash(name)
    case None => None
    case Some(i) =>
      var after := name[i + 1..];
      var v := if |after| >= 4 then after[..|after| - 4] else "";
      assert Title(name) == name[..i];
      assert v != "" ==> name == name[..i] + "-" + v + name[|name| - 4..];
      Some(v)
  }

  /** The file name the convention builds from a title, a version and a four-character extension. */
  function FileName(title: string, version: string, ext: string): string
  {
    title + "-" + version + ext
  }

  /** Splitting a conventional file name recovers the title it was built from. */
  lemma TitleOfFileName(title: string, version: string, ext: string)
    requires '-' !in title
    ensures Title(FileName(title, version, ext)) == title
  {
    var n := FileName(title, version, ext);
    assert n[|title|] == '-';
    assert n[..|title|] == title;
  }

  /** Splitting a conventional file name recovers the version it was built from,
      whatever '-' the version itself contains. */
  lemma VersionOfFileName(title: string, version: string, ext: string)
    requires '-' !in title
    requires |ext| == 4
    ensures Version(FileName(title, version, ext)) == Some(version)
  {
    var n := FileName(title, version, ext);
    TitleOfFileName(title, version, ext);
    var r := Version(n);
    assert r.Some?;
    assert |r.value| == |version|;
    if version != "" {
      assert n == title + "-" + r.value + n[|n| - 4..];
      assert n[|title| + 1..|title| + 1 + |version|] == r.value;
      assert n[|title| + 1..|title| + 1 + |version|] == version;
    }
  }

  /** The worked example: "MyApp-3.2.1.pkg" is version "3.2.1" of "MyApp". */
  lemma VersionExample()
    ensures Version("MyApp-3.2.1.pkg") == Some("3.2.1")
    ensures Title("MyApp-3.2.1.pkg") == "MyApp"
  {
    assert "MyApp-3.2.1.pkg" == FileName("MyApp", "3.2.1", ".pkg");
    VersionOfFileName("MyApp", "3.2.1", ".pkg");
    TitleOfFileName("MyApp", "3.2.1", ".pkg");
  }

  /** The last path component: `os.path.basename`, the text after the last '/'. */
  function Basename(path: string): (b: string)
    ensures '/' !in b
    ensures |b| <= |path| && path[|path| - |b|..] == b
    ensures |b| < |path| ==> path[|path| - |b| - 1] == '/'
  {
    if |path| == 0 then ""
    else if path[|path| - 1] == '/' then ""
    else Basename(path[..|path| - 1]) + [path[|path| - 1]]
  }

  /** The patch title a processor uses: the `patch` input when it is given and
      non-empty, otherwise the package title. */
  function PatchTitleName(package: string, patch: Option<string>): (r: string)
    ensures patch.Some? && patch.value != "" ==> r == patch.value
    ensures patch.None? || patch.value == "" ==> r == package
  {
    if patch.Some? && patch.value != "" then patch.value else package
  }

  /** The self-service description stamped on an edited patch policy,
      "Update <title> (<YYYY-MM-DD>)". */
  function Description(title: string, day: string): string
  {
    "Update " + title + " (" + day + ")"
  }
}

=== FILE: outcomes.dfy ===
/** Failure-carrying datatypes shared by every processor of the pipeline. */
module Outcomes {

  datatype Option<+T> = None | Some(value: T)

  /** The HTTP verbs the processors use against the backend. */
  datatype Verb = GET | PUT

  /** Every remote resource a processor reads or writes, named as the REST path does. */
  datatype Resource =
    | PackageByName(name: string)
    | PackageById(id: string)
    | PolicyByName(name: string)
    | PolicyById(id: string)
    | PatchTitleList
    | PatchTitleById(id: string)
    | PatchPolicyList(titleId: string)
    | PatchPolicyById(id: string)

  /** The hard errors a processor raises; each one stops the run where it happens. */
  datatype Error =
    | Http(verb: Verb, res: Resource, status: int)   // a non-success status on a required call
    | MissingPackageDefinition                       // a policy without a package element
    | BadPackageName(name: string)                   // a package name without a '-'
    | TitleNotFound(patch: string)                   // no patch title of that name
    | VersionNotFound(version: string)               // no declared version matches
    | TestPatchPolicyMissing                         // no patch policy named with "Test"
    | UploadFailed                                   // the upload answered an empty id
    | PackageNotFound(path: string)                  // the local package file is missing
    | MissingKey(key: string)                        // deleting an environment key that is absent

  /** Either a value or the hard error that stopped the run. */
  datatype Outcome<+T> = Ok(value: T) | Fail(err: Error)
}

=== FILE: patch_manager.dfy ===
/** PatchManager: sends the package the TEST policy points at to test by
    attaching it to its patch-definition version and pointing the Test patch
    policy at that version. */
module PatchManager {
  import opened Outcomes
  import opened Seqs
  import opened Names
  import opened Records
  import opened Backend

  /** What the patch-definition step leaves for the patch-policy step. */
  datatype Attachment =
    | AlreadyDone(titleId: string, matched: string)  // the version labelled `matched` already had a package
    | Written(titleId: string, matched: string)      // attached to the version labelled `matched`

  /** The report of a run that sent a package to test. */
  datatype Summary = Summary(patchId: string, package: string, version: string)

  /** The deployment policy PatchManager reads the package from. */
  function TestPolicyName(package: string): string
  {
    "TEST-" + package
  }

  /** Index of the patch policy `patch()` edits: the first listed patch policy of
      the title whose name contains "Test", fetched by its id. */
  function SelectedTestPolicy(pps: seq<PatchPolicy>, titleId: string): (r: Option<nat>)
    ensures r.Some? ==> r.value < |pps|
    ensures r.None? <==> forall pp :: pp in pps && pp.titleId == titleId ==> !Contains(pp.name, "Test")
  {
    var es := PatchPolicyEntries(pps, titleId);
    match FirstIndex(es, (e: Entry) => Contains(e.name, "Test"))
    case None =>
      assert forall pp :: pp in pps && pp.titleId == titleId ==> Entry(pp.id, pp.name) in es;
      None
    case Some(i) =>
      assert es[i] in es;
      FirstPatchPolicyWithId(pps, es[i].id)
  }

  /** Scanning the title's listing for "Test" stops at the entry of the first
      stored patch policy of the title whose name contains "Test". */
  lemma {:induction false} FirstTestEntry(pps: seq<PatchPolicy>, titleId: string)
    ensures var es := PatchPolicyEntries(pps, titleId);
            var i := FirstIndex(es, (e: Entry) => Contains(e.name, "Test"));
            var m := FirstIndex(pps, (pp: PatchPolicy) => pp.titleId == titleId && Contains(pp.name, "Test"));
            && (i.None? <==> m.None?)
            && (i.Some? ==> m.Some? && es[i.value] == Entry(pps[m.value].id, pps[m.value].name))
    decreases |pps|
  {
    if |pps| > 0 {
      FirstTestEntry(pps[1..], titleId);
      var rest := PatchPolicyEntries(pps[1..], titleId);
      if pps[0].titleId == titleId {
        var es := [Entry(pps[0].id, pps[0].name)] + rest;
        assert PatchPolicyEntries(pps, titleId) == es;
        assert es[1..] == rest;
      } else {
        assert PatchPolicyEntries(pps, titleId) == rest;
      }
    }
  }

  /** With unique patch-policy ids, the patch policy `patch()` edits is the first
      stored one that belongs to the title and has "Test" in its name. */
  lemma SelectedTestPolicyIsFirst(pps: seq<PatchPolicy>, titleId: string)
    requires UniquePatchPolicyIds(pps)
    ensures SelectedTestPolicy(pps, titleId) ==
              FirstIndex(pps, (pp: PatchPolicy) => pp.titleId == titleId && Contains(pp.name, "Test"))
    ensures var r := SelectedTestPolicy(pps, titleId);
            r.Some? ==>
              && pps[r.value].titleId == titleId && Contains(pps[r.value].name, "Test")
              && forall j :: 0 <= j < r.value ==> !(pps[j].titleId == titleId && Contains(pps[j].name, "Test"))
  {
    FirstTestEntry(pps, titleId);
    var m := FirstIndex(pps, (pp: PatchPolicy) => pp.titleId == titleId && Contains(pp.name, "Test"));
    if m.Some? {
      FetchByUniqueId(pps, m.value);
    }
  }

  /** Patch policies with the same ids, names and titles in the same order list
      the same entries for every title. */
  lemma {:induction false} SameIdentitySameEntries(pps: seq<PatchPolicy>, pps': seq<PatchPolicy>, titleId: string)
    requires |pps| == |pps'|
    requires forall k :: 0 <= k < |pps| ==> pps'[k].id == pps[k].id && pps'[k].name == pps[k].name && pps'[k].titleId == pps[k].titleId
    ensures PatchPolicyEntries(pps', titleId) == PatchPolicyEntries(pps, titleId)
    decreases |pps|
  {
    if |pps| > 0 {
      SameIdentitySameEntries(pps[1..], pps'[1..], titleId);
    }
  }

  /** Rewriting patch policies without touching their ids, names or titles
      keeps the same Test patch policy selected. */
  lemma SameIdentitySameTestPolicy(pps: seq<PatchPolicy>, pps': seq<PatchPolicy>, titleId: string)
    requires |pps| == |pps'|
    requires forall k :: 0 <= k < |pps| ==> pps'[k].id == pps[k].id && pps'[k].name == pps[k].name && pps'[k].titleId == pps[k].titleId
    ensures SelectedTestPolicy(pps', titleId) == SelectedTestPolicy(pps, titleId)
  {
    SameIdentitySameEntries(pps, pps', titleId);
    forall id: string ensures FirstPatchPolicyWithId(pps', id) == FirstPatchPolicyWithId(pps, id) {
      FirstIndexAgrees(pps', (pp: PatchPolicy) => pp.id == id, pps, (pp: PatchPolicy) => pp.id == id);
    }
  }

  /** The first half of `patch()`: find the patch title by name, then attach the
      package to the first declared version whose label contains the version,
      writing the definition back only when that version had no package. */
  function AttachToDefinition(w: World, patch: string, pkg: Release): (r: Step<Attachment>)
    ensures r.w.db.(titles := w.db.titles) == w.db
    ensures r.out.Fail? || (r.out.Ok? && r.out.value.AlreadyDone?) ==> r.w.db == w.db
    ensures r.out.Fail? ==> r.out.err.Http? || r.out.err == TitleNotFound(patch) || r.out.err == VersionNotFound(pkg.version)
    ensures r.w.written == w.written + if r.out.Ok? && r.out.value.Written? then [PatchTitleById(r.out.value.titleId)] else []
    ensures Happy(w) ==> Happy(r.w)
  {
    var s1 := GetTitleList(w);
    if s1.out.Fail? then Stop(s1)
    else
      match FirstTitleNamed(s1.out.value, patch)
      case None => Step(s1.w, Fail(TitleNotFound(patch)))
      case Some(k) =>
        var ident := s1.out.value[k].id;
        var s2 := GetTitleById(s1.w, ident);
        if s2.out.Fail? then Stop(s2)
        else
          var t := s2.out.value;
          match AttachContaining(t.versions, pkg.version, pkg.ref)
          case NoMatch => Step(s2.w, Fail(VersionNotFound(pkg.version)))
          case AlreadyAttached(matched) => Step(s2.w, Ok(AlreadyDone(ident, matched)))
          case Attached(vs, matched) =>
            var s3 := PutTitleById(s2.w, ident, t.(versions := vs));
            if s3.out.Fail? then Stop(s3)
            else
              Step(s3.w, Ok(Written(ident, matched)))
  }

  /** The second half of `patch()`: only the first listed patch policy whose name
      contains "Test" is considered; if it already targets the version nothing is
      written, otherwise it is sent to test and its id returned. */
  function SendTestPolicy(w: World, titleId: string, package: string, version: string, matched: string, day: string)
    : (r: Step<Option<string>>)
    ensures r.w.db.(patchPolicies := w.db.patchPolicies) == w.db
    ensures r.out.Fail? || r.out == Ok(None) ==> r.w.db == w.db
    ensures r.out.Fail? ==> r.out.err.Http? || r.out.err == TestPatchPolicyMissing
    ensures r.w.written == w.written + if r.out.Ok? && r.out.value.Some? then [PatchPolicyById(r.out.value.value)] else []
  {
    var s1 := GetPatchPolicyList(w, titleId);
    if s1.out.Fail? then Stop(s1)
    else
      match FirstIndex(s1.out.value, (e: Entry) => Contains(e.name, "Test"))
      case None => Step(s1.w, Fail(TestPatchPolicyMissing))
      case Some(i) =>
        var polId := s1.out.value[i].id;
        assert s1.out.value[i] in s1.out.value;
        var s2 := GetPatchPolicyById(s1.w, polId);
        if s2.out.Fail? then Stop(s2)
        else
          var pp := s2.out.value;
          if pp.targetVersion == version then Step(s2.w, Ok(None))
          else
            var pp' := SendToTest(pp, matched, package, day);
            var s3 := PutPatchPolicyById(s2.w, polId, pp');
            if s3.out.Fail? then Stop(s3)
            else Step(s3.w, Ok(Some(polId)))
  }

  /** Which patch title the patch-definition step reads and what it does to it:
      the title selected by name, the first version whose label contains the
      version; nothing is written when that version already has a package. In a
      world whose every call succeeds, it fails only for a missing title or a
      version no label contains. */
  lemma AttachToDefinitionSelects(w: World, patch: string, pkg: Release)
    ensures var r := AttachToDefinition(w, patch, pkg);
            && (SelectedTitle(w.db.titles, patch).None? ==> r.out.Fail?)
            && (Happy(w) && SelectedTitle(w.db.titles, patch).None? ==> r.out == Fail(TitleNotFound(patch)))
            && (r.out.Ok? ==>
                  && SelectedTitle(w.db.titles, patch).Some?
                  && var j := SelectedTitle(w.db.titles, patch).value;
                     var a := AttachContaining(w.db.titles[j].versions, pkg.version, pkg.ref);
                     && (r.out.value.AlreadyDone? <==> a.AlreadyAttached?)
                     && (r.out.value.AlreadyDone? ==> r.out.value == AlreadyDone(w.db.titles[j].id, a.matched))
                     && (r.out.value.Written? ==>
                           && a.Attached?
                           && r.out.value == Written(w.db.titles[j].id, a.matched)
                           && r.w.db.titles == w.db.titles[j := w.db.titles[j].(versions := a.versions)]))
            && (Happy(w) && SelectedTitle(w.db.titles, patch).Some? ==>
                  var j := SelectedTitle(w.db.titles, patch).value;
                  var a := AttachContaining(w.db.titles[j].versions, pkg.version, pkg.ref);
                  && (a.NoMatch? <==> r.out == Fail(VersionNotFound(pkg.version)))
                  && (r.out.Ok? <==> !a.NoMatch?))
  {
  }

  /** Which patch policy the patch-policy step edits: the selected Test patch
      policy, left alone when it already targets the version and sent to test
      otherwise. In a world whose every call succeeds, it fails exactly when no
      patch policy of the title has "Test" in its name. */
  lemma SendTestPolicySelects(w: World, titleId: string, package: string, version: string, matched: string, day: string)
    ensures var r := SendTestPolicy(w, titleId, package, version, matched, day);
            && (SelectedTestPolicy(w.db.patchPolicies, titleId).None? ==> r.out.Fail?)
            && (r.out.Ok? ==>
                  && SelectedTestPolicy(w.db.patchPolicies, titleId).Some?
                  && var k := SelectedTestPolicy(w.db.patchPolicies, titleId).value;
                     var pp := w.db.patchPolicies[k];
                     && (r.out.value.None? <==> pp.targetVersion == version)
                     && (r.out.value.Some? ==>
                           && r.out.value.value == pp.id
                           && r.w.db.patchPolicies == w.db.patchPolicies[k := SendToTest(pp, matched, package, day)]))
            && (Happy(w) ==>
                  && (SelectedTestPolicy(w.db.patchPolicies, titleId).None? <==> r.out == Fail(TestPatchPolicyMissing))
                  && (r.out.Ok? <==> SelectedTestPolicy(w.db.patchPolicies, titleId).Some?))
  {
    var s1 := GetPatchPolicyList(w, titleId);
    if s1.out.Ok? {
      var i := FirstIndex(s1.out.value, (e: Entry) => Contains(e.name, "Test"));
      if i.Some? {
        assert s1.out.value[i.value] in s1.out.value;
      }
    }
  }

  /** `patch()`: the patch-definition step, then the Test patch-policy step. */
  function Patch(w: World, package: string, patch: string, pkg: Release, day: string): (r: Step<Option<string>>)
    ensures r.w.db.policies == w.db.policies && r.w.db.packages == w.db.packages
    ensures r.out.Fail? && (r.out.err.TitleNotFound? || r.out.err.VersionNotFound?) ==> r.w.db == w.db
    ensures r.out.Ok? && r.out.value.None? ==> r.w.db.patchPolicies == w.db.patchPolicies
  {
    var a := AttachToDefinition(w, patch, pkg);
    if a.out.Fail? then Stop(a)
    else
      match a.out.value
      case AlreadyDone(_, _) => Step(a.w, Ok(None))
      case Written(titleId, matched) => SendTestPolicy(a.w, titleId, package, pkg.version, matched, day)
  }

  /** `main()`: look the package up, run `patch()`, and report a summary only when
      `patch()` returned a patch-policy id. A hard error stops the run where it is. */
  function Main(w: World, package: string, patch: Option<string>, day: string): (r: Step<Option<Summary>>)
  {
    var s := ReadRelease(w, TestPolicyName(package));
    if s.out.Fail? then Stop(s)
    else
      var pkg := s.out.value;
      var p := Patch(s.w, package, PatchTitleName(package, patch), pkg, day);
      if p.out.Fail? then Stop(p)
      else
        match p.out.value
        case None => Step(p.w, Ok(None))
        case Some(id) => Step(p.w, Ok(Some(Summary(id, package, pkg.version))))
  }

  /** `patch()` is the patch-definition step, then the patch-policy step when the definition was written. */
  lemma PatchPhases(w: World, package: string, patch: string, pkg: Release, day: string)
    ensures var r := Patch(w, package, patch, pkg, day);
            var a := AttachToDefinition(w, patch, pkg);
            && (a.out.Fail? ==> r.w == a.w && r.out == Fail(a.out.err))
            && (a.out.Ok? && a.out.value.AlreadyDone? ==> r.w == a.w && r.out == Ok(None))
            && (a.out.Ok? && a.out.value.Written? ==>
                  r == SendTestPolicy(a.w, a.out.value.titleId, package, pkg.version, a.out.value.matched, day))
  {
  }

  /** `main()` is the lookup, then `patch()`; a summary is reported exactly when `patch()` returned an id. */
  lemma MainPhases(w: World, package: string, patch: Option<string>, day: string)
    ensures var r := Main(w, package, patch, day);
            var s := ReadRelease(w, TestPolicyName(package));
            && (s.out.Fail? ==> r.w == s.w && r.out == Fail(s.out.err))
            && (s.out.Ok? ==>
                  var p := Patch(s.w, package, PatchTitleName(package, patch), s.out.value, day);
                  && r.w == p.w
                  && (p.out.Fail? ==> r.out == Fail(p.out.err))
                  && (p.out == Ok(None) ==> r.out == Ok(None))
                  && (p.out.Ok? && p.out.value.Some? ==>
                        r.out == Ok(Some(Summary(p.out.value.value, package, s.out.value.version)))))
  {
  }

  /** What a run leaves alone: deployment policies and packages always; the whole
      backend when the lookup or the title/version search fails; the patch
      policies when nothing is sent to test. */
  lemma MainKeepsRecords(w: World, package: string, patch: Option<string>, day: string)
    ensures var r := Main(w, package, patch, day);
            && r.w.db.policies == w.db.policies && r.w.db.packages == w.db.packages
            && (r.out.Fail? && (r.out.err.MissingPackageDefinition? || r.out.err.BadPackageName?) ==> r.w.db == w.db)
            && (r.out.Fail? && (r.out.err.TitleNotFound? || r.out.err.VersionNotFound?) ==> r.w.db == w.db)
            && (r.out.Ok? && r.out.value.None? ==> r.w.db.patchPolicies == w.db.patchPolicies)
  {
    MainPhases(w, package, patch, day);
    var s := ReadRelease(w, TestPolicyName(package));
    if s.out.Ok? {
      var p := Patch(s.w, package, PatchTitleName(package, patch), s.out.value, day);
      assert p.out.Fail? ==> p.out.err.Http? || p.out.err.TestPatchPolicyMissing? || p.out.err.TitleNotFound? || p.out.err.VersionNotFound?;
    }
  }

  /** A summary names the package and the version derived from the package its TEST policy points at. */
  lemma MainReportsRelease(w: World, package: string, patch: Option<string>, day: string)
    ensures var r := Main(w, package, patch, day);
            r.out.Ok? && r.out.value.Some? ==>
              && r.out.value.value.package == package
              && PolicyNamed(w.db, TestPolicyName(package)).Some?
              && PolicyNamed(w.db, TestPolicyName(package)).value.package.Some?
              && Version(PolicyNamed(w.db, TestPolicyName(package)).value.package.value.name) == Some(r.out.value.value.version)
  {
    MainPhases(w, package, patch, day);
  }

  /** Once the patch-definition step has succeeded, running it again on the
      written titles finds the version already attached and writes nothing. */
  lemma AttachToDefinitionConverges(w: World, patch: string, pkg: Release, w2: World)
    requires pkg.ref.name != ""
    requires AttachToDefinition(w, patch, pkg).out.Ok?
    requires Happy(w2) && w2.db.titles == AttachToDefinition(w, patch, pkg).w.db.titles
    ensures AttachToDefinition(w2, patch, pkg).out.Ok? && AttachToDefinition(w2, patch, pkg).out.value.AlreadyDone?
  {
    AttachToDefinitionSelects(w, patch, pkg);
    TitlesConverge(w.db.titles, patch, pkg);
    AttachToDefinitionSelects(w2, patch, pkg);
  }

  /** The titles after an attach select the same title, whose matching version now has a package. */
  lemma TitlesConverge(ts: seq<PatchTitle>, patch: string, pkg: Release)
    requires pkg.ref.name != ""
    requires SelectedTitle(ts, patch).Some?
    requires !AttachContaining(ts[SelectedTitle(ts, patch).value].versions, pkg.version, pkg.ref).NoMatch?
    ensures var j := SelectedTitle(ts, patch).value;
            var a := AttachContaining(ts[j].versions, pkg.version, pkg.ref);
            var ts2 := if a.Attached? then ts[j := ts[j].(versions := a.versions)] else ts;
            && SelectedTitle(ts2, patch) == Some(j)
            && AttachContaining(ts2[j].versions, pkg.version, pkg.ref) == AlreadyAttached(a.matched)
  {
    var j := SelectedTitle(ts, patch).value;
    var a := AttachContaining(ts[j].versions, pkg.version, pkg.ref);
    if a.Attached? {
      var ts2 := ts[j := ts[j].(versions := a.versions)];
      SameNamesSameSelection(ts, ts2, patch);
      AttachContainingConverges(ts[j].versions, pkg.version, pkg.ref, pkg.ref);
    }
  }

  /** Idempotence: after a run that succeeded, a second run with every call
      succeeding sends nothing to test, writes nothing and reports no summary. */
  lemma RerunWritesNothing(w: World, package: string, patch: Option<string>, day: string, day2: string)
    requires Main(w, package, patch, day).out.Ok?
    ensures var r1 := Main(w, package, patch, day);
            var r2 := Main(World(r1.w.db, [], r1.w.log, r1.w.written), package, patch, day2);
            && r2.out == Ok(None)
            && r2.w.db == r1.w.db
            && r2.w.written == r1.w.written
  {
    var r1 := Main(w, package, patch, day);
    var name := PatchTitleName(package, patch);
    MainPhases(w, package, patch, day);
    var s := ReadRelease(w, TestPolicyName(package));
    var pkg := s.out.value;
    PatchPhases(s.w, package, name, pkg, day);
    var a := AttachToDefinition(s.w, name, pkg);
    assert r1.w.db.titles == a.w.db.titles;
    MainKeepsRecords(w, package, patch, day);
    var w2 := World(r1.w.db, [], r1.w.log, r1.w.written);
    MainPhases(w2, package, patch, day2);
    var s2 := ReadRelease(w2, TestPolicyName(package));
    assert PolicyNamed(w2.db, TestPolicyName(package)) == PolicyNamed(w.db, TestPolicyName(package));
    assert s2.out == Ok(pkg);
    PatchPhases(s2.w, package, name, pkg, day2);
    AttachToDefinitionConverges(s.w, name, pkg, s2.w);
  }

  /** A run in which every call succeeds and every record is in place sends the
      package to test: the first version whose label contains the derived
      version gets the package, the selected Test patch policy targets that
      label, and the summary names that patch policy. */
  lemma MainSendsToTest(w: World, package: string, patch: Option<string>, day: string)
    requires Happy(w)
    requires PolicyNamed(w.db, TestPolicyName(package)).Some?
    requires PolicyNamed(w.db, TestPolicyName(package)).value.package.Some?
    requires '-' in PolicyNamed(w.db, TestPolicyName(package)).value.package.value.name
    requires SelectedTitle(w.db.titles, PatchTitleName(package, patch)).Some?
    requires var ref := PolicyNamed(w.db, TestPolicyName(package)).value.package.value;
             var t := w.db.titles[SelectedTitle(w.db.titles, PatchTitleName(package, patch)).value];
             AttachContaining(t.versions, Version(ref.name).value, ref).Attached?
    requires var t := w.db.titles[SelectedTitle(w.db.titles, PatchTitleName(package, patch)).value];
             SelectedTestPolicy(w.db.patchPolicies, t.id).Some?
    requires var ref := PolicyNamed(w.db, TestPolicyName(package)).value.package.value;
             var t := w.db.titles[SelectedTitle(w.db.titles, PatchTitleName(package, patch)).value];
             w.db.patchPolicies[SelectedTestPolicy(w.db.patchPolicies, t.id).value].targetVersion != Version(ref.name).value
    ensures var r := Main(w, package, patch, day);
            var ref := PolicyNamed(w.db, TestPolicyName(package)).value.package.value;
            var version := Version(ref.name).value;
            var j := SelectedTitle(w.db.titles, PatchTitleName(package, patch)).value;
            var t := w.db.titles[j];
            var a := AttachContaining(t.versions, version, ref);
            var k := SelectedTestPolicy(w.db.patchPolicies, t.id).value;
            var pp := w.db.patchPolicies[k];
            && r.out == Ok(Some(Summary(pp.id, package, version)))
            && r.w.db.titles == w.db.titles[j := t.(versions := a.versions)]
            && r.w.db.patchPolicies == w.db.patchPolicies[k := SendToTest(pp, a.matched, package, day)]
  {
    var s := ReadRelease(w, TestPolicyName(package));
    var rel := s.out.value;
    var name := PatchTitleName(package, patch);
    var a := AttachToDefinition(s.w, name, rel);
    AttachToDefinitionSelects(s.w, name, rel);
    assert Happy(a.w) && a.w.db.patchPolicies == w.db.patchPolicies;
    SendTestPolicySelects(a.w, a.out.value.titleId, package, rel.version, a.out.value.matched, day);
  }
}


=== FILE: patch_manager_recovery.dfy ===
/** Re-running PatchManager after a run that failed half-way. Its attach step
    returns 0 as soon as the version already has a package, so a run that wrote
    the patch definition and then failed leaves the Test patch policy unsent,
    and no later run sends it. `PatchRecovering` and `MainRecovering` go on to
    the patch-policy step in that case, and a clean rerun then sends it. They
    compare the target version with the label they would write, not with the
    version derived from the package name: with the raw version, a label that
    only contains it ("1b" for "1") would be sent again on every run. */
module PatchManagerRecovery {
  import opened Outcomes
  import opened Seqs
  import opened Names
  import opened Records
  import opened Backend
  import opened PatchManager

  /** The TEST policy points at a package with a version, the patch title is
      listed with a version whose label contains it, and its Test patch policy
      does not yet target that label: a run still has to send it to test. */
  ghost predicate TestPending(db: Db, package: string, patch: Option<string>)
  {
    var p := PolicyNamed(db, TestPolicyName(package));
    && p.Some? && p.value.package.Some? && Version(p.value.package.value.name).Some?
    && var j := SelectedTitle(db.titles, PatchTitleName(package, patch));
       && j.Some?
       && var a := AttachContaining(db.titles[j.value].versions, Version(p.value.package.value.name).value, p.value.package.value);
          && !a.NoMatch?
          && var k := SelectedTestPolicy(db.patchPolicies, db.titles[j.value].id);
             && k.Some?
             && db.patchPolicies[k.value].targetVersion != a.matched
  }

  /** `patch()` as the recovery path needs it: the patch-policy step runs whether
      the version was attached by this run or by an earlier one, and counts the
      Test patch policy as done when it targets the matched label. */
  function PatchRecovering(w: World, package: string, patch: string, pkg: Release, day: string): (r: Step<Option<string>>)
    ensures r.w.db.policies == w.db.policies && r.w.db.packages == w.db.packages
    ensures r.out.Fail? && (r.out.err.TitleNotFound? || r.out.err.VersionNotFound?) ==> r.w.db == w.db
  {
    var a := AttachToDefinition(w, patch, pkg);
    if a.out.Fail? then Stop(a)
    else SendTestPolicy(a.w, a.out.value.titleId, package, a.out.value.matched, a.out.value.matched, day)
  }

  /** `main()` with `PatchRecovering` in place of `patch()`. */
  function MainRecovering(w: World, package: string, patch: Option<string>, day: string): (r: Step<Option<Summary>>)
    ensures r.w.db.policies == w.db.policies && r.w.db.packages == w.db.packages
  {
    var s := ReadRelease(w, TestPolicyName(package));
    if s.out.Fail? then Stop(s)
    else
      var pkg := s.out.value;
      var p := PatchRecovering(s.w, package, PatchTitleName(package, patch), pkg, day);
      if p.out.Fail? then Stop(p)
      else
        match p.out.value
        case None => Step(p.w, Ok(None))
        case Some(id) => Step(p.w, Ok(Some(Summary(id, package, pkg.version))))
  }

  /** `MainRecovering` is the lookup, the attach step, then the patch-policy step. */
  lemma MainRecoveringPhases(w: World, package: string, patch: Option<string>, day: string)
    ensures var r := MainRecovering(w, package, patch, day);
            var s := ReadRelease(w, TestPolicyName(package));
            && (s.out.Fail? ==> r.w == s.w && r.out == Fail(s.out.err))
            && (s.out.Ok? ==>
                  var a := AttachToDefinition(s.w, PatchTitleName(package, patch), s.out.value);
                  && (a.out.Fail? ==> r.w == a.w && r.out == Fail(a.out.err))
                  && (a.out.Ok? ==>
                        var p := SendTestPolicy(a.w, a.out.value.titleId, package, a.out.value.matched, a.out.value.matched, day);
                        && r.w == p.w
                        && (p.out.Fail? ==> r.out == Fail(p.out.err))
                        && (p.out == Ok(None) ==> r.out == Ok(None))
                        && (p.out.Ok? && p.out.value.Some? ==>
                              r.out == Ok(Some(Summary(p.out.value.value, package, s.out.value.version))))))
  {
  }

  /** A run of `main()` that committed a write and then failed did so in the
      patch-policy step, after writing the patch definition; the backend it
      leaves is the one the attach step left. */
  lemma PartialRunAttached(w: World, package: string, patch: Option<string>, day: string)
    requires Main(w, package, patch, day).out.Fail?
    requires |Main(w, package, patch, day).w.written| > |w.written|
    ensures var s := ReadRelease(w, TestPolicyName(package));
            && s.out.Ok?
            && var a := AttachToDefinition(s.w, PatchTitleName(package, patch), s.out.value);
               && a.out.Ok? && a.out.value.Written?
               && Main(w, package, patch, day).w.db == a.w.db
  {
    MainPhases(w, package, patch, day);
    var s := ReadRelease(w, TestPolicyName(package));
    if s.out.Ok? {
      PatchPhases(s.w, package, PatchTitleName(package, patch), s.out.value, day);
    }
  }

  /** The same for `MainRecovering`. */
  lemma PartialRecoveringRunAttached(w: World, package: string, patch: Option<string>, day: string)
    requires MainRecovering(w, package, patch, day).out.Fail?
    requires |MainRecovering(w, package, patch, day).w.written| > |w.written|
    ensures var s := ReadRelease(w, TestPolicyName(package));
            && s.out.Ok?
            && var a := AttachToDefinition(s.w, PatchTitleName(package, patch), s.out.value);
               && a.out.Ok? && a.out.value.Written?
               && MainRecovering(w, package, patch, day).w.db == a.w.db
  {
    MainRecoveringPhases(w, package, patch, day);
  }

  /** A clean rerun on a backend whose titles are those a successful attach step
      left, and whose deployment policies are unchanged, reads the same release
      and finds the version attached, in the same title. */
  lemma RerunFindsAttached(w: World, package: string, patch: Option<string>, w1: World)
    requires ReadRelease(w, TestPolicyName(package)).out.Ok?
    requires var s := ReadRelease(w, TestPolicyName(package));
             AttachToDefinition(s.w, PatchTitleName(package, patch), s.out.value).out.Ok?
    requires var s := ReadRelease(w, TestPolicyName(package));
             w1.db.titles == AttachToDefinition(s.w, PatchTitleName(package, patch), s.out.value).w.db.titles
    requires w1.db.policies == w.db.policies
    ensures var s := ReadRelease(w, TestPolicyName(package));
            var a := AttachToDefinition(s.w, PatchTitleName(package, patch), s.out.value);
            var s2 := ReadRelease(World(w1.db, [], w1.log, w1.written), TestPolicyName(package));
            var a2 := AttachToDefinition(s2.w, PatchTitleName(package, patch), s.out.value);
            && s2.out == s.out
            && a2.out.Ok? && a2.out.value.AlreadyDone?
            && a2.out.value.titleId == a.out.value.titleId
            && a2.out.value.matched == a.out.value.matched
            && a2.w.db == w1.db && Happy(a2.w)
  {
    var name := PatchTitleName(package, patch);
    var s := ReadRelease(w, TestPolicyName(package));
    var pkg := s.out.value;
    var w2 := World(w1.db, [], w1.log, w1.written);
    var s2 := ReadRelease(w2, TestPolicyName(package));
    assert PolicyNamed(w2.db, TestPolicyName(package)) == PolicyNamed(w.db, TestPolicyName(package));
    assert s2.out == s.out;
    AttachToDefinitionSelects(s.w, name, pkg);
    TitlesConverge(w.db.titles, name, pkg);
    AttachToDefinitionConverges(s.w, name, pkg, s2.w);
    AttachToDefinitionSelects(s2.w, name, pkg);
  }

  /** As written: after a run that wrote the patch definition and then failed,
      nothing was sent to test, and a clean rerun returns 0 without changing
      anything, so the Test patch policy stays as it was on every later run. */
  lemma PartialRunStaysUnsent(w: World, package: string, patch: Option<string>, day: string, day2: string)
    requires Main(w, package, patch, day).out.Fail?
    requires |Main(w, package, patch, day).w.written| > |w.written|
    ensures var r1 := Main(w, package, patch, day);
            var r2 := Main(World(r1.w.db, [], r1.w.log, r1.w.written), package, patch, day2);
            && r1.w.db.patchPolicies == w.db.patchPolicies
            && r2.out == Ok(None)
            && r2.w.db == r1.w.db
  {
    var r1 := Main(w, package, patch, day);
    var s := ReadRelease(w, TestPolicyName(package));
    PartialRunAttached(w, package, patch, day);
    MainKeepsRecords(w, package, patch, day);
    RerunFindsAttached(w, package, patch, r1.w);
    var w2 := World(r1.w.db, [], r1.w.log, r1.w.written);
    MainPhases(w2, package, patch, day2);
    var s2 := ReadRelease(w2, TestPolicyName(package));
    PatchPhases(s2.w, package, PatchTitleName(package, patch), s.out.value, day2);
  }

  /** A clean run of `MainRecovering` that finds the version already attached
      sends the selected Test patch policy to test exactly when it does not yet
      target the matched label, and then writes that patch policy alone. */
  lemma RecoveringRunOnAttached(w: World, package: string, patch: Option<string>, day: string)
    requires Happy(w)
    requires ReadRelease(w, TestPolicyName(package)).out.Ok?
    requires var s := ReadRelease(w, TestPolicyName(package));
             var a := AttachToDefinition(s.w, PatchTitleName(package, patch), s.out.value);
             && a.out.Ok? && a.out.value.AlreadyDone?
             && SelectedTestPolicy(w.db.patchPolicies, a.out.value.titleId).Some?
    ensures var s := ReadRelease(w, TestPolicyName(package));
            var a := AttachToDefinition(s.w, PatchTitleName(package, patch), s.out.value);
            var m := a.out.value.matched;
            var k := SelectedTestPolicy(w.db.patchPolicies, a.out.value.titleId).value;
            var pp := w.db.patchPolicies[k];
            var r := MainRecovering(w, package, patch, day);
            && (pp.targetVersion == m ==> r.out == Ok(None) && r.w.db == w.db && r.w.written == w.written)
            && (pp.targetVersion != m ==>
                  && r.out == Ok(Some(Summary(pp.id, package, s.out.value.version)))
                  && r.w.db == w.db.(patchPolicies := w.db.patchPolicies[k := SendToTest(pp, m, package, day)])
                  && r.w.written == w.written + [PatchPolicyById(pp.id)])
  {
    MainRecoveringPhases(w, package, patch, day);
    var s := ReadRelease(w, TestPolicyName(package));
    var a := AttachToDefinition(s.w, PatchTitleName(package, patch), s.out.value);
    var m := a.out.value.matched;
    SendTestPolicySelects(a.w, a.out.value.titleId, package, m, m, day);
  }

  /** Recovery by rerun: after a run of `MainRecovering` that wrote the patch
      definition and then failed, a clean rerun sends the pending Test patch
      policy to test, pointing it at the matched label, and reports it; it
      writes that patch policy and nothing else. */
  lemma RecoveringRerunSends(w: World, package: string, patch: Option<string>, day: string, day2: string)
    requires MainRecovering(w, package, patch, day).out.Fail?
    requires |MainRecovering(w, package, patch, day).w.written| > |w.written|
    requires TestPending(w.db, package, patch)
    ensures var r1 := MainRecovering(w, package, patch, day);
            var r2 := MainRecovering(World(r1.w.db, [], r1.w.log, r1.w.written), package, patch, day2);
            var ref := PolicyNamed(w.db, TestPolicyName(package)).value.package.value;
            var version := Version(ref.name).value;
            var t := w.db.titles[SelectedTitle(w.db.titles, PatchTitleName(package, patch)).value];
            var m := AttachContaining(t.versions, version, ref).matched;
            var k := SelectedTestPolicy(w.db.patchPolicies, t.id).value;
            var pp := w.db.patchPolicies[k];
            && r1.w.db.patchPolicies == w.db.patchPolicies
            && r2.out == Ok(Some(Summary(pp.id, package, version)))
            && r2.w.db == r1.w.db.(patchPolicies := w.db.patchPolicies[k := SendToTest(pp, m, package, day2)])
            && r2.w.written == r1.w.written + [PatchPolicyById(pp.id)]
  {
    var name := PatchTitleName(package, patch);
    var r1 := MainRecovering(w, package, patch, day);
    var s := ReadRelease(w, TestPolicyName(package));
    PartialRecoveringRunAttached(w, package, patch, day);
    AttachToDefinitionSelects(s.w, name, s.out.value);
    RerunFindsAttached(w, package, patch, r1.w);
    RecoveringRunOnAttached(World(r1.w.db, [], r1.w.log, r1.w.written), package, patch, day2);
  }

  /** After the patch-policy step succeeded, the same Test patch policy is
      selected and targets the version compared with when nothing was written,
      or the label written otherwise. */
  lemma SendTestPolicySettles(w: World, titleId: string, package: string, version: string, matched: string, day: string)
    requires SendTestPolicy(w, titleId, package, version, matched, day).out.Ok?
    ensures var r := SendTestPolicy(w, titleId, package, version, matched, day);
            var k := SelectedTestPolicy(r.w.db.patchPolicies, titleId);
            && k.Some? && k == SelectedTestPolicy(w.db.patchPolicies, titleId)
            && r.w.db.patchPolicies[k.value].targetVersion == if r.out.value.None? then version else matched
  {
    var r := SendTestPolicy(w, titleId, package, version, matched, day);
    SendTestPolicySelects(w, titleId, package, version, matched, day);
    SameIdentitySameTestPolicy(w.db.patchPolicies, r.w.db.patchPolicies, titleId);
  }

  /** A run of `MainRecovering` that succeeded leaves the selected Test patch
      policy targeting the matched label, with the titles the attach step left
      and the deployment policies as they were. */
  lemma RecoveringRunSettles(w: World, package: string, patch: Option<string>, day: string)
    requires MainRecovering(w, package, patch, day).out.Ok?
    ensures var r := MainRecovering(w, package, patch, day);
            var s := ReadRelease(w, TestPolicyName(package));
            && s.out.Ok?
            && var a := AttachToDefinition(s.w, PatchTitleName(package, patch), s.out.value);
               && a.out.Ok?
               && r.w.db.titles == a.w.db.titles
               && r.w.db.policies == w.db.policies
               && var k := SelectedTestPolicy(r.w.db.patchPolicies, a.out.value.titleId);
                  k.Some? && r.w.db.patchPolicies[k.value].targetVersion == a.out.value.matched
  {
    MainRecoveringPhases(w, package, patch, day);
    var s := ReadRelease(w, TestPolicyName(package));
    var a := AttachToDefinition(s.w, PatchTitleName(package, patch), s.out.value);
    var m := a.out.value.matched;
    SendTestPolicySettles(a.w, a.out.value.titleId, package, m, m, day);
  }

  /** Idempotence of the recovery path: after a run of `MainRecovering` that
      succeeded, a clean rerun sends nothing to test, writes nothing and reports
      no summary, whatever the labels of the patch versions. */
  lemma RecoveringRerunWritesNothing(w: World, package: string, patch: Option<string>, day: string, day2: string)
    requires MainRecovering(w, package, patch, day).out.Ok?
    ensures var r1 := MainRecovering(w, package, patch, day);
            var r2 := MainRecovering(World(r1.w.db, [], r1.w.log, r1.w.written), package, patch, day2);
            && r2.out == Ok(None)
            && r2.w.db == r1.w.db
            && r2.w.written == r1.w.written
  {
    var r1 := MainRecovering(w, package, patch, day);
    RecoveringRunSettles(w, package, patch, day);
    RerunFindsAttached(w, package, patch, r1.w);
    RecoveringRunOnAttached(World(r1.w.db, [], r1.w.log, r1.w.written), package, patch, day2);
  }
}

=== FILE: patch_manager_writes.dfy ===
/** The order in which a PatchManager run commits its writes: at most the
    patch definition, then at most the Test patch policy; and the first call
    answered with anything but success ends the run. */
module PatchManagerWrites {
  import opened Outcomes
  import opened Seqs
  import opened Names
  import opened Records
  import opened Backend
  import opened PatchManager

  /** Nothing, the patch definition, or the patch definition then one patch policy. */
  predicate SendOrder(ws: seq<Resource>)
  {
    || ws == []
    || (|ws| == 1 && ws[0].PatchTitleById?)
    || (|ws| == 2 && ws[0].PatchTitleById? && ws[1].PatchPolicyById?)
  }

  /** The patch-definition step commits the title, and only when it wrote it. */
  lemma AttachToDefinitionWrites(w: World, patch: string, pkg: Release)
    ensures var r := AttachToDefinition(w, patch, pkg);
            && Extends(w, r.w)
            && Writes(w, r.w) == if r.out.Ok? && r.out.value.Written? then [PatchTitleById(r.out.value.titleId)] else []
  {
    var r := AttachToDefinition(w, patch, pkg);
    WritesAppended(w, r.w, if r.out.Ok? && r.out.value.Written? then [PatchTitleById(r.out.value.titleId)] else []);
  }

  /** The patch-policy step commits the Test patch policy, and only when it sent it to test. */
  lemma SendTestPolicyWrites(w: World, titleId: string, package: string, version: string, matched: string, day: string)
    ensures var r := SendTestPolicy(w, titleId, package, version, matched, day);
            && Extends(w, r.w)
            && Writes(w, r.w) == if r.out.Ok? && r.out.value.Some? then [PatchPolicyById(r.out.value.value)] else []
  {
    var r := SendTestPolicy(w, titleId, package, version, matched, day);
    WritesAppended(w, r.w, if r.out.Ok? && r.out.value.Some? then [PatchPolicyById(r.out.value.value)] else []);
  }

  /** `patch()` writes at most the patch definition and then at most the Test
      patch policy; it returns an id exactly when it made both writes, the second
      being the patch policy of that id; a missing title or version writes nothing. */
  lemma PatchWritesInOrder(w: World, package: string, patch: string, pkg: Release, day: string)
    ensures Extends(w, Patch(w, package, patch, pkg, day).w)
    ensures var r := Patch(w, package, patch, pkg, day);
            var ws := Writes(w, r.w);
            && SendOrder(ws)
            && (r.out.Ok? && r.out.value.Some? <==> |ws| == 2)
            && (r.out.Ok? && r.out.value.Some? ==> ws[1] == PatchPolicyById(r.out.value.value))
            && (r.out.Fail? && (r.out.err.TitleNotFound? || r.out.err.VersionNotFound?) ==> ws == [])
            && (r.out.Fail? ==> !r.out.err.MissingPackageDefinition? && !r.out.err.BadPackageName?)
  {
    PatchPhases(w, package, patch, pkg, day);
    var a := AttachToDefinition(w, patch, pkg);
    AttachToDefinitionWrites(w, patch, pkg);
    if a.out.Ok? && a.out.value.Written? {
      var p := SendTestPolicy(a.w, a.out.value.titleId, package, pkg.version, a.out.value.matched, day);
      SendTestPolicyWrites(a.w, a.out.value.titleId, package, pkg.version, a.out.value.matched, day);
      WritesCompose(w, a.w, p.w);
    }
  }

  /** `main()` writes at most the patch definition and then at most the Test
      patch policy; a summary comes exactly with both writes, the second being
      the reported patch policy; a failed lookup, a missing title or a missing
      version writes nothing. */
  lemma MainWritesInOrder(w: World, package: string, patch: Option<string>, day: string)
    ensures Extends(w, Main(w, package, patch, day).w)
    ensures var r := Main(w, package, patch, day);
            var ws := Writes(w, r.w);
            && SendOrder(ws)
            && (r.out.Ok? && r.out.value.Some? <==> |ws| == 2)
            && (r.out.Ok? && r.out.value.Some? ==> ws[1] == PatchPolicyById(r.out.value.value.patchId))
            && (r.out.Fail? && (r.out.err.MissingPackageDefinition? || r.out.err.BadPackageName?) ==> ws == [])
            && (r.out.Fail? && (r.out.err.TitleNotFound? || r.out.err.VersionNotFound?) ==> ws == [])
  {
    MainPhases(w, package, patch, day);
    var s := ReadRelease(w, TestPolicyName(package));
    WritesAppended(w, s.w, []);
    if s.out.Ok? {
      var name := PatchTitleName(package, patch);
      var p := Patch(s.w, package, name, s.out.value, day);
      PatchWritesInOrder(s.w, package, name, s.out.value, day);
      WritesCompose(w, s.w, p.w);
      assert Writes(w, p.w) == Writes(s.w, p.w);
    }
  }

  // ---------------------------------------------------------------------
  // Every failed call is fatal
  // ---------------------------------------------------------------------

  /** The patch-definition step stops at the first answer other than success, with that status. */
  lemma AttachToDefinitionStops(w: World, patch: string, pkg: Release)
    ensures StopsAtFailure(w, AttachToDefinition(w, patch, pkg))
  {
    var r := AttachToDefinition(w, patch, pkg);
    var s1 := GetTitleList(w);
    PatchCallsStop(w);
    if s1.out.Fail? {
      SameEnd(w, s1, r);
    } else {
      match FirstTitleNamed(s1.out.value, patch)
      case None =>
        SameEnd(w, s1, r);
      case Some(k) =>
        var s2 := GetTitleById(s1.w, s1.out.value[k].id);
        PatchCallsStop(s1.w);
        StopsThen(w, s1, s2);
        if s2.out.Fail? {
          SameEnd(w, s2, r);
        } else {
          AttachFetchedStops(w, patch, pkg, s1.out.value[k].id);
        }
    }
  }

  /** The same once the patch title has been read. */
  lemma AttachFetchedStops(w: World, patch: string, pkg: Release, ident: string)
    requires GetTitleList(w).out.Ok?
    requires var s1 := GetTitleList(w);
             && FirstTitleNamed(s1.out.value, patch).Some?
             && ident == s1.out.value[FirstTitleNamed(s1.out.value, patch).value].id
             && GetTitleById(s1.w, ident).out.Ok?
             && StopsAtFailure(w, GetTitleById(s1.w, ident))
    ensures StopsAtFailure(w, AttachToDefinition(w, patch, pkg))
  {
    var r := AttachToDefinition(w, patch, pkg);
    var s2 := GetTitleById(GetTitleList(w).w, ident);
    var t := s2.out.value;
    var a := AttachContaining(t.versions, pkg.version, pkg.ref);
    if a.Attached? {
      var s3 := PutTitleById(s2.w, ident, t.(versions := a.versions));
      PatchCallsStop(s2.w);
      StopsThen(w, s2, s3);
      SameEnd(w, s3, r);
    } else {
      SameEnd(w, s2, r);
    }
  }

  /** The patch-policy step stops at the first answer other than success, with that status. */
  lemma SendTestPolicyStops(w: World, titleId: string, package: string, version: string, matched: string, day: string)
    ensures StopsAtFailure(w, SendTestPolicy(w, titleId, package, version, matched, day))
  {
    var s1 := GetPatchPolicyList(w, titleId);
    PatchCallsStop(w);
    if s1.out.Ok? {
      match FirstIndex(s1.out.value, (e: Entry) => Contains(e.name, "Test"))
      case None =>
      case Some(i) =>
        var polId := s1.out.value[i].id;
        var s2 := GetPatchPolicyById(s1.w, polId);
        PatchCallsStop(s1.w);
        StopsThen(w, s1, s2);
        if s2.out.Ok? && s2.out.value.targetVersion != version {
          PatchCallsStop(s2.w);
          StopsThen(w, s2, PutPatchPolicyById(s2.w, polId, SendToTest(s2.out.value, matched, package, day)));
        }
    }
  }

  /** `patch()` stops at the first answer other than success, with that status. */
  lemma PatchStops(w: World, package: string, patch: string, pkg: Release, day: string)
    ensures StopsAtFailure(w, Patch(w, package, patch, pkg, day))
  {
    PatchPhases(w, package, patch, pkg, day);
    var a := AttachToDefinition(w, patch, pkg);
    AttachToDefinitionStops(w, patch, pkg);
    if a.out.Ok? && a.out.value.Written? {
      SendTestPolicyStops(a.w, a.out.value.titleId, package, pkg.version, a.out.value.matched, day);
      StopsThen(w, a, SendTestPolicy(a.w, a.out.value.titleId, package, pkg.version, a.out.value.matched, day));
    }
  }

  /** A non-success answer stops the run: the call that got it is the last one
      made, the run fails with its status, and the writes committed are those
      of the successful PUTs before it. */
  lemma MainStopsAtFailure(w: World, package: string, patch: Option<string>, day: string)
    ensures StopsAtFailure(w, Main(w, package, patch, day))
    ensures FailureIsFinal(w, Main(w, package, patch, day))
  {
    var r := Main(w, package, patch, day);
    MainStops(w, package, patch, day);
    StopsAtFailureMeans(w, r);
  }

  /** `main()` stops at the first answer other than success, with that status. */
  lemma MainStops(w: World, package: string, patch: Option<string>, day: string)
    ensures StopsAtFailure(w, Main(w, package, patch, day))
  {
    var r := Main(w, package, patch, day);
    MainPhases(w, package, patch, day);
    var s := ReadRelease(w, TestPolicyName(package));
    ReadReleaseStops(w, TestPolicyName(package));
    if s.out.Fail? {
      SameEnd(w, s, r);
    } else {
      var name := PatchTitleName(package, patch);
      var p := Patch(s.w, package, name, s.out.value, day);
      PatchStops(s.w, package, name, s.out.value, day);
      StopsThen(w, s, p);
      SameEnd(w, p, r);
    }
  }
}

=== FILE: production.dfy ===
/** Production: promotes the package the Test policy installs to the Install
    policy, attaches it to its patch-definition version, points every Stable
    patch policy at that version and disables every Test patch policy. */
module Production {
  import opened Outcomes
  import opened Seqs
  import opened Names
  import opened Records
  import opened Backend

  /** The report of a run that promoted a package. */
  datatype Summary = Summary(title: string, version: string)

  /** The deployment policy Production reads the package from. */
  function TestPolicyName(title: string): string
  {
    "Test-" + title
  }

  /** The deployment policy Production points at the package. */
  function InstallPolicyName(title: string): string
  {
    "Install " + title
  }

  /** `production()`: overwrite the Install policy's package with the release's
      and write the policy back under the same name. */
  function UpdateInstall(w: World, title: string, rel: Release): (r: Step<()>)
    ensures Happy(w) ==> Happy(r.w)
    ensures r.w.db.(policies := w.db.policies) == w.db
    ensures r.out.Fail? ==> r.w.db == w.db
    ensures r.w.written == w.written + if r.out.Ok? then [PolicyByName(InstallPolicyName(title))] else []
    ensures r.out.Fail? ==> r.out.err.Http? || r.out.err == MissingPackageDefinition
    ensures r.out.Ok? ==>
              var i := FirstPolicyNamed(w.db.policies, InstallPolicyName(title));
              && i.Some?
              && Repoint(w.db.policies[i.value], rel.ref).Ok?
              && r.w.db.policies == w.db.policies[i.value := Repoint(w.db.policies[i.value], rel.ref).value]
    ensures Happy(w) ==>
              (r.out.Ok? <==> PolicyNamed(w.db, InstallPolicyName(title)).Some?
                              && PolicyNamed(w.db, InstallPolicyName(title)).value.package.Some?)
  {
    var name := InstallPolicyName(title);
    var s1 := GetPolicyByName(w, name);
    if s1.out.Fail? then Stop(s1)
    else
      match Repoint(s1.out.value, rel.ref)
      case Fail(e) => Step(s1.w, Fail(e))
      case Ok(p) => PutPolicyByName(s1.w, name, p)
  }

  /** The first part of `patch()`: find the patch title by name and attach the
      package to the version whose label equals the release's version, without
      looking at what that version held; answers the title's id. */
  function AttachRelease(w: World, title: string, patch: string, rel: Release): (r: Step<string>)
    ensures Happy(w) ==> Happy(r.w)
    ensures r.w.db.(titles := w.db.titles) == w.db
    ensures r.out.Fail? ==> r.w.db == w.db
    ensures r.out.Fail? ==> r.out.err.Http? || r.out.err == TitleNotFound(title) || r.out.err == VersionNotFound(rel.version)
    ensures r.w.written == w.written + if r.out.Ok? then [PatchTitleById(r.out.value)] else []
  {
    var s1 := GetTitleList(w);
    if s1.out.Fail? then Stop(s1)
    else
      match FirstTitleNamed(s1.out.value, patch)
      case None => Step(s1.w, Fail(TitleNotFound(title)))
      case Some(k) =>
        var ident := s1.out.value[k].id;
        var s2 := GetTitleById(s1.w, ident);
        if s2.out.Fail? then Stop(s2)
        else
          var t := s2.out.value;
          match AttachExact(t.versions, rel.version, rel.ref)
          case None => Step(s2.w, Fail(VersionNotFound(rel.version)))
          case Some(vs) =>
            var s3 := PutTitleById(s2.w, ident, t.(versions := vs));
            if s3.out.Fail? then Stop(s3)
            else Step(s3.w, Ok(ident))
  }

  /** Which patch title `patch()` edits and how: the title selected by name, with
      the release attached to the version whose label equals the release's
      version. In a world whose every call succeeds, it fails only for a missing
      title or an undeclared version. */
  lemma AttachReleaseSelects(w: World, title: string, patch: string, rel: Release)
    ensures var r := AttachRelease(w, title, patch, rel);
            && (SelectedTitle(w.db.titles, patch).None? ==> r.out.Fail?)
            && (Happy(w) && SelectedTitle(w.db.titles, patch).None? ==> r.out == Fail(TitleNotFound(title)))
            && (r.out.Ok? ==>
                  && SelectedTitle(w.db.titles, patch).Some?
                  && var j := SelectedTitle(w.db.titles, patch).value;
                     var a := AttachExact(w.db.titles[j].versions, rel.version, rel.ref);
                     && a.Some?
                     && r.out.value == w.db.titles[j].id
                     && r.w.db.titles == w.db.titles[j := w.db.titles[j].(versions := a.value)])
            && (Happy(w) && SelectedTitle(w.db.titles, patch).Some? ==>
                  var j := SelectedTitle(w.db.titles, patch).value;
                  var a := AttachExact(w.db.titles[j].versions, rel.version, rel.ref);
                  && (a.None? <==> r.out == Fail(VersionNotFound(rel.version)))
                  && (a.Some? <==> r.out.Ok?))
  {
  }

  /** Read the patch policy `id`, apply `edit` and write it back by id. */
  function EditById(w: World, id: string, edit: PatchPolicy -> PatchPolicy): (r: Step<()>)
    ensures r.w.db.(patchPolicies := w.db.patchPolicies) == w.db
    ensures r.out.Fail? ==> r.w.db == w.db && r.out.err.Http?
    ensures r.w.written == w.written + if r.out.Ok? then [PatchPolicyById(id)] else []
    ensures r.out.Ok? ==>
              var k := FirstPatchPolicyWithId(w.db.patchPolicies, id);
              && k.Some?
              && r.w.db.patchPolicies == w.db.patchPolicies[k.value := edit(w.db.patchPolicies[k.value])]
    ensures Happy(w) ==> (r.out.Ok? <==> FirstPatchPolicyWithId(w.db.patchPolicies, id).Some?)
  {
    var s1 := GetPatchPolicyById(w, id);
    if s1.out.Fail? then Stop(s1)
    else PutPatchPolicyById(s1.w, id, edit(s1.out.value))
  }

  /** One listed patch policy: the Stable edit when its name contains "Stable",
      then, re-read, the Test edit when its name contains "Test". */
  function EditListed(w: World, e: Entry, version: string, title: string, day: string): (r: Step<()>)
    ensures r.w.db.(patchPolicies := w.db.patchPolicies) == w.db
    ensures |r.w.db.patchPolicies| == |w.db.patchPolicies|
    ensures r.out.Fail? ==> r.out.err.Http?
  {
    var s1 := if Contains(e.name, "Stable")
              then EditById(w, e.id, (pp: PatchPolicy) => Promote(pp, version, title, day))
              else Step(w, Ok(()));
    if s1.out.Fail? then s1
    else if Contains(e.name, "Test") then EditById(s1.w, e.id, Retire)
    else s1
  }

  /** The loop of `patch()` over the listed patch policies, stopping at the first hard error. */
  function EditAll(w: World, es: seq<Entry>, version: string, title: string, day: string): (r: Step<()>)
    ensures r.w.db.(patchPolicies := w.db.patchPolicies) == w.db
    ensures |r.w.db.patchPolicies| == |w.db.patchPolicies|
    ensures r.out.Fail? ==> r.out.err.Http?
    decreases |es|
  {
    if |es| == 0 then Step(w, Ok(()))
    else
      var s := EditListed(w, es[0], version, title, day);
      if s.out.Fail? then s
      else EditAll(s.w, es[1..], version, title, day)
  }

  /** `patch()`: attach the release, list the title's patch policies, edit them. */
  function Patch(w: World, title: string, patch: string, rel: Release, day: string): (r: Step<()>)
    ensures r.w.db.policies == w.db.policies && r.w.db.packages == w.db.packages
    ensures r.out.Fail? && (r.out.err.TitleNotFound? || r.out.err.VersionNotFound?) ==> r.w.db == w.db
  {
    var a := AttachRelease(w, title, patch, rel);
    if a.out.Fail? then Stop(a)
    else
      var l := GetPatchPolicyList(a.w, a.out.value);
      if l.out.Fail? then Stop(l)
      else EditAll(l.w, l.out.value, rel.version, title, day)
  }

  /** `main()`: lookup, then production, then patch, in that order; the summary
      exists only when all three succeeded. */
  function Main(w: World, package: string, patch: Option<string>, day: string): (r: Step<Summary>)
  {
    var s := ReadRelease(w, TestPolicyName(package));
    if s.out.Fail? then Stop(s)
    else
      var rel := s.out.value;
      var u := UpdateInstall(s.w, package, rel);
      if u.out.Fail? then Stop(u)
      else
        var p := Patch(u.w, package, PatchTitleName(package, patch), rel, day);
        if p.out.Fail? then Stop(p)
        else Step(p.w, Ok(Summary(package, rel.version)))
  }

  /** `patch()` is the attach step, then the listing, then the loop over the listing. */
  lemma PatchPhases(w: World, title: string, patch: string, rel: Release, day: string)
    ensures var r := Patch(w, title, patch, rel, day);
            var a := AttachRelease(w, title, patch, rel);
            && (a.out.Fail? ==> r.w == a.w && r.out == Fail(a.out.err))
            && (a.out.Ok? ==>
                  var l := GetPatchPolicyList(a.w, a.out.value);
                  && (l.out.Fail? ==> r.w == l.w && r.out == Fail(l.out.err))
                  && (l.out.Ok? ==> r == EditAll(l.w, l.out.value, rel.version, title, day)))
  {
  }

  /** `main()` is lookup, then `production()`, then `patch()`, stopping at the first failure. */
  lemma MainPhases(w: World, package: string, patch: Option<string>, day: string)
    ensures var r := Main(w, package, patch, day);
            var s := ReadRelease(w, TestPolicyName(package));
            && (s.out.Fail? ==> r.w == s.w && r.out == Fail(s.out.err))
            && (s.out.Ok? ==>
                  var u := UpdateInstall(s.w, package, s.out.value);
                  && (u.out.Fail? ==> r.w == u.w && r.out == Fail(u.out.err))
                  && (u.out.Ok? ==>
                        var p := Patch(u.w, package, PatchTitleName(package, patch), s.out.value, day);
                        && r.w == p.w
                        && (p.out.Fail? ==> r.out == Fail(p.out.err))
                        && (p.out.Ok? ==> r.out == Ok(Summary(package, s.out.value.version)))))
  {
  }

  /** A run leaves the packages alone; a summary names the title and the version
      derived from the package the Test policy installs; a run stopped by a
      missing title or version has touched neither patch titles nor patch policies. */
  lemma MainReports(w: World, package: string, patch: Option<string>, day: string)
    ensures var r := Main(w, package, patch, day);
            && r.w.db.packages == w.db.packages
            && (r.out.Ok? ==>
                  && PolicyNamed(w.db, TestPolicyName(package)).Some?
                  && var test := PolicyNamed(w.db, TestPolicyName(package)).value;
                     && test.package.Some?
                     && Version(test.package.value.name).Some?
                     && r.out.value == Summary(package, Version(test.package.value.name).value))
            && (r.out.Fail? && (r.out.err.TitleNotFound? || r.out.err.VersionNotFound?) ==>
                  && r.w.db.titles == w.db.titles
                  && r.w.db.patchPolicies == w.db.patchPolicies)
  {
    MainPhases(w, package, patch, day);
  }

  // ---------------------------------------------------------------------
  // The summary in the processor environment
  // ---------------------------------------------------------------------

  /** The environment key `main()` reports under. */
  const SummaryKey: string := "production_summary_result"

  /** The key `main()` deletes when it finds a previous summary. */
  const DeletedKey: string := "prod_summary_result"

  /** The clearing step of `main()` as written: it tests for `SummaryKey` but
      deletes `DeletedKey`, which raises when only the former is present. The
      environment is modelled by the set of keys it holds. */
  function ClearSummaryAsWritten(env: set<string>): (r: Outcome<set<string>>)
    ensures r.Fail? <==> SummaryKey in env && DeletedKey !in env
    ensures r.Fail? ==> r.err == MissingKey(DeletedKey)
    ensures r.Ok? ==> SummaryKey in env ==> SummaryKey in r.value
  {
    if SummaryKey in env then
      if DeletedKey in env then Ok(env - {DeletedKey}) else Fail(MissingKey(DeletedKey))
    else Ok(env)
  }

  /** The clearing step as intended: drop a previous summary, keep every other key. */
  function ClearSummary(env: set<string>): (r: set<string>)
    ensures SummaryKey !in r
    ensures forall k :: k != SummaryKey ==> (k in r <==> k in env)
  {
    env - {SummaryKey}
  }

  /** A whole invocation as written: clear a previous summary, run `main()`,
      and record the summary key when it succeeded. */
  function ExecuteAsWritten(w: World, env: set<string>, package: string, patch: Option<string>, day: string)
    : (r: (Step<Summary>, set<string>))
    ensures SummaryKey in env && DeletedKey !in env ==> r.0 == Step(w, Fail(MissingKey(DeletedKey)))
  {
    match ClearSummaryAsWritten(env)
    case Fail(e) => (Step(w, Fail(e)), env)
    case Ok(env1) =>
      var m := Main(w, package, patch, day);
      (m, if m.out.Ok? then env1 + {SummaryKey} else env1)
  }

  /** A previous summary alone stops the invocation as written before any call,
      whatever the backend holds. */
  lemma LeftoverSummaryStopsRun(w: World, package: string, patch: Option<string>, day: string)
    ensures ExecuteAsWritten(w, {SummaryKey}, package, patch, day).0 == Step(w, Fail(MissingKey(DeletedKey)))
    ensures ExecuteAsWritten(w, {SummaryKey}, package, patch, day).0.w.log == w.log
  {
    assert DeletedKey != SummaryKey;
  }

  /** A whole invocation as intended: the summary key is present afterwards
      exactly when `main()` succeeded, and no other key changes. */
  function Execute(w: World, env: set<string>, package: string, patch: Option<string>, day: string)
    : (r: (Step<Summary>, set<string>))
    ensures r.0 == Main(w, package, patch, day)
    ensures SummaryKey in r.1 <==> r.0.out.Ok?
    ensures forall k :: k != SummaryKey ==> (k in r.1 <==> k in env)
  {
    var env1 := ClearSummary(env);
    var m := Main(w, package, patch, day);
    (m, if m.out.Ok? then env1 + {SummaryKey} else env1)
  }

  // ---------------------------------------------------------------------
  // The patch-policy loop
  // ---------------------------------------------------------------------

  /** No two listed entries share an id. */
  ghost predicate DistinctEntryIds(es: seq<Entry>)
  {
    forall i, j :: 0 <= i < j < |es| ==> es[i].id != es[j].id
  }

  /** Every listed entry names a stored patch policy by its id and name. */
  ghost predicate Listed(es: seq<Entry>, pps: seq<PatchPolicy>)
  {
    forall i :: 0 <= i < |es| ==> Stored(es[i], pps)
  }

  /** Some stored patch policy carries the entry's id and name. */
  ghost predicate Stored(e: Entry, pps: seq<PatchPolicy>)
  {
    exists k :: 0 <= k < |pps| && pps[k].id == e.id && pps[k].name == e.name
  }

  /** Some listed entry has the id `id`. */
  ghost predicate IdListed(es: seq<Entry>, id: string)
  {
    exists i :: 0 <= i < |es| && es[i].id == id
  }

  /** One listed patch policy ends up with exactly its Production edit, every other unchanged. */
  lemma EditListedApplies(w: World, e: Entry, k: nat, version: string, title: string, day: string)
    requires UniquePatchPolicyIds(w.db.patchPolicies)
    requires k < |w.db.patchPolicies| && w.db.patchPolicies[k].id == e.id && w.db.patchPolicies[k].name == e.name
    ensures var r := EditListed(w, e, version, title, day);
            && (Happy(w) ==> r.out.Ok? && Happy(r.w))
            && (r.out.Ok? ==> r.w.db.patchPolicies == w.db.patchPolicies[k := ProductionEdit(w.db.patchPolicies[k], version, title, day)])
  {
    var pps := w.db.patchPolicies;
    FetchByUniqueId(pps, k);
    var promote := (pp: PatchPolicy) => Promote(pp, version, title, day);
    var s1 := if Contains(e.name, "Stable") then EditById(w, e.id, promote) else Step(w, Ok(()));
    var p1 := if Contains(e.name, "Stable") then Promote(pps[k], version, title, day) else pps[k];
    if s1.out.Ok? {
      assert s1.w.db.patchPolicies == pps[k := p1];
      assert UniquePatchPolicyIds(s1.w.db.patchPolicies);
      FetchByUniqueId(s1.w.db.patchPolicies, k);
    }
  }

  /** An id is listed when it heads the list or is listed in its tail. */
  lemma IdListedCons(es: seq<Entry>, id: string)
    requires |es| > 0
    ensures IdListed(es, id) <==> es[0].id == id || IdListed(es[1..], id)
  {
    if IdListed(es, id) && es[0].id != id {
      var i :| 0 <= i < |es| && es[i].id == id;
      assert es[1..][i - 1].id == id;
    }
    if IdListed(es[1..], id) {
      var i :| 0 <= i < |es[1..]| && es[1..][i].id == id;
      assert es[i + 1].id == id;
    }
  }

  /** After the head entry has been processed, the tail still names stored records. */
  lemma ListedTail(es: seq<Entry>, pps: seq<PatchPolicy>, k0: nat, p: PatchPolicy)
    requires |es| > 0 && DistinctEntryIds(es) && Listed(es, pps)
    requires k0 < |pps| && pps[k0].id == es[0].id
    ensures Listed(es[1..], pps[k0 := p])
    ensures DistinctEntryIds(es[1..])
    ensures !IdListed(es[1..], es[0].id)
  {
    var pps' := pps[k0 := p];
    forall i | 0 <= i < |es[1..]|
      ensures Stored(es[1..][i], pps')
    {
      assert es[1..][i] == es[i + 1];
      assert Stored(es[i + 1], pps);
      var k :| 0 <= k < |pps| && pps[k].id == es[i + 1].id && pps[k].name == es[i + 1].name;
      assert es[0].id != es[i + 1].id;
      assert k != k0;
      assert pps'[k] == pps[k];
      assert 0 <= k < |pps'| && pps'[k].id == es[1..][i].id && pps'[k].name == es[1..][i].name;
    }
    forall i, j | 0 <= i < j < |es[1..]|
      ensures es[1..][i].id != es[1..][j].id
    {
      assert es[1..][i] == es[i + 1] && es[1..][j] == es[j + 1];
    }
    forall i | 0 <= i < |es[1..]|
      ensures es[1..][i].id != es[0].id
    {
      assert es[1..][i] == es[i + 1];
    }
  }

  /** The Production edit keeps a patch policy's id and name. */
  lemma ProductionEditKeepsIdentity(pp: PatchPolicy, version: string, title: string, day: string)
    ensures ProductionEdit(pp, version, title, day).id == pp.id
    ensures ProductionEdit(pp, version, title, day).name == pp.name
  {
  }

  /** The loop applies the Production edit to every listed patch policy and to
      nothing else; when every call succeeds it does not fail. */
  lemma {:induction false} EditAllApplies(w: World, es: seq<Entry>, version: string, title: string, day: string)
    requires UniquePatchPolicyIds(w.db.patchPolicies) && DistinctEntryIds(es) && Listed(es, w.db.patchPolicies)
    ensures var r := EditAll(w, es, version, title, day);
            var pps := w.db.patchPolicies;
            && (Happy(w) ==> r.out.Ok?)
            && (r.out.Ok? ==>
                  forall k :: 0 <= k < |pps| ==>
                    r.w.db.patchPolicies[k] ==
                      if IdListed(es, pps[k].id) then ProductionEdit(pps[k], version, title, day) else pps[k])
    decreases |es|
  {
    var pps := w.db.patchPolicies;
    if |es| > 0 {
      var e := es[0];
      var k0 :| 0 <= k0 < |pps| && pps[k0].id == e.id && pps[k0].name == e.name;
      EditListedApplies(w, e, k0, version, title, day);
      var s := EditListed(w, e, version, title, day);
      if s.out.Ok? {
        var edited := ProductionEdit(pps[k0], version, title, day);
        ProductionEditKeepsIdentity(pps[k0], version, title, day);
        var pps' := s.w.db.patchPolicies;
        assert pps' == pps[k0 := edited];
        assert UniquePatchPolicyIds(pps');
        ListedTail(es, pps, k0, edited);
        EditAllApplies(s.w, es[1..], version, title, day);
        var r := EditAll(s.w, es[1..], version, title, day);
        assert EditAll(w, es, version, title, day) == r;
        if r.out.Ok? {
          forall k | 0 <= k < |pps|
            ensures r.w.db.patchPolicies[k] ==
                      if IdListed(es, pps[k].id) then ProductionEdit(pps[k], version, title, day) else pps[k]
          {
            IdListedCons(es, pps[k].id);
            if k != k0 {
              assert pps'[k] == pps[k];
            }
          }
        }
      }
    }
  }

  /** Under unique ids the listing of a title's patch policies names each record once. */
  lemma {:induction false} EntriesDistinct(pps: seq<PatchPolicy>, titleId: string)
    requires UniquePatchPolicyIds(pps)
    ensures DistinctEntryIds(PatchPolicyEntries(pps, titleId))
    decreases |pps|
  {
    if |pps| > 0 {
      var tail := pps[1..];
      assert UniquePatchPolicyIds(tail) by {
        forall i, j | 0 <= i < j < |tail| ensures tail[i].id != tail[j].id {
          assert tail[i] == pps[i + 1] && tail[j] == pps[j + 1];
        }
      }
      EntriesDistinct(tail, titleId);
      var rest := PatchPolicyEntries(tail, titleId);
      if pps[0].titleId == titleId {
        var es := [Entry(pps[0].id, pps[0].name)] + rest;
        assert PatchPolicyEntries(pps, titleId) == es;
        forall j | 1 <= j < |es| ensures es[j].id != es[0].id {
          assert es[j] == rest[j - 1] && rest[j - 1] in rest;
          var pp :| pp in tail && pp.titleId == titleId && rest[j - 1] == Entry(pp.id, pp.name);
          var m :| 0 <= m < |tail| && tail[m] == pp;
          assert pps[m + 1] == pp;
        }
        forall i, j | 0 <= i < j < |es| ensures es[i].id != es[j].id {
          if i > 0 {
            assert es[i] == rest[i - 1] && es[j] == rest[j - 1];
          }
        }
      }
    }
  }

  /** The listing of a title's patch policies names stored records, and under
      unique ids it names exactly the records of that title. */
  lemma EntriesListed(pps: seq<PatchPolicy>, titleId: string)
    requires UniquePatchPolicyIds(pps)
    ensures Listed(PatchPolicyEntries(pps, titleId), pps)
    ensures forall k :: 0 <= k < |pps| ==>
              (IdListed(PatchPolicyEntries(pps, titleId), pps[k].id) <==> pps[k].titleId == titleId)
  {
    var es := PatchPolicyEntries(pps, titleId);
    forall i | 0 <= i < |es| ensures Stored(es[i], pps) {
      assert es[i] in es;
      var pp :| pp in pps && pp.titleId == titleId && es[i] == Entry(pp.id, pp.name);
      var m :| 0 <= m < |pps| && pps[m] == pp;
    }
    forall k | 0 <= k < |pps|
      ensures IdListed(es, pps[k].id) <==> pps[k].titleId == titleId
    {
      if pps[k].titleId == titleId {
        assert pps[k] in pps;
        var e := Entry(pps[k].id, pps[k].name);
        assert e in es;
        var i :| 0 <= i < |es| && es[i] == e;
      }
      if IdListed(es, pps[k].id) {
        var i :| 0 <= i < |es| && es[i].id == pps[k].id;
        assert es[i] in es;
        var pp :| pp in pps && pp.titleId == titleId && es[i] == Entry(pp.id, pp.name);
        var m :| 0 <= m < |pps| && pps[m] == pp;
        assert m == k;
      }
    }
  }

  /** `patch()` when every call succeeds, the title is listed and its version is
      declared: the version gets the package, and exactly the patch policies of
      that title receive their Production edit. */
  lemma PatchEditsTitlePolicies(w: World, title: string, patch: string, rel: Release, day: string)
    requires Happy(w) && UniquePatchPolicyIds(w.db.patchPolicies)
    requires SelectedTitle(w.db.titles, patch).Some?
    requires AttachExact(w.db.titles[SelectedTitle(w.db.titles, patch).value].versions, rel.version, rel.ref).Some?
    ensures var r := Patch(w, title, patch, rel, day);
            var j := SelectedTitle(w.db.titles, patch).value;
            var t := w.db.titles[j];
            var pps := w.db.patchPolicies;
            && r.out.Ok?
            && r.w.db.titles == w.db.titles[j := t.(versions := AttachExact(t.versions, rel.version, rel.ref).value)]
            && |r.w.db.patchPolicies| == |pps|
            && forall k :: 0 <= k < |pps| ==>
                 r.w.db.patchPolicies[k] ==
                   if pps[k].titleId == t.id then ProductionEdit(pps[k], rel.version, title, day) else pps[k]
  {
    var pps := w.db.patchPolicies;
    var j := SelectedTitle(w.db.titles, patch).value;
    PatchPhases(w, title, patch, rel, day);
    AttachReleaseSelects(w, title, patch, rel);
    var a := AttachRelease(w, title, patch, rel);
    assert a.out == Ok(w.db.titles[j].id);
    var l := GetPatchPolicyList(a.w, a.out.value);
    var es := PatchPolicyEntries(pps, a.out.value);
    assert l.out == Ok(es);
    EntriesDistinct(pps, a.out.value);
    EntriesListed(pps, a.out.value);
    EditAllApplies(l.w, es, rel.version, title, day);
  }

  /** A run in which every call succeeds and every record is in place promotes
      the package: the Install policy now installs the Test policy's package,
      the matching version carries it, exactly the patch policies of the title
      receive their Production edit, and the summary names the version. */
  lemma MainPromotes(w: World, package: string, patch: Option<string>, day: string)
    requires Happy(w) && UniquePatchPolicyIds(w.db.patchPolicies)
    requires PolicyNamed(w.db, TestPolicyName(package)).Some?
    requires PolicyNamed(w.db, TestPolicyName(package)).value.package.Some?
    requires '-' in PolicyNamed(w.db, TestPolicyName(package)).value.package.value.name
    requires PolicyNamed(w.db, InstallPolicyName(package)).Some?
    requires PolicyNamed(w.db, InstallPolicyName(package)).value.package.Some?
    requires SelectedTitle(w.db.titles, PatchTitleName(package, patch)).Some?
    requires var ref := PolicyNamed(w.db, TestPolicyName(package)).value.package.value;
             var j := SelectedTitle(w.db.titles, PatchTitleName(package, patch)).value;
             AttachExact(w.db.titles[j].versions, Version(ref.name).value, ref).Some?
    ensures var r := Main(w, package, patch, day);
            var ref := PolicyNamed(w.db, TestPolicyName(package)).value.package.value;
            var version := Version(ref.name).value;
            var i := FirstPolicyNamed(w.db.policies, InstallPolicyName(package)).value;
            var t := w.db.titles[SelectedTitle(w.db.titles, PatchTitleName(package, patch)).value];
            var pps := w.db.patchPolicies;
            && r.out == Ok(Summary(package, version))
            && |r.w.db.policies| == |w.db.policies|
            && r.w.db.policies[i].package == Some(ref)
            && (forall m :: 0 <= m < |w.db.policies| && m != i ==> r.w.db.policies[m] == w.db.policies[m])
            && |r.w.db.patchPolicies| == |pps|
            && forall k :: 0 <= k < |pps| ==>
                 r.w.db.patchPolicies[k] ==
                   if pps[k].titleId == t.id then ProductionEdit(pps[k], version, package, day) else pps[k]
  {
    MainPhases(w, package, patch, day);
    ReleaseInstalled(w, package);
    var s := ReadRelease(w, TestPolicyName(package));
    var rel := s.out.value;
    var u := UpdateInstall(s.w, package, rel);
    PatchEditsTitlePolicies(u.w, package, PatchTitleName(package, patch), rel, day);
  }

  /** When every call succeeds and both policies point at a package: the
      release is the package of the TEST policy with the version in its file
      name, and only the Install policy changes, to point at that package. */
  lemma ReleaseInstalled(w: World, package: string)
    requires Happy(w)
    requires PolicyNamed(w.db, TestPolicyName(package)).Some?
    requires PolicyNamed(w.db, TestPolicyName(package)).value.package.Some?
    requires '-' in PolicyNamed(w.db, TestPolicyName(package)).value.package.value.name
    requires PolicyNamed(w.db, InstallPolicyName(package)).Some?
    requires PolicyNamed(w.db, InstallPolicyName(package)).value.package.Some?
    ensures var ref := PolicyNamed(w.db, TestPolicyName(package)).value.package.value;
            var s := ReadRelease(w, TestPolicyName(package));
            var u := UpdateInstall(s.w, package, s.out.value);
            var i := FirstPolicyNamed(w.db.policies, InstallPolicyName(package)).value;
            && s.out.Ok? && s.out.value.ref == ref && Version(ref.name) == Some(s.out.value.version)
            && u.out.Ok? && Happy(u.w)
            && u.w.db.(policies := w.db.policies) == w.db
            && |u.w.db.policies| == |w.db.policies|
            && u.w.db.policies[i].package == Some(ref)
            && (forall m :: 0 <= m < |w.db.policies| && m != i ==> u.w.db.policies[m] == w.db.policies[m])
  {
  }
}


=== FILE: production_writes.dfy ===
/** The order in which a Production run commits its writes: the Install policy
    first, then the patch definition, then patch policies only; and the first
    call answered with anything but success ends the run. */
module ProductionWrites {
  import opened Outcomes
  import opened Seqs
  import opened Names
  import opened Records
  import opened Backend
  import opened Production

  /** Only patch policies were written. */
  predicate OnlyPatchPolicies(ws: seq<Resource>)
  {
    forall i :: 0 <= i < |ws| ==> ws[i].PatchPolicyById?
  }

  /** The writes of `patch()`: nothing, or the patch definition followed by patch policies. */
  predicate PatchOrder(ws: seq<Resource>)
  {
    ws == [] || (ws[0].PatchTitleById? && OnlyPatchPolicies(ws[1..]))
  }

  /** The writes of `main()`: nothing, or the Install policy followed by the writes of `patch()`. */
  predicate MainOrder(ws: seq<Resource>, title: string)
  {
    ws == [] || (ws[0] == PolicyByName(InstallPolicyName(title)) && PatchOrder(ws[1..]))
  }

  /** Writing the Install policy commits that one write, and only on success. */
  lemma UpdateInstallWrites(w: World, title: string, rel: Release)
    ensures var r := UpdateInstall(w, title, rel);
            && Extends(w, r.w)
            && Writes(w, r.w) == if r.out.Ok? then [PolicyByName(InstallPolicyName(title))] else []
  {
    var r := UpdateInstall(w, title, rel);
    WritesAppended(w, r.w, if r.out.Ok? then [PolicyByName(InstallPolicyName(title))] else []);
  }

  /** Attaching the release commits the patch definition, and only on success. */
  lemma AttachReleaseWrites(w: World, title: string, patch: string, rel: Release)
    ensures var r := AttachRelease(w, title, patch, rel);
            && Extends(w, r.w)
            && Writes(w, r.w) == if r.out.Ok? then [PatchTitleById(r.out.value)] else []
  {
    var r := AttachRelease(w, title, patch, rel);
    WritesAppended(w, r.w, if r.out.Ok? then [PatchTitleById(r.out.value)] else []);
  }

  /** Editing one patch policy by id commits that one write, and only on success. */
  lemma EditByIdWrites(w: World, id: string, edit: PatchPolicy -> PatchPolicy)
    ensures var r := EditById(w, id, edit);
            && Extends(w, r.w)
            && Writes(w, r.w) == if r.out.Ok? then [PatchPolicyById(id)] else []
  {
    var r := EditById(w, id, edit);
    WritesAppended(w, r.w, if r.out.Ok? then [PatchPolicyById(id)] else []);
  }

  /** Handling one listed patch policy writes patch policies only. */
  lemma EditListedWrites(w: World, e: Entry, version: string, title: string, day: string)
    ensures var r := EditListed(w, e, version, title, day);
            Extends(w, r.w) && OnlyPatchPolicies(Writes(w, r.w))
  {
    var promote := (pp: PatchPolicy) => Promote(pp, version, title, day);
    var s1 := if Contains(e.name, "Stable") then EditById(w, e.id, promote) else Step(w, Ok(()));
    if Contains(e.name, "Stable") {
      EditByIdWrites(w, e.id, promote);
    } else {
      WritesAppended(w, w, []);
    }
    if s1.out.Ok? && Contains(e.name, "Test") {
      EditByIdWrites(s1.w, e.id, Retire);
      WritesCompose(w, s1.w, EditById(s1.w, e.id, Retire).w);
    }
  }

  /** The loop over the listed patch policies writes patch policies only. */
  lemma {:induction false} EditAllWrites(w: World, es: seq<Entry>, version: string, title: string, day: string)
    ensures var r := EditAll(w, es, version, title, day);
            Extends(w, r.w) && OnlyPatchPolicies(Writes(w, r.w))
    decreases |es|
  {
    if |es| == 0 {
      WritesAppended(w, w, []);
    } else {
      var s := EditListed(w, es[0], version, title, day);
      EditListedWrites(w, es[0], version, title, day);
      if s.out.Ok? {
        var r := EditAll(s.w, es[1..], version, title, day);
        EditAllWrites(s.w, es[1..], version, title, day);
        WritesCompose(w, s.w, r.w);
      }
    }
  }

  /** `patch()` writes the patch definition before any patch policy; when the
      title or the version is missing it writes nothing. */
  lemma PatchWrites(w: World, title: string, patch: string, rel: Release, day: string)
    ensures var r := Patch(w, title, patch, rel, day);
            && Extends(w, r.w)
            && PatchOrder(Writes(w, r.w))
            && (r.out.Ok? ==> Writes(w, r.w) != [])
            && (r.out.Fail? && (r.out.err.TitleNotFound? || r.out.err.VersionNotFound?) ==> Writes(w, r.w) == [])
            && (r.out.Fail? ==> !r.out.err.MissingPackageDefinition? && !r.out.err.BadPackageName?)
  {
    PatchPhases(w, title, patch, rel, day);
    var a := AttachRelease(w, title, patch, rel);
    AttachReleaseWrites(w, title, patch, rel);
    if a.out.Ok? {
      var l := GetPatchPolicyList(a.w, a.out.value);
      WritesAppended(a.w, l.w, []);
      WritesCompose(w, a.w, l.w);
      if l.out.Ok? {
        var e := EditAll(l.w, l.out.value, rel.version, title, day);
        EditAllWrites(l.w, l.out.value, rel.version, title, day);
        WritesCompose(w, l.w, e.w);
        var ws := Writes(w, e.w);
        assert ws == [PatchTitleById(a.out.value)] + Writes(l.w, e.w);
        assert ws[1..] == Writes(l.w, e.w);
      }
    }
  }

  /** `main()` writes the Install policy first, then the patch definition, then
      patch policies; a run that succeeds wrote at least the first two, and a run
      stopped by a missing title or version wrote the Install policy alone. */
  lemma MainWritesInOrder(w: World, package: string, patch: Option<string>, day: string)
    ensures Extends(w, Main(w, package, patch, day).w)
    ensures var r := Main(w, package, patch, day);
            var ws := Writes(w, r.w);
            && MainOrder(ws, package)
            && (r.out.Ok? ==> |ws| >= 2)
            && (r.out.Fail? && (r.out.err.TitleNotFound? || r.out.err.VersionNotFound?) ==>
                  ws == [PolicyByName(InstallPolicyName(package))])
            && (r.out.Fail? && (r.out.err.MissingPackageDefinition? || r.out.err.BadPackageName?) ==> ws == [])
  {
    MainPhases(w, package, patch, day);
    var s := ReadRelease(w, TestPolicyName(package));
    WritesAppended(w, s.w, []);
    if s.out.Ok? {
      var rel := s.out.value;
      var u := UpdateInstall(s.w, package, rel);
      UpdateInstallWrites(s.w, package, rel);
      WritesCompose(w, s.w, u.w);
      if u.out.Ok? {
        var name := PatchTitleName(package, patch);
        var p := Patch(u.w, package, name, rel, day);
        PatchWrites(u.w, package, name, rel, day);
        MainAfterInstall(w, u.w, p.w, package);
      } else {
        assert Writes(w, u.w) == [];
      }
    }
  }

  /** The writes of `main()` once the Install policy has been written. */
  lemma MainAfterInstall(w: World, u: World, p: World, package: string)
    requires Extends(w, u) && Extends(u, p)
    requires Writes(w, u) == [PolicyByName(InstallPolicyName(package))]
    requires PatchOrder(Writes(u, p))
    ensures Extends(w, p)
    ensures Writes(w, p) == [PolicyByName(InstallPolicyName(package))] + Writes(u, p)
    ensures MainOrder(Writes(w, p), package)
  {
    WritesCompose(w, u, p);
    assert Writes(w, p)[1..] == Writes(u, p);
  }

  // ---------------------------------------------------------------------
  // Every failed call is fatal
  // ---------------------------------------------------------------------

  /** `production()` stops at the first answer other than success, with that status. */
  lemma UpdateInstallStops(w: World, title: string, rel: Release)
    ensures StopsAtFailure(w, UpdateInstall(w, title, rel))
  {
    var name := InstallPolicyName(title);
    var s1 := GetPolicyByName(w, name);
    CallsStop(w);
    if s1.out.Ok? {
      match Repoint(s1.out.value, rel.ref)
      case Fail(_) =>
      case Ok(p) =>
        CallsStop(s1.w);
        StopsThen(w, s1, PutPolicyByName(s1.w, name, p));
    }
  }

  /** Attaching the release stops at the first answer other than success, with that status. */
  lemma AttachReleaseStops(w: World, title: string, patch: string, rel: Release)
    ensures StopsAtFailure(w, AttachRelease(w, title, patch, rel))
  {
    var s1 := GetTitleList(w);
    PatchCallsStop(w);
    if s1.out.Ok? {
      match FirstTitleNamed(s1.out.value, patch)
      case None =>
      case Some(k) =>
        var ident := s1.out.value[k].id;
        var s2 := GetTitleById(s1.w, ident);
        PatchCallsStop(s1.w);
        StopsThen(w, s1, s2);
        if s2.out.Ok? {
          var t := s2.out.value;
          match AttachExact(t.versions, rel.version, rel.ref)
          case None =>
          case Some(vs) =>
            PatchCallsStop(s2.w);
            StopsThen(w, s2, PutTitleById(s2.w, ident, t.(versions := vs)));
        }
    }
  }

  /** Editing one patch policy by id stops at the first answer other than success, with that status. */
  lemma EditByIdStops(w: World, id: string, edit: PatchPolicy -> PatchPolicy)
    ensures StopsAtFailure(w, EditById(w, id, edit))
  {
    var s1 := GetPatchPolicyById(w, id);
    PatchCallsStop(w);
    if s1.out.Ok? {
      PatchCallsStop(s1.w);
      StopsThen(w, s1, PutPatchPolicyById(s1.w, id, edit(s1.out.value)));
    }
  }

  /** Handling one listed patch policy stops at the first answer other than success. */
  lemma EditListedStops(w: World, e: Entry, version: string, title: string, day: string)
    ensures StopsAtFailure(w, EditListed(w, e, version, title, day))
  {
    var promote := (pp: PatchPolicy) => Promote(pp, version, title, day);
    var s1 := if Contains(e.name, "Stable") then EditById(w, e.id, promote) else Step(w, Ok(()));
    if Contains(e.name, "Stable") {
      EditByIdStops(w, e.id, promote);
    } else {
      Idle(w, Ok(()));
    }
    if s1.out.Ok? && Contains(e.name, "Test") {
      EditByIdStops(s1.w, e.id, Retire);
      StopsThen(w, s1, EditById(s1.w, e.id, Retire));
    }
  }

  /** The loop over the listed patch policies stops at the first answer other
      than success: no later patch policy is read or written. */
  lemma {:induction false} EditAllStops(w: World, es: seq<Entry>, version: string, title: string, day: string)
    ensures StopsAtFailure(w, EditAll(w, es, version, title, day))
    decreases |es|
  {
    if |es| == 0 {
      Idle(w, Ok(()));
    } else {
      var s := EditListed(w, es[0], version, title, day);
      EditListedStops(w, es[0], version, title, day);
      if s.out.Ok? {
        EditAllStops(s.w, es[1..], version, title, day);
        StopsThen(w, s, EditAll(s.w, es[1..], version, title, day));
      }
    }
  }

  /** `patch()` stops at the first answer other than success, with that status. */
  lemma PatchStops(w: World, title: string, patch: string, rel: Release, day: string)
    ensures StopsAtFailure(w, Patch(w, title, patch, rel, day))
  {
    PatchPhases(w, title, patch, rel, day);
    var a := AttachRelease(w, title, patch, rel);
    AttachReleaseStops(w, title, patch, rel);
    if a.out.Ok? {
      var l := GetPatchPolicyList(a.w, a.out.value);
      PatchCallsStop(a.w);
      StopsThen(w, a, l);
      if l.out.Ok? {
        EditAllStops(l.w, l.out.value, rel.version, title, day);
        StopsThen(w, l, EditAll(l.w, l.out.value, rel.version, title, day));
      }
    }
  }

  /** A non-success answer stops the run: the call that got it is the last one
      made, the run fails with its status, and the writes committed are those
      of the successful PUTs before it. */
  lemma MainStopsAtFailure(w: World, package: string, patch: Option<string>, day: string)
    ensures StopsAtFailure(w, Main(w, package, patch, day))
    ensures FailureIsFinal(w, Main(w, package, patch, day))
  {
    MainPhases(w, package, patch, day);
    var s := ReadRelease(w, TestPolicyName(package));
    ReadReleaseStops(w, TestPolicyName(package));
    if s.out.Ok? {
      var rel := s.out.value;
      var u := UpdateInstall(s.w, package, rel);
      UpdateInstallStops(s.w, package, rel);
      StopsThen(w, s, u);
      if u.out.Ok? {
        var p := Patch(u.w, package, PatchTitleName(package, patch), rel, day);
        PatchStops(u.w, package, PatchTitleName(package, patch), rel, day);
        StopsThen(w, u, p);
      }
    }
    StopsAtFailureMeans(w, Main(w, package, patch, day));
  }
}

=== FILE: records.dfy ===
/** The backend's records, as the processors read and rewrite them, and the
    pure edits each processor applies before writing a record back. */
module Records {
  import opened Outcomes
  import opened Seqs
  import opened Names

  /** The package element of a policy or of a patch-definition version. */
  datatype PackageRef = PackageRef(id: string, name: string)

  /** A deployment policy ("TEST-<title>", "Test-<title>", "Install <title>");
      `package` is `None` when the record has no package element. */
  datatype Policy = Policy(id: string, name: string, enabled: bool, package: Option<PackageRef>)

  /** A package record; `category` and `notes` are set after upload. */
  datatype PackageRecord = PackageRecord(id: string, name: string, category: string, notes: string)

  /** One declared version of a patch definition; an empty `packageName`
      means no package is attached yet. */
  datatype PatchVersion = PatchVersion(softwareVersion: string, packageId: string, packageName: string)

  /** A patch software title with its declared versions, in declaration order. */
  datatype PatchTitle = PatchTitle(id: string, name: string, versions: seq<PatchVersion>)

  /** A patch policy of one patch title. */
  datatype PatchPolicy = PatchPolicy(
    id: string, name: string, titleId: string,
    targetVersion: string, releaseDate: string, enabled: bool, description: string)

  /** An item of a listing: the `{name, id}` pair the backend returns. */
  datatype Entry = Entry(id: string, name: string)

  /** The package a deployment policy installs and the version derived from its file name. */
  datatype Release = Release(ref: PackageRef, version: string)

  /** A version record already points at a package. */
  predicate IsAttached(v: PatchVersion)
  {
    v.packageName != ""
  }

  /** `v` with the package `ref` attached. */
  function WithPackage(v: PatchVersion, ref: PackageRef): PatchVersion
  {
    v.(packageId := ref.id, packageName := ref.name)
  }

  // ---------------------------------------------------------------------
  // Deployment-policy edits
  // ---------------------------------------------------------------------

  /** Production's Install-policy rewrite: point the policy at the package of
      the test policy. A policy with no package element makes the source raise. */
  function Repoint(p: Policy, ref: PackageRef): (r: Outcome<Policy>)
    ensures r.Ok? <==> p.package.Some?
    ensures r.Fail? ==> r.err == MissingPackageDefinition
    ensures r.Ok? ==> r.value.package == Some(ref)
    ensures r.Ok? ==> r.value.id == p.id && r.value.name == p.name && r.value.enabled == p.enabled
  {
    if p.package.None? then Fail(MissingPackageDefinition)
    else Ok(p.(package := Some(ref)))
  }

  /** JPCImporter's TEST-policy rewrite: point the policy at the freshly
      uploaded package and leave it disabled. */
  function ArmTestPolicy(p: Policy, ref: PackageRef): (r: Outcome<Policy>)
    ensures r.Ok? <==> p.package.Some?
    ensures r.Fail? ==> r.err == MissingPackageDefinition
    ensures r.Ok? ==> r.value.package == Some(ref) && !r.value.enabled
    ensures r.Ok? ==> r.value.id == p.id && r.value.name == p.name
  {
    if p.package.None? then Fail(MissingPackageDefinition)
    else Ok(p.(package := Some(ref), enabled := false))
  }

  // ---------------------------------------------------------------------
  // Patch-definition edits
  // ---------------------------------------------------------------------

  /** The first declared version whose label contains `version` (PatchManager). */
  function FirstContaining(vs: seq<PatchVersion>, version: string): Option<nat>
  {
    FirstIndex(vs, (v: PatchVersion) => Contains(v.softwareVersion, version))
  }

  /** The first declared version whose label is exactly `version` (Production). */
  function FirstEqual(vs: seq<PatchVersion>, version: string): Option<nat>
  {
    FirstIndex(vs, (v: PatchVersion) => v.softwareVersion == version)
  }

  /** What PatchManager's scan of the declared versions decides. */
  datatype Attach =
    | NoMatch                                              // raise "version not found"
    | AlreadyAttached(matched: string)                       // return 0, no write
    | Attached(versions: seq<PatchVersion>, matched: string) // write these versions back

  /** PatchManager's attach: the first version whose label contains the derived
      version is selected; if it already has a package nothing is written,
      otherwise the package is attached to that record alone. */
  function AttachContaining(vs: seq<PatchVersion>, version: string, ref: PackageRef): (r: Attach)
    ensures r.NoMatch? <==> forall j :: 0 <= j < |vs| ==> !Contains(vs[j].softwareVersion, version)
    ensures !r.NoMatch? ==>
              var i := FirstContaining(vs, version).value;
              && Contains(vs[i].softwareVersion, version)
              && (forall j :: 0 <= j < i ==> !Contains(vs[j].softwareVersion, version))
              && r.matched == vs[i].softwareVersion
              && (r.AlreadyAttached? <==> IsAttached(vs[i]))
    ensures r.Attached? ==>
              var i := FirstContaining(vs, version).value;
              && |r.versions| == |vs|
              && r.versions[i] == WithPackage(vs[i], ref)
              && (forall j :: 0 <= j < |vs| && j != i ==> r.versions[j] == vs[j])
  {
    match FirstContaining(vs, version)
    case None => NoMatch
    case Some(i) =>
      if IsAttached(vs[i]) then AlreadyAttached(vs[i].softwareVersion)
      else Attached(vs[i := WithPackage(vs[i], ref)], vs[i].softwareVersion)
  }

  /** Production's attach: the first version whose label equals the derived
      version gets the package, whether or not it already had one. */
  function AttachExact(vs: seq<PatchVersion>, version: string, ref: PackageRef): (r: Option<seq<PatchVersion>>)
    ensures r.None? <==> forall j :: 0 <= j < |vs| ==> vs[j].softwareVersion != version
    ensures r.Some? ==>
              var i := FirstEqual(vs, version).value;
              && vs[i].softwareVersion == version
              && (forall j :: 0 <= j < i ==> vs[j].softwareVersion != version)
              && |r.value| == |vs|
              && r.value[i] == WithPackage(vs[i], ref)
              && (forall j :: 0 <= j < |vs| && j != i ==> r.value[j] == vs[j])
  {
    match FirstEqual(vs, version)
    case None => None
    case Some(i) => Some(vs[i := WithPackage(vs[i], ref)])
  }

  /** Two version lists with the same labels select the same record. */
  lemma SameLabelsSameContaining(vs: seq<PatchVersion>, ws: seq<PatchVersion>, version: string)
    requires |vs| == |ws|
    requires forall j :: 0 <= j < |vs| ==> ws[j].softwareVersion == vs[j].softwareVersion
    ensures FirstContaining(ws, version) == FirstContaining(vs, version)
  {
    FirstIndexAgrees(ws, (v: PatchVersion) => Contains(v.softwareVersion, version),
                     vs, (v: PatchVersion) => Contains(v.softwareVersion, version));
  }

  /** PatchManager's attach converges: once it has attached a named package,
      a second pass over the written versions finds the same record already attached. */
  lemma AttachContainingConverges(vs: seq<PatchVersion>, version: string, ref: PackageRef, ref2: PackageRef)
    requires ref.name != ""
    requires AttachContaining(vs, version, ref).Attached?
    ensures var r := AttachContaining(vs, version, ref);
            AttachContaining(r.versions, version, ref2) == AlreadyAttached(r.matched)
  {
    var r := AttachContaining(vs, version, ref);
    var i := FirstContaining(vs, version).value;
    assert forall j :: 0 <= j < |vs| ==> r.versions[j].softwareVersion == vs[j].softwareVersion;
    SameLabelsSameContaining(vs, r.versions, version);
  }

  /** Production's attach is idempotent: attaching the same package again writes the same versions. */
  lemma AttachExactIdempotent(vs: seq<PatchVersion>, version: string, ref: PackageRef)
    requires AttachExact(vs, version, ref).Some?
    ensures var ws := AttachExact(vs, version, ref).value;
            AttachExact(ws, version, ref) == Some(ws)
  {
    var ws := AttachExact(vs, version, ref).value;
    var i := FirstEqual(vs, version).value;
    assert forall j :: 0 <= j < |vs| ==> ws[j].softwareVersion == vs[j].softwareVersion;
    assert FirstEqual(ws, version) == Some(i);
    assert WithPackage(ws[i], ref) == ws[i];
    assert ws[i := WithPackage(ws[i], ref)] == ws;
  }

  /** An exact match is also a substring match, so when Production's scan finds a
      version, PatchManager's finds one no later in the list. */
  lemma ExactMatchIsContainingMatch(vs: seq<PatchVersion>, version: string)
    requires FirstEqual(vs, version).Some?
    ensures FirstContaining(vs, version).Some?
    ensures FirstContaining(vs, version).value <= FirstEqual(vs, version).value
  {
    var i := FirstEqual(vs, version).value;
    ContainsSelf(version);
    assert Contains(vs[i].softwareVersion, version);
  }

  /** Substring matching can select a longer label: with "3.2.1" declared before
      "3.2", the version "3.2" selects "3.2.1", while the exact scan selects "3.2". */
  lemma ContainingMatchesLongerLabel()
    ensures var vs := [PatchVersion("3.2.1", "", ""), PatchVersion("3.2", "", "")];
            && FirstContaining(vs, "3.2") == Some(0)
            && FirstEqual(vs, "3.2") == Some(1)
  {
    var vs := [PatchVersion("3.2.1", "", ""), PatchVersion("3.2", "", "")];
    ContainsIsOccurs("3.2.1", "3.2");
    assert OccursAt("3.2", "3.2.1", 0);
  }

  // ---------------------------------------------------------------------
  // Patch-policy edits
  // ---------------------------------------------------------------------

  /** PatchManager's "send to test" edit of the Test patch policy. */
  function SendToTest(pp: PatchPolicy, matched: string, package: string, day: string): (r: PatchPolicy)
    ensures r.targetVersion == matched && r.releaseDate == "" && r.enabled
    ensures r.description == Description(package, day)
    ensures r.id == pp.id && r.name == pp.name && r.titleId == pp.titleId
  {
    pp.(targetVersion := matched, releaseDate := "", enabled := true,
        description := Description(package, day))
  }

  /** Production's edit of a Stable patch policy; its enabled flag is left alone. */
  function Promote(pp: PatchPolicy, version: string, title: string, day: string): (r: PatchPolicy)
    ensures r.targetVersion == version && r.releaseDate == ""
    ensures r.description == Description(title, day)
    ensures r.enabled == pp.enabled
    ensures r.id == pp.id && r.name == pp.name && r.titleId == pp.titleId
  {
    pp.(targetVersion := version, releaseDate := "", description := Description(title, day))
  }

  /** Production's edit of a Test patch policy: it is disabled and nothing else changes. */
  function Retire(pp: PatchPolicy): (r: PatchPolicy)
    ensures !r.enabled
    ensures r.(enabled := pp.enabled) == pp
  {
    pp.(enabled := false)
  }

  /** Everything Production does to one listed patch policy: the Stable edit when
      its name contains "Stable", then the Test edit when it contains "Test". */
  function ProductionEdit(pp: PatchPolicy, version: string, title: string, day: string): PatchPolicy
  {
    var p1 := if Contains(pp.name, "Stable") then Promote(pp, version, title, day) else pp;
    if Contains(pp.name, "Test") then Retire(p1) else p1
  }
}

=== FILE: seqs.dfy ===
/** Searching sequences and strings: the first element with a property, and
    Python's `sub in s` substring test. */
module Seqs {
  import opened Outcomes

  /** The index of the first element of `s` satisfying `p`, as a `for … break` loop finds it. */
  function FirstIndex<T>(s: seq<T>, p: T -> bool): (r: Option<nat>)
    ensures r.Some? ==> r.value < |s| && p(s[r.value])
    ensures r.Some? ==> forall j :: 0 <= j < r.value ==> !p(s[j])
    ensures r.None? <==> forall j :: 0 <= j < |s| ==> !p(s[j])
    decreases |s|
  {
    if |s| == 0 then None
    else if p(s[0]) then Some(0)
    else
      match FirstIndex(s[1..], p)
      case None => None
      case Some(i) => Some(i + 1)
  }

  /** Two scans that ask the same question of each position stop at the same place. */
  lemma {:induction false} FirstIndexAgrees<T, U>(s: seq<T>, p: T -> bool, s': seq<U>, p': U -> bool)
    requires |s| == |s'|
    requires forall i :: 0 <= i < |s| ==> p(s[i]) == p'(s'[i])
    ensures FirstIndex(s, p) == FirstIndex(s', p')
    decreases |s|
  {
    if |s| > 0 && !p(s[0]) {
      FirstIndexAgrees(s[1..], p, s'[1..], p');
    }
  }

  /** `sub` occurs in `s` at position `i`. */
  predicate OccursAt(sub: string, s: string, i: int)
  {
    0 <= i && i + |sub| <= |s| && s[i..i + |sub|] == sub
  }

  /** `sub` occurs somewhere in `s`: the meaning of Python's `sub in s`. */
  ghost predicate Occurs(sub: string, s: string)
  {
    exists i :: OccursAt(sub, s, i)
  }

  /** Executable substring test, scanning `s` from the left. */
  function Contains(s: string, sub: string): bool
    decreases |s|
  {
    if |sub| > |s| then false
    else if s[..|sub|] == sub then true
    else Contains(s[1..], sub)
  }

  /** Occurrences in `s[1..]` are the occurrences in `s` one position to the right. */
  lemma OccursAtShift(sub: string, s: string, i: int)
    requires |s| > 0 && 0 <= i
    ensures OccursAt(sub, s[1..], i) <==> OccursAt(sub, s, i + 1)
  {
    if 0 <= i && i + |sub| <= |s| - 1 {
      assert s[1..][i..i + |sub|] == s[i + 1..i + 1 + |sub|];
    }
  }

  /** The scan answers exactly whether `sub` occurs in `s`. */
  lemma {:induction false} ContainsIsOccurs(s: string, sub: string)
    ensures Contains(s, sub) <==> Occurs(sub, s)
    decreases |s|
  {
    if |sub| > |s| {
      forall i ensures !OccursAt(sub, s, i) { }
    } else if s[..|sub|] == sub {
      assert OccursAt(sub, s, 0);
    } else {
      ContainsIsOccurs(s[1..], sub);
      if Occurs(sub, s) {
        var i :| OccursAt(sub, s, i);
        assert i != 0;
        OccursAtShift(sub, s, i - 1);
        assert OccursAt(sub, s[1..], i - 1);
      }
      if Occurs(sub, s[1..]) {
        var i :| OccursAt(sub, s[1..], i);
        OccursAtShift(sub, s, i);
        assert OccursAt(sub, s, i + 1);
      }
    }
  }

  /** Every string contains itself, so a label always matches itself. */
  lemma ContainsSelf(s: string)
    ensures Contains(s, s)
  {
    ContainsIsOccurs(s, s);
    assert OccursAt(s, s, 0);
  }
}
